=== FILE: README.md ===
# A model of the CRM front end and its checkout function

The CRM is a React single-page application over a hosted database, plus one
server function that opens a payment checkout session. This project models
its decision logic in Dafny as immutable datatypes and pure functions, and
proves properties about them:

- The three access gates: the route guard, the organization guard and the
  onboarding check.
- The state machines behind them:
  - the authentication context;
  - the organization hook;
  - the onboarding stepper;
  - the in-memory notification store.
- The sidebar's path matching and its navigation table.
- The six list pages: filters, counters, label fallbacks and cells.
- The six record forms: schema, cleaning of the payload, loading of a record
  into an edit form, and the dialog after the call.
- The `create-stripe-session` function: ordered checks, role gate, customer
  reuse, plan table, session mode, subscription row and answer code.
- The pricing page: plan table, subscribe handler and button states.

Remote calls (the database, the auth provider, the payment provider) are not
performed. Their answers are inputs: a record of answers, a success flag, or
a function from what is asked to what is answered. Side effects are returned
as values: navigations, toasts, remote writes.

Files and modules follow the source. Six modules are shared helpers:
- `Wrappers` holds `Option` for `null`/`undefined`, and `Result`.
- `Coerce` holds JavaScript falsiness: `x || null`, `x || ""`, `x || fallback`, and amounts where 0 is falsy.
- `Text` holds ASCII lower-casing, `includes`, `startsWith`, `trim` and `replace`.
- `Seqs` holds filtering, counting and subsequences.
- `ListView` holds what the list pages share: the select and search tests, the "-" cells, the client cell and counts over a list that may not have arrived.
- `Forms` holds the submission outcome, the dialog after the call and the number inputs.

## Model

| member | source | states |
|---|---|---|
| AuthContext.OnAuthStateChange | src/contexts/AuthContext.tsx:86-107 | the session and user follow the event's session; without a session, or on SIGNED_OUT, profile and organization id are cleared, otherwise kept; loading ends; a profile fetch is scheduled exactly when there is a session user |
| AuthContext.OnSessionRestored | src/contexts/AuthContext.tsx:111-120 | the restored session sets session and user, never clears profile or organization id, ends loading, and schedules a fetch exactly when there is a user |
| AuthContext.FetchProfile | src/contexts/AuthContext.tsx:48-76 | a profile error or exception changes nothing; a row sets the profile, and the organization id only when a membership row came back |
| AuthContext.RefreshProfile | src/contexts/AuthContext.tsx:78-82 | without a user id nothing happens; otherwise it is a profile fetch |
| AuthContext.UseAuth | src/contexts/AuthContext.tsx:32-38 | outside a provider the hook fails with its message; inside it returns the provider's value |
| AuthContext.LoadingNeverReturns | src/contexts/AuthContext.tsx:45-120 | once loading is false, no sequence of events sets it back to true |
| AuthContext.LoadingUntilFirstAuthAnswer | src/contexts/AuthContext.tsx:45-120 | from mount, loading is false exactly when some auth event or session restore has happened; profile fetches never end it |
| AuthContext.ProfileStepsKeepUser | src/contexts/AuthContext.tsx:48-82 | profile fetches and refreshes never change the session or user |
| AuthContext.StaleProfileFetchOutlivesSignOut | src/contexts/AuthContext.tsx:86-107 | a fetch scheduled at sign-in that lands after sign-out leaves a profile with no user |
| UseOrganization.Start | src/hooks/useOrganization.ts:42-44 | starting a lookup sets loading and clears the error, keeping organization and member |
| UseOrganization.Fetch | src/hooks/useOrganization.ts:36-81 | no user id only ends loading; a row stores member and joined organization; PGRST116 clears both without an error; any other failure keeps both and stores its message or the generic one; loading always ends |
| UseOrganization.RefetchIdempotent | src/hooks/useOrganization.ts:87-89 | a second refetch against the same answer changes nothing |
| UseOrganization.FetchForgetsLoadingAndError | src/hooks/useOrganization.ts:42-80 | with a user, the result depends on the previous state only through organization and member |
| ProtectedRoute.Rank | src/components/ProtectedRoute.tsx:30-32 | every role has rank 1 to 3 |
| ProtectedRoute.RankComparisonIsPrivilegeOrder | src/components/ProtectedRoute.tsx:30-34 | comparing ranks is the same as the case-by-case privilege order admin > manager > user |
| ProtectedRoute.AtLeastIsTotalOrder | src/components/ProtectedRoute.tsx:30-34 | that order is reflexive, antisymmetric, transitive and total |
| ProtectedRoute.Decide | src/components/ProtectedRoute.tsx:14-48 | loading gives the spinner; no user redirects to /auth; refusal exactly when a requirement and a profile are present and the role ranks lower; the page otherwise |
| ProtectedRoute.HigherRoleAlsoPasses | src/components/ProtectedRoute.tsx:29-34 | a role at least as high as one that passes also passes |
| ProtectedRoute.LowerRequirementAlsoPasses | src/components/ProtectedRoute.tsx:29-34 | lowering the requirement never refuses someone let in |
| ProtectedRoute.AdminOrUnloadedProfilePasses | src/components/ProtectedRoute.tsx:29-48 | a signed-in admin, or a signed-in user whose profile is not loaded, passes every route |
| ProtectedRoute.ManagerOnAdminRouteRefused | src/components/ProtectedRoute.tsx:34-44 | a manager on an admin route gets the in-place refusal, not a redirect |
| OrganizationGuard.Decide | src/components/OrganizationGuard.tsx:21-104 | the six-step priority: auth spinner, not signed in (fallback or card), organization spinner, error card, provisioning card, page; the page exactly when all five conditions hold |
| OrganizationGuard.ExactlyOneOutcome | src/components/OrganizationGuard.tsx:21-104 | every input meets exactly one of six flat conditions, and the guard renders that one |
| OrganizationGuard.ErrorWinsOverStaleOrganization | src/components/OrganizationGuard.tsx:59-78 | an error shows the error card even with an organization still present |
| OrganizationGuard.GateAfterLookup | src/components/OrganizationGuard.tsx:47-101 | after a completed lookup: never the spinner; PGRST116 gives provisioning, a row with organization the page, another failure the error card |
| OrganizationGuard.RetryIdempotent | src/components/OrganizationGuard.tsx:59-101 | retrying twice against the same answer shows the same thing |
| OnboardingCheck.Redirect | src/components/OnboardingCheck.tsx:14-27 | the effect navigates to /onboarding exactly when not loading, signed in, off the exempt paths and not completed |
| OnboardingCheck.RenderChoice | src/components/OnboardingCheck.tsx:29-40 | loading, an exempt path, a completed flag or no user show the page |
| OnboardingCheck.NothingIffRedirect | src/components/OnboardingCheck.tsx:14-40 | nothing is rendered exactly when a redirect is issued |
| OnboardingCheck.ExemptPathsExactly | src/components/OnboardingCheck.tsx:18-19 | exactly /auth, /onboarding and /pricing are exempt |
| OnboardingCheck.SubPathNotExempt | src/components/OnboardingCheck.tsx:30 | exemption is whole-path equality: /auth/callback is not exempt |
| OnboardingCheck.CompletedIsPassThrough | src/components/OnboardingCheck.tsx:22-40 | with the flag set the gate shows the page and never redirects |
| Onboarding.UpdateOrganizationEffects | src/pages/Onboarding.tsx:75-104 | nothing without an organization id; otherwise the update comes first, then a refetch and success toast, or only the error toast |
| Onboarding.UpdateProfileEffects | src/pages/Onboarding.tsx:106-134 | nothing without a user id; otherwise the update comes first, then the success or error toast |
| Onboarding.FinishEffects | src/pages/Onboarding.tsx:145-155 | ends with navigation to /; marks onboarding completed exactly when there is a user id; persists nothing |
| Onboarding.HandleNext | src/pages/Onboarding.tsx:136-156 | advances by one below the last step and stays on it; on steps 1 and 2 with an id the update is issued first; on the last step onboarding is marked completed, first, exactly when there is a user id, and navigation to / comes last |
| Onboarding.Previous | src/pages/Onboarding.tsx:329 | one step back, never below 0 |
| Onboarding.Skip | src/pages/Onboarding.tsx:158-167 | persists no form data; marks onboarding completed, first, exactly when there is a user id; ends with navigation to / |
| Onboarding.SkipIsFinishing | src/pages/Onboarding.tsx:145-167 | skipping has the same effects as Next on the last step |
| Onboarding.FailureStillAdvances | src/pages/Onboarding.tsx:95-144 | a failed update advances to the same step as a successful one |
| Onboarding.PrimaryLabel | src/pages/Onboarding.tsx:336-346 | "Commencer" exactly on the last step, "Suivant" otherwise |
| Onboarding.StepStaysInRange | src/pages/Onboarding.tsx:30-330 | any sequence of Next and Previous clicks keeps the step in 0..3 |
| Notifications.Load | src/hooks/useNotifications.ts:21-97 | without an organization id nothing changes; with one the five samples are loaded, loading ends and the counter agrees |
| Notifications.SamplesShape | src/hooks/useNotifications.ts:30-76 | five samples with distinct ids; unread exactly 1, 2 and 4; three unread |
| Notifications.NoOrganizationNothingLoaded | src/hooks/useNotifications.ts:16-22 | from mount, without an organization id the list stays empty and loading stays true |
| Notifications.Decrement | src/hooks/useNotifications.ts:111 | one less, never below 0 |
| Notifications.MarkRead | src/hooks/useNotifications.ts:102-108 | items with the id become read, every other item is unchanged, the length is kept |
| Notifications.MarkAsRead | src/hooks/useNotifications.ts:99-118 | the list is marked and the counter decremented whatever the item was |
| Notifications.MarkReadUnreadCount | src/hooks/useNotifications.ts:102-111 | marking removes from the unread count exactly the unread items with that id |
| Notifications.MarkReadClearsId | src/hooks/useNotifications.ts:102-108 | after marking, no unread item carries the id |
| Notifications.UnreadWithIdUnique | src/hooks/useNotifications.ts:102-111 | with distinct ids, at most one unread item has the id, and one exactly when it exists |
| Notifications.MarkAsReadConsistency | src/hooks/useNotifications.ts:99-118 | from an agreeing store, the counter still agrees after marking exactly when the id named an unread item or the counter was 0 |
| Notifications.MarkAsReadDrifts | src/hooks/useNotifications.ts:111 | marking the already-read sample 3 shows 2 unread while 3 items are unread |
| Notifications.MarkAllRead | src/hooks/useNotifications.ts:122-125 | every item becomes read and nothing else changes |
| Notifications.MarkAllAsRead | src/hooks/useNotifications.ts:120-132 | every item kept in place with only its read flag set, and the counter 0 |
| Notifications.MarkAllAsReadConsistent | src/hooks/useNotifications.ts:120-132 | after marking all, the counter agrees with the list |
| Notifications.Find | src/hooks/useNotifications.ts:136 | finds an item exactly when one carries the id, and then it is the first such item |
| Notifications.Delete | src/hooks/useNotifications.ts:134-149 | removes exactly the items with the id, keeping every other item as often as before and in order; decrements only when the first such item in the list as last rendered was unread |
| Notifications.DeleteUnreadCount | src/hooks/useNotifications.ts:136-142 | deletion removes from the unread count exactly the unread items with the id |
| Notifications.FindUnread | src/hooks/useNotifications.ts:136-142 | with distinct ids, the found item is unread exactly when one unread item has the id |
| Notifications.DeleteConsistent | src/hooks/useNotifications.ts:134-149 | with distinct ids and an up-to-date render, deletion keeps counter and list in agreement |
| Notifications.DeleteBeforeRenderDoubleCounts | src/hooks/useNotifications.ts:99-149 | marking "1" read then deleting it before a re-render decrements twice: the counter shows 1 while two items are unread; after a re-render the counter stays right |
| Notifications.CounterStepsDownByAtMostOne | src/hooks/useNotifications.ts:111-141 | each operation lowers the counter by at most one, and deletion never raises it |
| AppSidebar.IsActive | src/components/AppSidebar.tsx:53 | equality or a prefix followed by "/" activates; an active entry is always a prefix |
| AppSidebar.IsActiveIsSegmentPrefix | src/components/AppSidebar.tsx:53 | active exactly when the path equals the entry or continues it after a segment boundary |
| AppSidebar.CharacterPrefixIsNotEnough | src/components/AppSidebar.tsx:53 | /contact and /contacts do not activate each other |
| AppSidebar.RootActiveOnlyAtRoot | src/components/AppSidebar.tsx:53 | / is active only on / or on paths starting with // |
| AppSidebar.DistinctSegmentsExclusive | src/components/AppSidebar.tsx:53 | two distinct single-segment entries are never active together |
| AppSidebar.NavigationUrlsDistinct | src/components/AppSidebar.tsx:33-46 | twelve entries with pairwise distinct urls, the first being / |
| AppSidebar.NavigationUrlsSingleSegment | src/components/AppSidebar.tsx:33-107 | every entry but / is one segment, and /settings is not in the table |
| AppSidebar.AtMostOneEntryActive | src/components/AppSidebar.tsx:33-107 | no two non-root entries, nor one of them and /settings, are active together |
| ListView.EmptyQueryMatches | src/pages/Contacts.tsx:149-153 | the empty search matches every field |
| ListView.VerbatimMatchMatches | src/pages/Contacts.tsx:149-153 | a field containing the query, case aside, matches |
| ListView.PriceCell | src/pages/Devis.tsx:38-44 | "-" exactly for a missing price or 0, the amount otherwise |
| ListView.ClientCell | src/pages/Reclamations.tsx:136-139 | a contact gives "nom prenom" with only whitespace cut from its ends and none left on them, which is its trim; without a contact the cell is never empty |
| Text.TrimUnique | src/pages/Reclamations.tsx:137 | a slice with whitespace on neither end, around which only whitespace was cut, is the trimmed string |
| ListView.ContactTakesPrecedence | src/pages/Paiements.tsx:132-135 | with a contact, the company does not matter |
| ListView.CompanyThenDash | src/pages/Reclamations.tsx:136-139 | without a contact: the company name if non-empty, else "-" |
| ListView.ContactWithoutFirstName | src/pages/Paiements.tsx:132-135 | a contact without a first name shows the bare last name |
| ListView.CountOpt | src/pages/Reclamations.tsx:33-35 | a missing list counts 0; a count never exceeds the list |
| ListView.TotalOpt | src/pages/Reclamations.tsx:103 | the total card is the list's length, or 0 without a list |
| ListView.ExclusiveCountsWithinTotal | src/pages/Reclamations.tsx:33-103 | three mutually exclusive counts add up to at most the total |
| ListView.EmptyRowIffNoDataRows | src/pages/Paiements.tsx:157-163 | the placeholder row shows exactly when the total is 0 |
| ListView.Page | src/pages/Devis.tsx:77-96 | rows only when neither loading nor failed; loading shows the spinner first |
| EntreprisesPage.Filtered | src/pages/Entreprises.tsx:160-171 | an order-preserving subsequence keeping each of the entries that pass all three tests as often as it occurs, and no other |
| EntreprisesPage.InitialFiltersKeepAll | src/pages/Entreprises.tsx:160-171 | empty search and both selects on "all" keep every entry |
| EntreprisesPage.TypeSelectIsExact | src/pages/Entreprises.tsx:167-170 | a non-"all" select keeps only exactly equal values |
| EntreprisesPage.SearchCaseRules | src/pages/Entreprises.tsx:161-165 | name and city match ignoring case on either side, and a match on them or a verbatim SIREN or SIRET match is enough; SIREN and SIRET are case-sensitive: "AB" finds a company numbered "AB", "ab" does not |
| EntreprisesPage.TailleLabel | src/pages/Entreprises.tsx:137-145 | a known size gets its label; any other key, "tpe" included, is shown unchanged |
| EntreprisesPage.SecteurLabel | src/pages/Entreprises.tsx:147-158 | a known sector gets its label; any other key is shown unchanged |
| EntreprisesPage.TailleLabelsDistinct | src/pages/Entreprises.tsx:137-145 | distinct known sizes get distinct labels |
| EntreprisesPage.TypeCountsWithinTotal | src/pages/Entreprises.tsx:197-229 | client, prospect and supplier counts add up to at most the total |
| EntreprisesPage.SiteDisplay | src/pages/Entreprises.tsx:305 | the shown address is a suffix of the stored one, shorter by 8, 7 or 0 characters |
| EntreprisesPage.SiteDisplayRemovesScheme | src/pages/Entreprises.tsx:305 | one leading http:// or https:// is removed |
| EntreprisesPage.SiteDisplayStripsOnce | src/pages/Entreprises.tsx:305 | only the first scheme is removed, and an address without one is unchanged |
| ContactsPage.Filtered | src/pages/Contacts.tsx:148-159 | an order-preserving subsequence keeping each of the contacts that pass search, type and status as often as it occurs, and no other |
| ContactsPage.FilteredIdempotent | src/pages/Contacts.tsx:148-159 | filtering twice gives the same list |
| ContactsPage.InitialFiltersKeepAll | src/pages/Contacts.tsx:148-159 | the initial filters keep every contact |
| ContactsPage.SelectsAreExact | src/pages/Contacts.tsx:155-156 | a non-"all" select keeps only exactly equal values |
| ContactsPage.NoCompanyMatchesByNameOnly | src/pages/Contacts.tsx:149-153 | a contact without a company matches only through name, first name or e-mail |
| ContactsPage.SourceLabel | src/pages/Contacts.tsx:136-146 | the six known sources get labels; any other key is shown unchanged |
| ContactsPage.CountsWithinTotal | src/pages/Contacts.tsx:185-217 | the active, prospect and company counts are each at most the total |
| DevisPage.WindowDays | src/pages/Devis.tsx:61-71 | exactly the three period values have a window |
| DevisPage.Filtered | src/pages/Devis.tsx:46-75 | an order-preserving subsequence keeping each of the quotes that pass search, status and period as often as it occurs, and no other |
| DevisPage.AllOrUndatedPasses | src/pages/Devis.tsx:55-56 | "all", or a quote without a date, passes the period test |
| DevisPage.WindowsInDays | src/pages/Devis.tsx:59-70 | the windows keep quotes at most 30, 90 and 180 days old |
| DevisPage.WindowsNested | src/pages/Devis.tsx:62-70 | passing 30 days implies 3 months, which implies 6 months |
| DevisPage.UnknownPeriodPasses | src/pages/Devis.tsx:61-71 | an unknown period filters nothing; an unreadable date fails every known window |
| DevisPage.InitialFiltersKeepAll | src/pages/Devis.tsx:46-75 | the initial filters keep every quote |
| DevisPage.StatusBadge | src/pages/Devis.tsx:21-36 | "Non défini" exactly for a missing or unknown status |
| DevisPage.PriceCell | src/pages/Devis.tsx:38-44 | "-" exactly for a missing price or 0 |
| DevisPage.TotalTtcAppend | src/pages/Devis.tsx:98 | the total adds up over any split of the list |
| DevisPage.TotalWithoutAmounts | src/pages/Devis.tsx:98 | with no amounts the total is 0 |
| DevisPage.AcceptedAndPendingWithinTotal | src/pages/Devis.tsx:98-100 | accepted and sent counts add up to at most the number of quotes |
| DevisPage.EmptyStateHint | src/pages/Devis.tsx:204-214 | the "create your first quote" text exactly when there are no quotes, the filter hint otherwise |
| DevisPage.EmptyStateWithInitialFilters | src/pages/Devis.tsx:204-214 | with the initial filters the empty state shows exactly when there is no quote |
| CataloguePage.Filtered | src/pages/Catalogue.tsx:41-51 | an order-preserving subsequence keeping each of the items that pass search, status and classification as often as it occurs, and no other |
| CataloguePage.InitialFiltersKeepAll | src/pages/Catalogue.tsx:41-51 | the initial filters keep every item |
| CataloguePage.SelectsAreExact | src/pages/Catalogue.tsx:47-48 | a non-"all" select keeps only items with exactly that value |
| CataloguePage.StatusBadge | src/pages/Catalogue.tsx:20-31 | "Non défini" exactly for a missing or unknown status |
| CataloguePage.ActiveWithinTotal | src/pages/Catalogue.tsx:98-108 | the active count is at most the total |
| CataloguePage.AveragePriceCell | src/pages/Catalogue.tsx:119-121 | "-" exactly when no item has a non-zero price or the prices sum to 0; otherwise the sum of prices divided by the number of priced items |
| CataloguePage.UnpricedItemsIgnored | src/pages/Catalogue.tsx:119-121 | an item without a price, or priced 0, leaves the average unchanged |
| CataloguePage.PriceSumAppend | src/pages/Catalogue.tsx:120 | the price sum adds up over any split of the list |
| CataloguePage.CountClassifications | src/pages/Catalogue.tsx:133 | the card counts the distinct non-empty classifications: at most the number of items, each present in some item |
| ReclamationsPage.StatusColor | src/pages/Reclamations.tsx:152 | the "taken into account" colour exactly for that status, a missing one or an unknown one |
| ReclamationsPage.StatusLabel | src/pages/Reclamations.tsx:153 | a known status gets its label, an unknown one is shown raw, a missing one as nothing |
| ReclamationsPage.StatusIcon | src/pages/Reclamations.tsx:131 | the clock exactly for "taken into account", a missing or an unknown status |
| ReclamationsPage.KnownStatusesDistinguished | src/pages/Reclamations.tsx:9-28 | the four known statuses have distinct colours, labels and icons |
| ReclamationsPage.StatusCardsWithinTotal | src/pages/Reclamations.tsx:33-103 | the three status cards add up to at most the total; a missing list shows 0 |
| ReclamationsPage.PlaceholderRow | src/pages/Reclamations.tsx:161-167 | the placeholder row shows exactly when the list is missing or empty |
| PaiementsPage.StatusColor | src/pages/Paiements.tsx:148 | the pending colour exactly for that status, a missing one or an unknown one |
| PaiementsPage.StatusLabel | src/pages/Paiements.tsx:149 | a known status gets its label, an unknown one is shown raw, a missing one as nothing |
| PaiementsPage.KnownStatusesDistinguished | src/pages/Paiements.tsx:9-19 | the three known statuses have distinct colours and labels |
| PaiementsPage.StatusCardsWithinTotal | src/pages/Paiements.tsx:32-101 | pending and received add up to at most the total; a missing list shows 0 |
| PaiementsPage.SumAppend | src/pages/Paiements.tsx:31 | the total adds up over any split of the list |
| PaiementsPage.TotalCoversEachAmount | src/pages/Paiements.tsx:31 | with non-negative amounts the total is at least each amount |
| PaiementsPage.SumNonNegative | src/pages/Paiements.tsx:31 | non-negative amounts give a non-negative total |
| PaiementsPage.AmountCells | src/pages/Paiements.tsx:144-153 | amount and balance show "-" exactly when missing or 0 |
| PaiementsPage.PlaceholderRow | src/pages/Paiements.tsx:157-163 | the placeholder row shows exactly when no data row does |
| Forms.AfterMutation | src/components/forms/ContactForm.tsx:65-70 | success closes the dialog and, for a creation form, restores the defaults; failure leaves it as it was |
| Forms.CreationSuccessForgetsInput | src/components/forms/ContactForm.tsx:65-70 | after a successful creation the dialog's state does not depend on what was typed |
| Forms.AmountInput | src/components/forms/DevisForm.tsx:206 | an empty input is no number; otherwise the parsed number, or not-a-number |
| Forms.AmountRule | src/components/forms/DevisForm.tsx:22-24 | an amount is accepted exactly when blank or a number at least 0 |
| Forms.AmountOrUndefined | src/components/forms/DevisForm.tsx:60-62 | an amount reaches the payload exactly when it is a number other than 0, unchanged |
| Forms.TypedAmountReachesPayload | src/components/forms/DevisForm.tsx:60-62 | a typed number other than 0 reaches the payload as parsed |
| EntrepriseForm.Errors | src/components/forms/EntrepriseForm.tsx:14-29 | the only rule is a non-empty company name, with its message; the edit form's schema is the same and uses it |
| EntrepriseForm.Clean | src/components/forms/EntrepriseForm.tsx:58-74 | the name passes through; country is null; each optional field is null exactly when empty and otherwise unchanged |
| EntrepriseForm.Submit | src/components/forms/EntrepriseForm.tsx:57-82 | sent exactly when the name is non-empty, rejected with its message otherwise, never ignored |
| EntrepriseForm.CleanLosesNothing | src/components/forms/EntrepriseForm.tsx:58-74 | two fillings giving the same payload are the same filling |
| EntrepriseForm.Settle | src/components/forms/EntrepriseForm.tsx:76-81 | success closes the dialog and empties every field |
| EntrepriseForm.NoResubmitAfterSuccess | src/components/forms/EntrepriseForm.tsx:39-81 | after a success, submitting again without typing is rejected |
| EntrepriseForm.NameOnlySendsNulls | src/components/forms/EntrepriseForm.tsx:39-74 | a name alone is sent with every other column null |
| EntrepriseEditForm.Load | src/components/forms/EntrepriseEditForm.tsx:63-83 | the name as stored; each column empty exactly when null or "" and otherwise its value; relation type "client" when missing |
| EntrepriseEditForm.Shown | src/components/forms/EntrepriseEditForm.tsx:63-83 | a record is loaded; without one the fields are unchanged |
| EntrepriseEditForm.Clean | src/components/forms/EntrepriseEditForm.tsx:87-106 | the record's id, name and relation type pass through; each other field, web site included, is null exactly when empty |
| EntrepriseEditForm.Submit | src/components/forms/EntrepriseEditForm.tsx:85-113 | rejected without a name; then ignored without a record; otherwise the update carries the record's id |
| EntrepriseEditForm.SaveUntouched | src/components/forms/EntrepriseEditForm.tsx:65-103 | load then save keeps every column except "" (sent as null) and a missing relation type (sent as "client") |
| EntrepriseEditForm.SaveUntouchedIsNoOp | src/components/forms/EntrepriseEditForm.tsx:65-106 | a record without "" columns and with a relation type is written back exactly |
| EntrepriseEditForm.Settle | src/components/forms/EntrepriseEditForm.tsx:105-112 | success only closes the dialog; the fields are kept |
| ContactForm.Errors | src/components/forms/ContactForm.tsx:16-26 | accepted exactly with a name, an empty or valid e-mail and a known type; each message appears exactly when its rule fails |
| ContactForm.EmptyEmailAccepted | src/components/forms/ContactForm.tsx:19 | an empty e-mail is accepted whatever the e-mail check says |
| ContactForm.DefaultsRejectedForName | src/components/forms/ContactForm.tsx:37-47 | the untouched dialog fails on the name alone |
| ContactForm.Clean | src/components/forms/ContactForm.tsx:52-63 | name and type pass through; tags are null; each optional field is null exactly when empty |
| ContactForm.Submit | src/components/forms/ContactForm.tsx:50-71 | sent exactly when the schema accepts; a sent e-mail passed the check |
| ContactForm.CleanLosesNothing | src/components/forms/ContactForm.tsx:52-63 | two fillings giving the same payload are the same filling |
| ContactForm.Settle | src/components/forms/ContactForm.tsx:65-70 | success closes the dialog and restores the defaults |
| ContactEditForm.Load | src/components/forms/ContactEditForm.tsx:53-67 | the name as stored; each column empty exactly when null or ""; type "particulier" when missing |
| ContactEditForm.Shown | src/components/forms/ContactEditForm.tsx:53-67 | a record is loaded; without one the fields are unchanged |
| ContactEditForm.Clean | src/components/forms/ContactEditForm.tsx:71-84 | the id, name and type pass through; no tags; each other field null exactly when empty |
| ContactEditForm.Submit | src/components/forms/ContactEditForm.tsx:69-91 | rejected by the schema; then ignored without a record; otherwise the update of that record |
| ContactEditForm.UnknownStoredTypeBlocksSaving | src/components/forms/ContactEditForm.tsx:18-59 | a stored type outside the enum is loaded as is and blocks saving |
| ContactEditForm.SaveUntouched | src/components/forms/ContactEditForm.tsx:55-84 | load then save keeps every column except "" (sent as null) and a missing type (sent as "particulier") |
| ContactEditForm.Settle | src/components/forms/ContactEditForm.tsx:84-90 | success only closes the dialog |
| DevisForm.Defaults | src/components/forms/DevisForm.tsx:39-50 | today's date, status "brouillon", no number and no amounts |
| DevisForm.Errors | src/components/forms/DevisForm.tsx:16-27 | accepted exactly with a number, a known status and three accepted amounts |
| DevisForm.Clean | src/components/forms/DevisForm.tsx:53-65 | number and status pass through; each of the five optional text fields is left out exactly when empty and otherwise sent as typed; each amount is left out exactly when blank or 0 and otherwise sent as parsed |
| DevisForm.Submit | src/components/forms/DevisForm.tsx:53-73 | sent exactly when the schema accepts, never ignored |
| DevisForm.SentAmountsArePositive | src/components/forms/DevisForm.tsx:22-64 | every amount sent is strictly positive and the status is known |
| DevisForm.UnreadableAmountBlocks | src/components/forms/DevisForm.tsx:22-242 | text that is not a number blocks submission with the not-a-number message |
| DevisForm.ZeroIsLikeBlank | src/components/forms/DevisForm.tsx:60-62 | typing 0 sends the same payload as leaving the amount blank |
| DevisForm.Settle | src/components/forms/DevisForm.tsx:67-72 | success closes the dialog and restores the defaults, issue date included |
| CatalogueForm.Errors | src/components/forms/CatalogueForm.tsx:13-23 | accepted exactly with a name, a reference, a blank or non-negative price and an empty or valid link; each message appears exactly when its rule fails |
| CatalogueForm.DefaultsRejected | src/components/forms/CatalogueForm.tsx:33-43 | the untouched dialog fails on name and reference |
| CatalogueForm.Clean | src/components/forms/CatalogueForm.tsx:46-57 | name and reference pass through; the status as typed, or "actif" when empty; each of the five optional text fields is left out exactly when empty and otherwise sent as typed; the price is left out exactly when blank or 0 and otherwise sent as parsed |
| CatalogueForm.Submit | src/components/forms/CatalogueForm.tsx:46-65 | sent exactly when the schema accepts, never ignored |
| CatalogueForm.SentRowIsWellFormed | src/components/forms/CatalogueForm.tsx:13-57 | a sent row has a name, a reference, a status, a positive price if any and a link that passed the check |
| CatalogueForm.ClearedStatusIsActive | src/components/forms/CatalogueForm.tsx:55 | a cleared status is sent as "actif" |
| CatalogueForm.Settle | src/components/forms/CatalogueForm.tsx:59-64 | success closes the dialog and restores the defaults |
| Checkout.Plan | supabase/functions/create-stripe-session/index.ts:102-109 | exactly free, pro and enterprise have a configuration |
| Checkout.Token | supabase/functions/create-stripe-session/index.ts:44 | the first occurrence of "Bearer ", wherever it is, is cut out; a header without it is unchanged |
| Checkout.TokenCutsFirstBearer | supabase/functions/create-stripe-session/index.ts:44 | a header containing "Bearer " is shortened by exactly one occurrence of it; "Basic Bearer abc" gives "Basic abc" |
| Checkout.Authorize | supabase/functions/create-stripe-session/index.ts:23-73 | a missing key fails first, a missing header second; then a user-lookup error gives the authentication message with its text, a missing user or e-mail the no-email message, and a body error its own message, each before the plan and membership checks; success means every check held, the role included |
| Checkout.AuthorizeComplete | supabase/functions/create-stripe-session/index.ts:23-73 | a request meeting every check is authorized with its user, plan id and membership |
| Checkout.PlanCheckedBeforeMembership | supabase/functions/create-stripe-session/index.ts:52-73 | plan id, then membership, then role, each failing with its own message |
| Checkout.SessionFor | supabase/functions/create-stripe-session/index.ts:114-138 | a paid plan is a monthly subscription, the free plan a one-off payment; amount, customer and metadata as given; product name and description carry the plan name; success returns to the origin's dashboard with `success=true`, cancel to its pricing page with `canceled=true` |
| Checkout.Proceed | supabase/functions/create-stripe-session/index.ts:84-161 | a stored customer is never recreated; without one, creating it is the first call; the answer is 200 with a URL or 500 with an error |
| Checkout.Handle | supabase/functions/create-stripe-session/index.ts:15-170 | OPTIONS gets the preflight with no call; a failed check gets 500 with its message and no call |
| Checkout.PreflightFirst | supabase/functions/create-stripe-session/index.ts:16-18 | a preflight is answered before any check |
| Checkout.NoWriteBeforeAuthorization | supabase/functions/create-stripe-session/index.ts:23-94 | any remote write implies every check passed, the role being admin or owner |
| Checkout.FirstFailureWins | supabase/functions/create-stripe-session/index.ts:23-41 | a missing key hides every later problem; a missing header hides the later ones |
| Checkout.OwnerAcceptedManagerRefused | supabase/functions/create-stripe-session/index.ts:71-73 | owner and admin pass the server's role gate; manager does not |
| Checkout.SuccessShape | supabase/functions/create-stripe-session/index.ts:114-161 | a 200 ends with the session and a "pending" subscription row for the same organization, customer and plan, and returns that session's URL |
| Checkout.CheckoutSucceeds | supabase/functions/create-stripe-session/index.ts:84-161 | once the checks pass, a customer id, a known plan and a session URL give a 200 answer with that URL, after the customer step's calls, the session and the "pending" subscription row |
| Checkout.RemoteFailureReported | supabase/functions/create-stripe-session/index.ts:84-169 | a failed customer creation or session creation answers 500 with that call's message, and nothing is called after it |
| Checkout.UnknownPlanCreatesCustomerFirst | supabase/functions/create-stripe-session/index.ts:84-109 | without a stored customer, an unknown plan id creates a customer and then fails |
| Checkout.StoredCustomerReused | supabase/functions/create-stripe-session/index.ts:84-99 | a stored customer is reused for the session and no customer is created |
| Pricing.ClientAgreesWithServer | src/pages/Pricing.tsx:10-67 | the page's plans are the server's, same names, cents = euros × 100 |
| Pricing.PlanIdsDistinct | src/pages/Pricing.tsx:10-67 | the three plan ids are distinct |
| Pricing.Start | src/pages/Pricing.tsx:73-84 | signed out: an error toast, loading untouched, no call; signed in: loading is the plan and the function is invoked |
| Pricing.Finish | src/pages/Pricing.tsx:86-96 | loading is cleared; on a non-error answer with a URL the only effect is opening that URL, without a URL there is none; the error toast exactly on an error |
| Pricing.LoadingBracketsTheCall | src/pages/Pricing.tsx:79-96 | loading holds the plan during the call and is cleared afterwards |
| Pricing.SecondCallLosesItsSpinner | src/pages/Pricing.tsx:79-161 | another plan's button stays enabled, and the first answer clears loading while the other call runs |
| Pricing.ButtonLabel | src/pages/Pricing.tsx:165-171 | "Chargement..." exactly on the disabled button; otherwise the free wording exactly for price 0 |
| Pricing.AtMostOneDisabled | src/pages/Pricing.tsx:161 | at most one plan's button is disabled |
| Pricing.CardsShape | src/pages/Pricing.tsx:119-190 | only the free card shows limitations and lacks "/mois"; only pro is marked popular |
| Pricing.PerMonthMatchesServerMode | src/pages/Pricing.tsx:143-145 | "/mois" shows exactly for the plans the server sells as subscriptions |

## Left out

- The CRUD data hooks and the generated type declarations are left out. They only forward calls to the database client. The entities the model needs are datatypes of their own, holding only the fields the logic reads.
- Remote calls, `localStorage`, `window.open`, navigation, toasts and console logging are not performed. Their answers are inputs, and their effects are returned values.
- The clock is not read.
  - The quote period filter takes the quote's whole-day age as an input. It can also be told that the date does not parse.
  - The quote form's default date is a `today` parameter.
  - The subscription row's `updated_at` is not modelled.
- zod's `email()` and `url()` checks and `parseFloat` are function parameters. zod's own messages for enum and `NaN` failures are written out. The exact order in which react-hook-form displays messages per field is not modelled.
- `null` and `undefined` in payloads are both `None`, so "a key set to null" and "a key left out" are not told apart.
- Amounts are exact `real` numbers. Floating-point rounding, `Infinity`, and `NaN` beyond a number input that does not parse are not modelled. Nor is locale formatting (`Intl.NumberFormat`, `toLocaleDateString`, date-fns). Nor are the quote conversion rate and the onboarding progress percentage.
- Lower-casing is ASCII only. There is no Unicode case mapping.
- A record lookup by a key inherited from `Object.prototype` is treated as an unknown key. This covers `statusLabels["toString"]` and `plans["constructor"]` on the server.
- A `plan_id` that is a JSON value other than a string or `null` is not modelled.
- The organization guard shows its error card when `error` is truthy, so an empty error string is no error.
- The onboarding completion flag is a boolean input. The component reads a `localStorage` entry, while its tests drive `profile.onboarding_completed`.
- The client role type has admin, manager and user. The server's gate also accepts "owner", a role the client never produces. Both are modelled as written.
- The onboarding page's `loading` flag, which disables its Next button during an update, is not modelled. Neither are the texts of its toasts beyond their titles.
- The auth context's sign-in, sign-up and sign-out helpers are not modelled. Neither is the `setTimeout` deferral: a profile fetch completion is a separate step.
- The notifications' creation timestamps and their relative-date formatting are not modelled.
- The sample records hard-coded in the company and contact pages are not modelled. The filters are stated over any list.
- The dashboard, the placeholder pages, the detail dialogs, the route table, the error boundary and the build configuration are not modelled.
- The CORS header values are constants, but the response headers are not modelled. Neither is the payment library's API version.

=== FILE: app_sidebar.dfy ===
/** The sidebar's navigation table and its active-link test. */
module AppSidebar {
  import Text

  datatype NavItem = NavItem(title: string, url: string)

  /** The twelve entries of the main menu, in display order. */
  const NavigationItems: seq<NavItem> := [
    NavItem("Tableau de bord", "/"),
    NavItem("Collaborateurs", "/collaborateurs"),
    NavItem("Contacts", "/contacts"),
    NavItem("Entreprises", "/entreprises"),
    NavItem("Catalogue", "/catalogue"),
    NavItem("Devis", "/devis"),
    NavItem("Prestations", "/prestations"),
    NavItem("Factures", "/factures"),
    NavItem("Paiements", "/paiements"),
    NavItem("Tâches", "/taches"),
    NavItem("Réclamations", "/reclamations"),
    NavItem("KPI", "/kpi")
  ]

  /** The footer link, checked by its own `isActive` call. */
  const SettingsPath := "/settings"

  /** `isActive`: the current path is the link itself or lies below it. */
  function IsActive(currentPath: string, path: string): (active: bool)
    ensures currentPath == path ==> active
    ensures Text.StartsWith(currentPath, path + "/") ==> active
    ensures active ==> Text.StartsWith(currentPath, path)
  {
    currentPath == path || Text.StartsWith(currentPath, path + "/")
  }

  /** The segment-boundary reading: `path` is a prefix of the current path
      and is followed there by nothing or by a slash. */
  predicate OnSegmentBoundary(currentPath: string, path: string) {
    && |path| <= |currentPath|
    && currentPath[..|path|] == path
    && (|currentPath| == |path| || currentPath[|path|] == '/')
  }

  /** The active test is exactly the segment-boundary prefix test. */
  lemma IsActiveIsSegmentPrefix(currentPath: string, path: string)
    ensures IsActive(currentPath, path) <==> OnSegmentBoundary(currentPath, path)
  {
    var withSlash := path + "/";
    if OnSegmentBoundary(currentPath, path) && |currentPath| > |path| {
      assert currentPath[..|withSlash|] == currentPath[..|path|] + [currentPath[|path|]];
    }
    if Text.StartsWith(currentPath, withSlash) {
      assert currentPath[..|path|] == currentPath[..|withSlash|][..|path|];
      assert currentPath[|path|] == currentPath[..|withSlash|][|path|];
    }
  }

  /** A link that is only a character prefix of the current path is not
      active: the two contacts-like links do not light each other up. */
  lemma CharacterPrefixIsNotEnough()
    ensures !IsActive("/contacts", "/contact")
    ensures !IsActive("/contact", "/contacts")
    ensures !IsActive("/contactsx/1", "/contacts")
  {
    IsActiveIsSegmentPrefix("/contacts", "/contact");
    IsActiveIsSegmentPrefix("/contactsx/1", "/contacts");
  }

  /** The dashboard link is active only on `/` itself or on paths that begin
      with two slashes. */
  lemma RootActiveOnlyAtRoot(currentPath: string)
    ensures IsActive(currentPath, "/") <==> currentPath == "/" || Text.StartsWith(currentPath, "//")
    ensures !IsActive("/contacts", "/")
  {
    assert "/contacts"[..2][1] == 'c';
  }

  /** A path of one segment: a slash followed by at least one non-slash character. */
  predicate SingleSegment(u: string) {
    |u| >= 2 && u[0] == '/' && forall k :: 1 <= k < |u| ==> u[k] != '/'
  }

  /** Two different one-segment links are never active together. */
  lemma DistinctSegmentsExclusive(currentPath: string, u: string, v: string)
    requires SingleSegment(u) && SingleSegment(v) && u != v
    ensures !(IsActive(currentPath, u) && IsActive(currentPath, v))
  {
    IsActiveIsSegmentPrefix(currentPath, u);
    IsActiveIsSegmentPrefix(currentPath, v);
  }

  function Urls(): (urls: seq<string>)
    ensures |urls| == |NavigationItems|
    ensures forall i :: 0 <= i < |urls| ==> urls[i] == NavigationItems[i].url
  {
    seq(|NavigationItems|, i requires 0 <= i < |NavigationItems| => NavigationItems[i].url)
  }

  /** The table has twelve entries with distinct urls, the dashboard first. */
  lemma NavigationUrlsDistinct()
    ensures |NavigationItems| == 12 && NavigationItems[0].url == "/"
    ensures forall i, j :: 0 <= i < j < |NavigationItems| ==> NavigationItems[i].url != NavigationItems[j].url
  {
    var urls := Urls();
    assert urls == ["/", "/collaborateurs", "/contacts", "/entreprises", "/catalogue", "/devis",
                    "/prestations", "/factures", "/paiements", "/taches", "/reclamations", "/kpi"];
    assert "/contacts"[1] != "/factures"[1];
    assert "/entreprises"[1] != "/prestations"[1];
    assert "/catalogue"[1] != "/paiements"[1];
  }

  /** Every url after the dashboard's is a single segment, and so is the
      settings link, which is not in the table. */
  lemma NavigationUrlsSingleSegment()
    ensures forall i :: 1 <= i < |NavigationItems| ==> SingleSegment(NavigationItems[i].url)
    ensures SingleSegment(SettingsPath)
    ensures forall i :: 0 <= i < |NavigationItems| ==> NavigationItems[i].url != SettingsPath
  {
  }

  /** On any path, at most one menu entry other than the dashboard is
      highlighted, and the settings link is never highlighted with one. */
  lemma AtMostOneEntryActive(currentPath: string, i: nat, j: nat)
    requires 1 <= i < |NavigationItems| && 1 <= j < |NavigationItems| && i != j
    ensures !(IsActive(currentPath, NavigationItems[i].url) && IsActive(currentPath, NavigationItems[j].url))
    ensures !(IsActive(currentPath, NavigationItems[i].url) && IsActive(currentPath, SettingsPath))
  {
    NavigationUrlsDistinct();
    NavigationUrlsSingleSegment();
    DistinctSegmentsExclusive(currentPath, NavigationItems[i].url, NavigationItems[j].url);
    DistinctSegmentsExclusive(currentPath, NavigationItems[i].url, SettingsPath);
  }
}

=== FILE: auth_context.dfy ===
/** The authentication context: the session, user, profile and organization id
    the provider holds, and how auth-provider answers and profile fetches change
    them. Remote calls are replaced by their answers; the `setTimeout` deferral
    of the profile fetch is a separate `ProfileLoaded` step. */
module AuthContext {
  import opened Wrappers
  import Coerce

  /** The client role enumeration (`user_role`): there is no `owner` here. */
  datatype Role = Admin | Manager | User

  datatype AuthUser = AuthUser(id: string, email: Option<string>)

  /** A provider session; every session carries its user. */
  datatype Session = Session(user: AuthUser)

  datatype Profile = Profile(
    id: string, email: string, nom: string, prenom: string, role: Role,
    fonction: Option<string>, telephone: Option<string>, statut: Option<string>)

  datatype AuthState = AuthState(
    session: Option<Session>,
    user: Option<AuthUser>,
    profile: Option<Profile>,
    organizationId: Option<string>,
    loading: bool)

  /** Mount state of the provider: nothing known yet, loading. */
  const Initial := AuthState(None, None, None, None, true)

  /** The events the provider's state-change stream reports. Only `SignedOut`
      is told apart by the handler. */
  datatype AuthEvent =
    | InitialSession | SignedIn | SignedOut | TokenRefreshed | UserUpdated
    | PasswordRecovery | MfaChallengeVerified

  /** A state change together with the profile fetch it schedules, if any. */
  datatype Transition = Transition(state: AuthState, fetchProfileFor: Option<string>)

  function SessionUser(session: Option<Session>): (u: Option<AuthUser>)
    ensures u.Some? <==> session.Some?
  {
    if session.Some? then Some(session.value.user) else None
  }

  /** The `onAuthStateChange` handler. */
  function OnAuthStateChange(s: AuthState, event: AuthEvent, session: Option<Session>): (t: Transition)
    ensures t.state.session == session
    ensures t.state.user.Some? <==> session.Some?
    ensures session.Some? ==> t.state.user == Some(session.value.user)
    ensures !t.state.loading
    ensures session.None? || event == SignedOut ==> t.state.profile.None? && t.state.organizationId.None?
    ensures session.Some? && event != SignedOut ==>
              t.state.profile == s.profile && t.state.organizationId == s.organizationId
    ensures t.fetchProfileFor.Some? <==> session.Some?
    ensures session.Some? ==> t.fetchProfileFor == Some(session.value.user.id)
  {
    var s1 := s.(session := session, user := SessionUser(session));
    var s2 := if session.Some? then s1 else s1.(profile := None, organizationId := None);
    var s3 := if event == SignedOut then s2.(profile := None, organizationId := None) else s2;
    var fetch := if session.Some? then Some(session.value.user.id) else None;
    Transition(s3.(loading := false), fetch)
  }

  /** The `getSession().then(...)` callback at mount. It never clears the profile. */
  function OnSessionRestored(s: AuthState, session: Option<Session>): (t: Transition)
    ensures t.state.session == session
    ensures t.state.user.Some? <==> session.Some?
    ensures session.Some? ==> t.state.user == Some(session.value.user)
    ensures !t.state.loading
    ensures t.state.profile == s.profile && t.state.organizationId == s.organizationId
    ensures t.fetchProfileFor.Some? <==> session.Some?
    ensures session.Some? ==> t.fetchProfileFor == Some(session.value.user.id)
  {
    var fetch := if session.Some? then Some(session.value.user.id) else None;
    Transition(s.(session := session, user := SessionUser(session), loading := false), fetch)
  }

  /** What the `profiles` query answered: a row, an error result, or an exception. */
  datatype ProfileAnswer = ProfileRow(profile: Profile) | ProfileError | ProfileThrown

  /** `fetchProfile` once both queries have answered. `membership` is the
      `organization_id` of the membership row, `None` when no row came back
      (error results and exceptions of the second query included). */
  function FetchProfile(s: AuthState, answer: ProfileAnswer, membership: Option<string>): (r: AuthState)
    ensures !answer.ProfileRow? ==> r == s
    ensures answer.ProfileRow? ==> r.profile == Some(answer.profile)
    ensures answer.ProfileRow? && membership.Some? ==> r.organizationId == membership
    ensures membership.None? ==> r.organizationId == s.organizationId
    ensures r.session == s.session && r.user == s.user && r.loading == s.loading
  {
    match answer
    case ProfileRow(p) =>
      var s1 := s.(profile := Some(p));
      if membership.Some? then s1.(organizationId := membership) else s1
    case _ => s
  }

  /** `refreshProfile`: a profile fetch for the current user, or nothing when
      there is no user id. */
  function RefreshProfile(s: AuthState, answer: ProfileAnswer, membership: Option<string>): (r: AuthState)
    ensures (s.user.None? || s.user.value.id == "") ==> r == s
    ensures s.user.Some? && s.user.value.id != "" ==> r == FetchProfile(s, answer, membership)
  {
    if s.user.Some? && Coerce.Truthy(Some(s.user.value.id)) then FetchProfile(s, answer, membership) else s
  }

  const OutsideProviderMessage := "useAuth must be used within an AuthProvider"

  /** `useAuth`: the provider's value, or the error it throws outside a provider. */
  function UseAuth(context: Option<AuthState>): (r: Result<AuthState>)
    ensures context.None? <==> r.Err?
    ensures r.Err? ==> r.message == OutsideProviderMessage
    ensures r.Ok? ==> r.value == context.value
  {
    match context
    case Some(s) => Ok(s)
    case None => Err(OutsideProviderMessage)
  }

  /** One thing that can happen to the provider's state. */
  datatype Step =
    | Event(event: AuthEvent, session: Option<Session>)
    | SessionRestored(session: Option<Session>)
    | ProfileLoaded(answer: ProfileAnswer, membership: Option<string>)
    | Refreshed(answer: ProfileAnswer, membership: Option<string>)

  function Apply(s: AuthState, step: Step): AuthState {
    match step
    case Event(e, session) => OnAuthStateChange(s, e, session).state
    case SessionRestored(session) => OnSessionRestored(s, session).state
    case ProfileLoaded(a, m) => FetchProfile(s, a, m)
    case Refreshed(a, m) => RefreshProfile(s, a, m)
  }

  /** The state after a sequence of steps, applied in order. */
  function Run(s: AuthState, steps: seq<Step>): AuthState
    decreases |steps|
  {
    if |steps| == 0 then s else Run(Apply(s, steps[0]), steps[1..])
  }

  /** The step answers the question "who is signed in?". */
  predicate IsAuthAnswer(step: Step) {
    step.Event? || step.SessionRestored?
  }

  /** Once `loading` is false it stays false, whatever happens next. */
  lemma {:induction false} LoadingNeverReturns(s: AuthState, steps: seq<Step>)
    requires !s.loading
    ensures !Run(s, steps).loading
    decreases |steps|
  {
    if |steps| > 0 {
      LoadingNeverReturns(Apply(s, steps[0]), steps[1..]);
    }
  }

  /** Starting from mount, the provider is loading exactly until the first
      answer from the auth provider; profile fetches do not end loading. */
  lemma {:induction false} LoadingUntilFirstAuthAnswer(s: AuthState, steps: seq<Step>)
    requires s.loading
    ensures !Run(s, steps).loading <==> exists k :: 0 <= k < |steps| && IsAuthAnswer(steps[k])
    decreases |steps|
  {
    if |steps| > 0 {
      var next := Apply(s, steps[0]);
      if IsAuthAnswer(steps[0]) {
        LoadingNeverReturns(next, steps[1..]);
      } else {
        assert next.loading;
        LoadingUntilFirstAuthAnswer(next, steps[1..]);
        if exists k :: 0 <= k < |steps| && IsAuthAnswer(steps[k]) {
          var k :| 0 <= k < |steps| && IsAuthAnswer(steps[k]);
          assert IsAuthAnswer(steps[1..][k - 1]);
        }
        if exists k :: 0 <= k < |steps[1..]| && IsAuthAnswer(steps[1..][k]) {
          var k :| 0 <= k < |steps[1..]| && IsAuthAnswer(steps[1..][k]);
          assert IsAuthAnswer(steps[k + 1]);
        }
      }
    }
  }

  /** Profile steps never change who is signed in. */
  lemma {:induction false} ProfileStepsKeepUser(s: AuthState, steps: seq<Step>)
    requires forall k :: 0 <= k < |steps| ==> !IsAuthAnswer(steps[k])
    ensures Run(s, steps).user == s.user && Run(s, steps).session == s.session
    decreases |steps|
  {
    if |steps| > 0 {
      ProfileStepsKeepUser(Apply(s, steps[0]), steps[1..]);
    }
  }

  /** A profile fetch scheduled before a sign-out still lands afterwards: the
      completion does not check who is signed in now, so a profile can be
      present while no user is. */
  lemma StaleProfileFetchOutlivesSignOut(u: AuthUser, p: Profile)
    ensures var s := Run(Initial, [Event(SignedIn, Some(Session(u))), Event(SignedOut, None), ProfileLoaded(ProfileRow(p), None)]);
            s.user.None? && s.profile == Some(p)
  {
    var steps := [Event(SignedIn, Some(Session(u))), Event(SignedOut, None), ProfileLoaded(ProfileRow(p), None)];
    var s1 := Apply(Initial, steps[0]);
    var s2 := Apply(s1, steps[1]);
    var s3 := Apply(s2, steps[2]);
    assert steps[1..][1..] == [steps[2]];
    assert Run(Initial, steps) == Run(s1, steps[1..]) == Run(s2, [steps[2]]) == Run(s3, []);
  }
}

=== FILE: catalogue_form.dfy ===
/** The catalogue item creation dialog: a required name and reference, an
    optional non-negative price typed as text, a link that is empty or a URL,
    and a status that falls back to "actif". */
module CatalogueForm {
  import opened Wrappers
  import Coerce
  import Forms

  datatype Values = Values(
    nom: string,
    description: string,
    reference: string,
    classification: string,
    prixUnitaireHt: Forms.Amount,
    ficheProduit: string,
    lienPdf: string,
    statut: string,
    commentaires: string)

  /** Everything empty, status "actif". */
  const Defaults := Values("", "", "", "", Forms.Missing, "", "", "actif", "")

  const NomRequired := "Le nom est requis"
  const ReferenceRequired := "La référence est requise"
  const PrixNegative := "Le prix doit être positif"
  const UrlInvalid := "URL invalide"

  /** The schema, every failing rule in field order; `isUrl` stands for zod's
      URL check. */
  function Errors(v: Values, isUrl: string -> bool): (errors: seq<string>)
    ensures errors == [] <==>
              && v.nom != "" && v.reference != ""
              && (v.prixUnitaireHt.Missing? || (v.prixUnitaireHt.Number? && v.prixUnitaireHt.value >= 0.0))
              && (v.lienPdf == "" || isUrl(v.lienPdf))
    ensures NomRequired in errors <==> v.nom == ""
    ensures ReferenceRequired in errors <==> v.reference == ""
    ensures UrlInvalid in errors <==> v.lienPdf != "" && !isUrl(v.lienPdf)
  {
    Forms.Rule(v.nom != "", NomRequired)
    + Forms.Rule(v.reference != "", ReferenceRequired)
    + Forms.AmountRule(v.prixUnitaireHt, PrixNegative)
    + Forms.Rule(v.lienPdf == "" || isUrl(v.lienPdf), UrlInvalid)
  }

  /** The untouched dialog is refused for its name and its reference. */
  lemma DefaultsRejected(isUrl: string -> bool)
    ensures Errors(Defaults, isUrl) == [NomRequired, ReferenceRequired]
  {
  }

  /** The row handed to the creation call; `None` is a field left out. */
  datatype Payload = Payload(
    nom: string,
    reference: string,
    description: Option<string>,
    classification: Option<string>,
    prixUnitaireHt: Option<real>,
    ficheProduit: Option<string>,
    lienPdf: Option<string>,
    statut: string,
    commentaires: Option<string>)

  /** The optional text fields, in the order the payload lists them. */
  function OptionalValues(v: Values): seq<string> {
    [v.description, v.classification, v.ficheProduit, v.lienPdf, v.commentaires]
  }

  /** The payload's columns for those fields, in the same order. */
  function OptionalColumns(p: Payload): seq<Option<string>> {
    [p.description, p.classification, p.ficheProduit, p.lienPdf, p.commentaires]
  }

  /** `cleanData`: name and reference as typed, the status `|| "actif"`, the
      rest `|| undefined`. */
  function Clean(v: Values): (p: Payload)
    ensures p.nom == v.nom && p.reference == v.reference
    ensures p.statut != "" && (v.statut != "" ==> p.statut == v.statut)
    ensures v.statut == "" ==> p.statut == Defaults.statut
    ensures p.prixUnitaireHt.Some? <==> v.prixUnitaireHt.Number? && v.prixUnitaireHt.value != 0.0
    ensures p.prixUnitaireHt.Some? ==> p.prixUnitaireHt.value == v.prixUnitaireHt.value
    ensures |OptionalColumns(p)| == |OptionalValues(v)|
    ensures forall k :: 0 <= k < |OptionalValues(v)| ==>
              (OptionalColumns(p)[k].None? <==> OptionalValues(v)[k] == "")
    ensures forall k :: 0 <= k < |OptionalValues(v)| && OptionalColumns(p)[k].Some? ==>
              OptionalColumns(p)[k].value == OptionalValues(v)[k]
  {
    Payload(
      v.nom,
      v.reference,
      Coerce.OrNull(v.description),
      Coerce.OrNull(v.classification),
      Forms.AmountOrUndefined(v.prixUnitaireHt),
      Coerce.OrNull(v.ficheProduit),
      Coerce.OrNull(v.lienPdf),
      Coerce.OrElse(Some(v.statut), "actif"),
      Coerce.OrNull(v.commentaires))
  }

  /** Pressing "Créer": the schema, then the cleaned row. */
  function Submit(v: Values, isUrl: string -> bool): (s: Forms.Submission<Payload>)
    ensures s.Sent? <==> Errors(v, isUrl) == []
    ensures !s.Ignored?
    ensures s.Rejected? ==> |s.errors| > 0
  {
    var errors := Errors(v, isUrl);
    if errors != [] then Forms.Rejected(errors) else Forms.Sent(Clean(v))
  }

  /** What reaches the creation call: a name and a reference, a status, a
      strictly positive price if any, and a link only if it passed the URL
      check. */
  lemma SentRowIsWellFormed(v: Values, isUrl: string -> bool)
    requires Submit(v, isUrl).Sent?
    ensures Submit(v, isUrl).payload.nom != "" && Submit(v, isUrl).payload.reference != ""
    ensures Submit(v, isUrl).payload.statut != ""
    ensures Submit(v, isUrl).payload.prixUnitaireHt.Some? ==> Submit(v, isUrl).payload.prixUnitaireHt.value > 0.0
    ensures Submit(v, isUrl).payload.lienPdf.Some? ==> isUrl(Submit(v, isUrl).payload.lienPdf.value)
  {
  }

  /** A cleared status is sent as "actif", the same as leaving the default. */
  lemma ClearedStatusIsActive(v: Values)
    ensures Clean(v.(statut := "")) == Clean(v.(statut := "actif"))
  {
  }

  /** The dialog once the creation call answers: a success closes it and
      restores the defaults. */
  function Settle(d: Forms.Dialog<Values>, succeeded: bool): (r: Forms.Dialog<Values>)
    ensures succeeded ==> !r.open && r.values == Defaults
    ensures !succeeded ==> r == d
  {
    Forms.AfterMutation(d, Defaults, succeeded, true)
  }
}

=== FILE: catalogue_page.dfy ===
/** The catalogue list: search, status and classification filters, the
    status badge, and the four summary cards (total, active, average price,
    distinct classifications). */
module CataloguePage {
  import opened Wrappers
  import Coerce
  import Seqs
  import ListView

  datatype Item = Item(
    nom: string,
    reference: string,
    description: Option<string>,
    statut: Option<string>,
    classification: Option<string>,
    prixUnitaireHt: Option<real>)

  datatype Filters = Filters(search: string, statut: string, classification: string)

  predicate MatchesSearch(item: Item, query: string) {
    || ListView.MatchesLower(item.nom, query)
    || ListView.MatchesLower(item.reference, query)
    || ListView.MatchesLowerOpt(item.description, query)
  }

  predicate Keeps(f: Filters, item: Item) {
    && MatchesSearch(item, f.search)
    && ListView.SelectAcceptsOpt(f.statut, item.statut)
    && ListView.SelectAcceptsOpt(f.classification, item.classification)
  }

  function KeepFn(f: Filters): Item -> bool {
    (item: Item) => Keeps(f, item)
  }

  /** `filteredItems`. */
  function Filtered(list: seq<Item>, f: Filters): (r: seq<Item>)
    ensures Seqs.IsSubsequence(r, list)
    ensures forall item :: item in r <==> item in list && Keeps(f, item)
    ensures forall item :: multiset(r)[item] == if Keeps(f, item) then multiset(list)[item] else 0
  {
    Seqs.FilterIsSubsequence(list, KeepFn(f));
    forall item ensures multiset(Seqs.Filter(list, KeepFn(f)))[item] == if Keeps(f, item) then multiset(list)[item] else 0 {
      Seqs.FilterMultiplicity(list, KeepFn(f), item);
    }
    forall item ensures item in Seqs.Filter(list, KeepFn(f)) <==> item in list && Keeps(f, item) {
      Seqs.FilterMembership(list, KeepFn(f), item);
    }
    Seqs.Filter(list, KeepFn(f))
  }

  /** The initial filters keep every item. */
  lemma InitialFiltersKeepAll(list: seq<Item>)
    ensures Filtered(list, Filters("", ListView.All, ListView.All)) == list
  {
    forall k | 0 <= k < |list| ensures KeepFn(Filters("", ListView.All, ListView.All))(list[k]) {
      ListView.EmptyQueryMatches(list[k].nom);
    }
    Seqs.FilterAllPass(list, KeepFn(Filters("", ListView.All, ListView.All)));
  }

  /** A non-"all" select keeps only items carrying exactly that value, so an
      item without a status or classification is dropped by it. */
  lemma SelectsAreExact(list: seq<Item>, f: Filters, item: Item)
    requires item in Filtered(list, f)
    ensures f.statut != ListView.All ==> item.statut == Some(f.statut)
    ensures f.classification != ListView.All ==> item.classification == Some(f.classification)
  {
  }

  /** `getStatusBadge`'s text. */
  function StatusBadge(statut: Option<string>): (shown: string)
    ensures shown == "Non défini" <==> statut.None? || statut.value !in {"actif", "inactif", "archive"}
  {
    if statut.None? then "Non défini"
    else match statut.value
      case "actif" => "Actif"
      case "inactif" => "Inactif"
      case "archive" => "Archivé"
      case _ => "Non défini"
  }

  function IsActive(item: Item): bool {
    item.statut == Some("actif")
  }

  /** The active card never exceeds the total card. */
  lemma ActiveWithinTotal(list: seq<Item>)
    ensures Seqs.Count(list, IsActive) <= |list|
  {
  }

  /** `reduce((sum, item) => sum + (item.prix_unitaire_ht || 0), 0)`. */
  function PriceSum(list: seq<Item>): real
    decreases |list|
  {
    if |list| == 0 then 0.0 else list[0].prixUnitaireHt.GetOr(0.0) + PriceSum(list[1..])
  }

  predicate IsPriced(item: Item) {
    Coerce.NonZero(item.prixUnitaireHt).Some?
  }

  /** The average-price card: the sum over the items with a non-zero price,
      divided by their number; when there is none, `0 / 0` is `NaN`, which
      `|| 0` turns into 0, and the card shows "-". */
  function AveragePriceCell(list: seq<Item>): (c: ListView.Cell)
    ensures c == ListView.Dash <==> Seqs.Count(list, IsPriced) == 0 || PriceSum(list) == 0.0
    ensures c.Amount? ==> Seqs.Count(list, IsPriced) > 0 && c.value == PriceSum(list) / Seqs.Count(list, IsPriced) as real
  {
    var n := Seqs.Count(list, IsPriced);
    if n == 0 then ListView.PriceCell(None)
    else ListView.PriceCell(Some(PriceSum(list) / n as real))
  }

  /** Items without a price, or priced at 0, leave the average unchanged. */
  lemma UnpricedItemsIgnored(list: seq<Item>, item: Item)
    requires !IsPriced(item)
    ensures AveragePriceCell(list + [item]) == AveragePriceCell(list)
  {
    Seqs.CountAppend(list, [item], IsPriced);
    PriceSumAppend(list, [item]);
  }

  lemma {:induction false} PriceSumAppend(a: seq<Item>, b: seq<Item>)
    ensures PriceSum(a + b) == PriceSum(a) + PriceSum(b)
    decreases |a|
  {
    if |a| == 0 {
      assert a + b == b;
    } else {
      assert (a + b)[1..] == a[1..] + b;
      PriceSumAppend(a[1..], b);
    }
  }

  /** The distinct truthy classification values. */
  function ClassificationSet(list: seq<Item>): set<string> {
    set k | 0 <= k < |list| && Coerce.Truthy(list[k].classification) :: list[k].classification.value
  }

  /** `new Set(items.map(i => i.classification).filter(Boolean)).size`. */
  method CountClassifications(list: seq<Item>) returns (n: nat)
    ensures n == |ClassificationSet(list)|
    ensures n <= |list|
    ensures forall c :: c in ClassificationSet(list) <==>
              c != "" && exists k :: 0 <= k < |list| && list[k].classification == Some(c)
  {
    var seen: set<string> := {};
    var i := 0;
    while i < |list|
      invariant 0 <= i <= |list|
      invariant seen == ClassificationSet(list[..i])
      invariant |seen| <= i
    {
      var prefix := list[..i + 1];
      assert prefix[..i] == list[..i];
      if Coerce.Truthy(list[i].classification) {
        assert ClassificationSet(prefix) == ClassificationSet(list[..i]) + {list[i].classification.value} by {
          assert prefix[i] == list[i];
        }
        seen := seen + {list[i].classification.value};
      } else {
        assert ClassificationSet(prefix) == ClassificationSet(list[..i]);
      }
      i := i + 1;
    }
    assert list[..i] == list;
    n := |seen|;
  }
}

=== FILE: checkout.dfy ===
/** The `create-stripe-session` edge function: a CORS preflight, an ordered
    run of checks whose first failure becomes a 500 answer, the reuse or
    creation of the payment customer, the server's plan table, the checkout
    session with its mode and recurrence, and the subscription row marked
    "pending". The payment provider, the database and the auth provider are
    the `Services` record: what each call answers, as a function of what it
    is asked. */
module Checkout {
  import opened Wrappers
  import Coerce
  import Text

  const AllowOrigin := "*"
  const AllowHeaders := "authorization, x-client-info, apikey, content-type"

  const StripeKeyMissing := "STRIPE_SECRET_KEY is not set"
  const NoAuthorization := "No authorization header provided"
  const AuthenticationPrefix := "Authentication error: "
  const NoUserEmail := "User not authenticated or email not available"
  const PlanIdRequired := "plan_id is required"
  const NotAMember := "User is not a member of any organization"
  const NotAnAdmin := "Only organization admins can manage subscriptions"
  const InvalidPlan := "Invalid plan_id"

  const BearerPrefix := "Bearer "

  /** The roles allowed to manage the organization's subscription. */
  const ManagerRoles: set<string> := {"admin", "owner"}

  /** The incoming request and the function's environment. `body` is what
      `req.json()` gives: the `plan_id` property (`None` when absent or
      `null`), or the parser's error message. */
  datatype Request = Request(
    httpMethod: string,
    stripeKey: Option<string>,
    authorization: Option<string>,
    origin: Option<string>,
    body: Result<Option<string>>)

  datatype AuthUser = AuthUser(id: string, email: Option<string>)

  /** The caller's membership row. */
  datatype Member = Member(organizationId: string, role: string)

  datatype CustomerRequest = CustomerRequest(email: string, organizationId: string, userId: string)

  datatype Mode = Subscription | Payment

  /** The checkout session asked of the payment provider: one line item in
      euros, quantity 1. */
  datatype SessionRequest = SessionRequest(
    customer: string,
    currency: string,
    productName: string,
    productDescription: string,
    unitAmount: nat,
    monthly: bool,
    quantity: nat,
    mode: Mode,
    successUrl: string,
    cancelUrl: string,
    organizationId: string,
    planId: string,
    userId: string)

  /** The subscription row written with `onConflict: "organization_id"`; the
      `updated_at` timestamp is a clock read and is left out. */
  datatype Upsert = Upsert(
    organizationId: string,
    customerId: string,
    planId: string,
    planName: string,
    status: string)

  /** What the remote services answer. `getUser` is asked with the token and
      gives its error message or the user (`None` for no user); `membership`
      is asked with the user id, and a lookup error and a missing row both
      read as `None`; `storedCustomer` is the organization's stored customer
      id, its lookup error being ignored; the two creation calls give the new
      customer id or session URL, or throw. The upsert's answer is never
      read, so it has no entry. */
  datatype Services = Services(
    getUser: string -> Result<Option<AuthUser>>,
    membership: string -> Option<Member>,
    storedCustomer: string -> Option<string>,
    createCustomer: CustomerRequest -> Result<string>,
    createSession: SessionRequest -> Result<Option<string>>)

  /** The remote writes the function issues, in order. */
  datatype Call =
    | CreateCustomer(customerRequest: CustomerRequest)
    | CreateSession(sessionRequest: SessionRequest)
    | UpsertSubscription(upsert: Upsert)

  datatype Body = UrlBody(url: Option<string>) | ErrorBody(error: string)

  /** Every response carries the CORS headers; a preflight has no body. */
  datatype Response = Preflight | Json(status: nat, body: Body)

  datatype Outcome = Outcome(response: Response, calls: seq<Call>)

  /** The server's plan table: price in cents and display name. */
  datatype PlanConfig = PlanConfig(priceCents: nat, name: string)

  const PlanIds: set<string> := {"free", "pro", "enterprise"}

  /** `plans[plan_id]`. */
  function Plan(planId: string): (c: Option<PlanConfig>)
    ensures c.Some? <==> planId in PlanIds
    ensures c.Some? ==> c.value.name != ""
  {
    match planId
    case "free" => Some(PlanConfig(0, "Gratuit"))
    case "pro" => Some(PlanConfig(2900, "Pro"))
    case "enterprise" => Some(PlanConfig(9900, "Enterprise"))
    case _ => None
  }

  /** `authHeader.replace("Bearer ", "")`: the first occurrence of the prefix,
      wherever it is, is removed. */
  function Token(header: string): (t: string)
    ensures forall i :: Text.FirstOccurrence(header, BearerPrefix, i) ==>
              t == header[..i] + header[i + |BearerPrefix|..]
    ensures Text.StartsWith(header, BearerPrefix) ==> t == header[|BearerPrefix|..]
    ensures !Text.Contains(header, BearerPrefix) ==> t == header
  {
    Text.RemoveFirst(header, BearerPrefix)
  }

  /** The prefix is cut wherever it first appears, not only at the start:
      some header that contains it is shortened by exactly it, and a header
      that does not is passed on as it is. */
  lemma TokenCutsFirstBearer(header: string)
    ensures Text.Contains(header, BearerPrefix) ==>
              exists i :: Text.OccursAt(header, BearerPrefix, i) && Token(header) == header[..i] + header[i + |BearerPrefix|..]
    ensures Token("Basic Bearer abc") == "Basic abc"
  {
    if Text.Contains(header, BearerPrefix) {
      Text.FirstOccurrenceExists(header, BearerPrefix);
    }
    var h := "Basic Bearer abc";
    assert Text.FirstOccurrence(h, BearerPrefix, 6) by {
      assert h[6..13] == BearerPrefix;
      forall j | 0 <= j < 6 ensures !Text.OccursAt(h, BearerPrefix, j) {
        assert h[j..j + 7][0] == h[j];
      }
    }
  }

  /** What passing every check yields: the user (with an e-mail), the plan
      id asked for, and the membership row. */
  datatype Authorized = Authorized(user: AuthUser, email: string, planId: string, member: Member)

  /** The checks in their order, the first failure giving its message. */
  function Authorize(req: Request, svc: Services): (r: Result<Authorized>)
    ensures !Coerce.Truthy(req.stripeKey) ==> r == Err(StripeKeyMissing)
    ensures Coerce.Truthy(req.stripeKey) && !Coerce.Truthy(req.authorization) ==> r == Err(NoAuthorization)
    ensures r.Ok? ==>
              && Coerce.Truthy(req.stripeKey) && Coerce.Truthy(req.authorization)
              && svc.getUser(Token(req.authorization.value)) == Ok(Some(r.value.user))
              && r.value.user.email == Some(r.value.email) && r.value.email != ""
              && req.body == Ok(Some(r.value.planId)) && r.value.planId != ""
              && svc.membership(r.value.user.id) == Some(r.value.member)
              && r.value.member.role in ManagerRoles
    ensures Coerce.Truthy(req.stripeKey) && Coerce.Truthy(req.authorization) ==>
              && (forall m: string :: svc.getUser(Token(req.authorization.value)) == Err(m) ==> r == Err(AuthenticationPrefix + m))
              && (svc.getUser(Token(req.authorization.value)) == Ok(None) ==> r == Err(NoUserEmail))
              && (forall u: AuthUser :: svc.getUser(Token(req.authorization.value)) == Ok(Some(u)) && !Coerce.Truthy(u.email) ==> r == Err(NoUserEmail))
              && (forall u: AuthUser, m: string :: svc.getUser(Token(req.authorization.value)) == Ok(Some(u)) && Coerce.Truthy(u.email) && req.body == Err(m) ==> r == Err(m))
  {
    if !Coerce.Truthy(req.stripeKey) then Err(StripeKeyMissing)
    else if !Coerce.Truthy(req.authorization) then Err(NoAuthorization)
    else match svc.getUser(Token(req.authorization.value))
      case Err(m) => Err(AuthenticationPrefix + m)
      case Ok(found) =>
        if found.None? || !Coerce.Truthy(found.value.email) then Err(NoUserEmail)
        else
          var user := found.value;
          match req.body
          case Err(m) => Err(m)
          case Ok(planId) =>
            if !Coerce.Truthy(planId) then Err(PlanIdRequired)
            else match svc.membership(user.id)
              case None => Err(NotAMember)
              case Some(member) =>
                if member.role !in ManagerRoles then Err(NotAnAdmin)
                else Ok(Authorized(user, user.email.value, planId.value, member))
  }

  /** Conversely, a request that passes every check is authorized, with the
      user, plan id and membership row it brought. */
  lemma AuthorizeComplete(req: Request, svc: Services, user: AuthUser, planId: string, member: Member)
    requires Coerce.Truthy(req.stripeKey) && Coerce.Truthy(req.authorization)
    requires svc.getUser(Token(req.authorization.value)) == Ok(Some(user)) && Coerce.Truthy(user.email)
    requires req.body == Ok(Some(planId)) && planId != ""
    requires svc.membership(user.id) == Some(member) && member.role in ManagerRoles
    ensures Authorize(req, svc) == Ok(Authorized(user, user.email.value, planId, member))
  {
  }

  /** A missing plan id is reported before the membership lookup, and a
      missing membership before the role. */
  lemma PlanCheckedBeforeMembership(req: Request, svc: Services, user: AuthUser)
    requires Coerce.Truthy(req.stripeKey) && Coerce.Truthy(req.authorization)
    requires svc.getUser(Token(req.authorization.value)) == Ok(Some(user)) && Coerce.Truthy(user.email)
    ensures req.body == Ok(None) ==> Authorize(req, svc) == Err(PlanIdRequired)
    ensures req.body.Ok? && Coerce.Truthy(req.body.value) && svc.membership(user.id).None? ==>
              Authorize(req, svc) == Err(NotAMember)
    ensures req.body.Ok? && Coerce.Truthy(req.body.value) && svc.membership(user.id).Some?
            && svc.membership(user.id).value.role !in ManagerRoles ==>
              Authorize(req, svc) == Err(NotAnAdmin)
  {
  }

  /** `${req.headers.get("origin")}`: a missing header prints as "null". */
  function OriginText(origin: Option<string>): string {
    if origin.Some? then origin.value else "null"
  }

  /** The session asked for: a paid plan is a monthly subscription, the free
      plan a one-off payment with no recurrence. */
  function SessionFor(a: Authorized, customer: string, plan: PlanConfig, origin: Option<string>): (s: SessionRequest)
    ensures s.mode == Subscription <==> plan.priceCents > 0
    ensures s.monthly <==> plan.priceCents > 0
    ensures s.unitAmount == plan.priceCents && s.quantity == 1 && s.currency == "eur"
    ensures s.customer == customer
    ensures s.organizationId == a.member.organizationId && s.planId == a.planId && s.userId == a.user.id
    ensures Text.StartsWith(s.successUrl, OriginText(origin))
    ensures Text.StartsWith(s.cancelUrl, OriginText(origin))
    ensures s.successUrl == OriginText(origin) + "/dashboard?success=true"
    ensures s.cancelUrl == OriginText(origin) + "/pricing?canceled=true"
    ensures s.productName == "Abonnement " + plan.name
    ensures s.productDescription == "Accès complet aux fonctionnalités " + plan.name
  {
    var base := OriginText(origin);
    assert (base + "/dashboard?success=true")[..|base|] == base;
    assert (base + "/pricing?canceled=true")[..|base|] == base;
    SessionRequest(
      customer,
      "eur",
      "Abonnement " + plan.name,
      "Accès complet aux fonctionnalités " + plan.name,
      plan.priceCents,
      plan.priceCents > 0,
      1,
      if plan.priceCents > 0 then Subscription else Payment,
      base + "/dashboard?success=true",
      base + "/pricing?canceled=true",
      a.member.organizationId,
      a.planId,
      a.user.id)
  }

  function Fail(message: string, calls: seq<Call>): Outcome {
    Outcome(Json(500, ErrorBody(message)), calls)
  }

  /** The customer the session is opened for: the organization's stored
      customer id, or else the answer of the creation call. */
  function CustomerOf(svc: Services, a: Authorized): (c: Result<string>)
    ensures Coerce.Truthy(svc.storedCustomer(a.member.organizationId)) ==>
              c == Ok(svc.storedCustomer(a.member.organizationId).value)
    ensures !Coerce.Truthy(svc.storedCustomer(a.member.organizationId)) ==>
              c == svc.createCustomer(CustomerRequest(a.email, a.member.organizationId, a.user.id))
  {
    var stored := svc.storedCustomer(a.member.organizationId);
    if Coerce.Truthy(stored) then Ok(stored.value)
    else svc.createCustomer(CustomerRequest(a.email, a.member.organizationId, a.user.id))
  }

  /** The calls the customer step issues: none for a stored customer. */
  function CustomerCalls(svc: Services, a: Authorized): seq<Call> {
    if Coerce.Truthy(svc.storedCustomer(a.member.organizationId)) then []
    else [CreateCustomer(CustomerRequest(a.email, a.member.organizationId, a.user.id))]
  }

  /** Once the checks have passed: reuse the stored customer or create one,
      then look the plan up, create the session, upsert the subscription row
      and answer 200 with the session URL. */
  function Proceed(req: Request, svc: Services, a: Authorized): (o: Outcome)
    ensures o.response.Json?
    ensures o.response.status == 200 <==> o.response.body.UrlBody?
    ensures o.response.status == 200 || o.response.status == 500
    ensures Coerce.Truthy(svc.storedCustomer(a.member.organizationId)) ==>
              forall c | c in o.calls :: !c.CreateCustomer?
    ensures !Coerce.Truthy(svc.storedCustomer(a.member.organizationId)) ==>
              |o.calls| > 0 && o.calls[0] == CreateCustomer(CustomerRequest(a.email, a.member.organizationId, a.user.id))
  {
    var created := CustomerCalls(svc, a);
    match CustomerOf(svc, a)
    case Err(m) => Fail(m, created)
    case Ok(customerId) =>
      match Plan(a.planId)
      case None => Fail(InvalidPlan, created)
      case Some(plan) =>
        var session := SessionFor(a, customerId, plan, req.origin);
        var calls := created + [CreateSession(session)];
        match svc.createSession(session)
        case Err(m) => Fail(m, calls)
        case Ok(url) =>
          var upsert := Upsert(a.member.organizationId, customerId, a.planId, plan.name, "pending");
          Outcome(Json(200, UrlBody(url)), calls + [UpsertSubscription(upsert)])
  }

  /** The whole handler. Any thrown error, whatever step threw it, becomes a
      500 answer carrying its message. */
  function Handle(req: Request, svc: Services): (o: Outcome)
    ensures req.httpMethod == "OPTIONS" <==> o.response.Preflight?
    ensures req.httpMethod == "OPTIONS" ==> o.calls == []
    ensures Authorize(req, svc).Err? && req.httpMethod != "OPTIONS" ==>
              o == Fail(Authorize(req, svc).message, [])
    ensures o.response.Json? ==> (o.response.status == 200 <==> o.response.body.UrlBody?)
  {
    if req.httpMethod == "OPTIONS" then Outcome(Preflight, [])
    else match Authorize(req, svc)
      case Err(m) => Fail(m, [])
      case Ok(a) => Proceed(req, svc, a)
  }

  /** A preflight is answered before any check, whatever the request holds. */
  lemma PreflightFirst(req: Request, svc: Services)
    requires req.httpMethod == "OPTIONS"
    ensures Handle(req, svc) == Outcome(Preflight, [])
  {
  }

  /** Nothing is written anywhere unless every check has passed: a caller
      who is not an admin or owner, or who sent no plan id, causes no call. */
  lemma NoWriteBeforeAuthorization(req: Request, svc: Services)
    requires |Handle(req, svc).calls| > 0
    ensures Authorize(req, svc).Ok?
    ensures Authorize(req, svc).value.member.role in ManagerRoles
  {
  }

  /** The checks keep their order: a missing key hides every later problem,
      and a missing header hides the ones after it. */
  lemma FirstFailureWins(req: Request, svc: Services)
    requires req.httpMethod != "OPTIONS"
    ensures !Coerce.Truthy(req.stripeKey) ==> Handle(req, svc).response == Json(500, ErrorBody(StripeKeyMissing))
    ensures Coerce.Truthy(req.stripeKey) && !Coerce.Truthy(req.authorization) ==>
              Handle(req, svc).response == Json(500, ErrorBody(NoAuthorization))
  {
  }

  /** The "owner" role passes the server's gate as "admin" does; "manager"
      does not. */
  lemma OwnerAcceptedManagerRefused()
    ensures "owner" in ManagerRoles && "admin" in ManagerRoles && "manager" !in ManagerRoles
  {
  }

  /** A successful answer means: every check passed, the plan is in the
      table, and the last two calls are the session and the "pending"
      subscription row for the same organization, customer and plan. */
  lemma SuccessShape(req: Request, svc: Services)
    requires Handle(req, svc).response.Json? && Handle(req, svc).response.status == 200
    ensures Authorize(req, svc).Ok?
    ensures Authorize(req, svc).value.planId in PlanIds
    ensures |Handle(req, svc).calls| >= 2
    ensures var calls := Handle(req, svc).calls;
            var s := calls[|calls| - 2];
            var u := calls[|calls| - 1];
            && s.CreateSession? && u.UpsertSubscription?
            && u.upsert.status == "pending"
            && u.upsert.customerId == s.sessionRequest.customer
            && u.upsert.organizationId == s.sessionRequest.organizationId
            && u.upsert.planId == s.sessionRequest.planId
            && Handle(req, svc).response.body == UrlBody(svc.createSession(s.sessionRequest).value)
  {
  }

  /** The success path in full: once the checks pass, the customer step
      gives an id, the plan is known and the session call answers a URL, the
      answer is 200 with that URL, and the calls are the customer step's,
      the session, and the "pending" subscription row, in that order. */
  lemma CheckoutSucceeds(req: Request, svc: Services, a: Authorized, customer: string, plan: PlanConfig, url: Option<string>)
    requires req.httpMethod != "OPTIONS" && Authorize(req, svc) == Ok(a)
    requires CustomerOf(svc, a) == Ok(customer) && Plan(a.planId) == Some(plan)
    requires svc.createSession(SessionFor(a, customer, plan, req.origin)) == Ok(url)
    ensures Handle(req, svc).response == Json(200, UrlBody(url))
    ensures Handle(req, svc).calls ==
              CustomerCalls(svc, a)
              + [CreateSession(SessionFor(a, customer, plan, req.origin)),
                 UpsertSubscription(Upsert(a.member.organizationId, customer, a.planId, plan.name, "pending"))]
  {
  }

  /** A thrown remote call is reported: the message of a failed customer
      creation, or of a failed session creation, is the 500 answer's error,
      and nothing is called after it. */
  lemma RemoteFailureReported(req: Request, svc: Services, a: Authorized)
    requires req.httpMethod != "OPTIONS" && Authorize(req, svc) == Ok(a)
    ensures CustomerOf(svc, a).Err? ==>
              Handle(req, svc) == Outcome(Json(500, ErrorBody(CustomerOf(svc, a).message)), CustomerCalls(svc, a))
    ensures CustomerOf(svc, a).Ok? && Plan(a.planId).Some?
            && svc.createSession(SessionFor(a, CustomerOf(svc, a).value, Plan(a.planId).value, req.origin)).Err? ==>
              Handle(req, svc) == Outcome(
                Json(500, ErrorBody(svc.createSession(SessionFor(a, CustomerOf(svc, a).value, Plan(a.planId).value, req.origin)).message)),
                CustomerCalls(svc, a) + [CreateSession(SessionFor(a, CustomerOf(svc, a).value, Plan(a.planId).value, req.origin))])
  {
  }

  /** The plan is looked up only after the customer step: for an organization
      without a stored customer, an unknown plan id still creates a customer
      before the request fails. */
  lemma UnknownPlanCreatesCustomerFirst(req: Request, svc: Services)
    requires req.httpMethod != "OPTIONS" && Authorize(req, svc).Ok?
    requires Authorize(req, svc).value.planId !in PlanIds
    requires !Coerce.Truthy(svc.storedCustomer(Authorize(req, svc).value.member.organizationId))
    requires svc.createCustomer(CustomerRequest(
               Authorize(req, svc).value.email,
               Authorize(req, svc).value.member.organizationId,
               Authorize(req, svc).value.user.id)).Ok?
    ensures Handle(req, svc).response == Json(500, ErrorBody(InvalidPlan))
    ensures |Handle(req, svc).calls| == 1 && Handle(req, svc).calls[0].CreateCustomer?
  {
  }

  /** A stored customer is reused: no customer is created and the session
      is opened for the stored id. */
  lemma StoredCustomerReused(req: Request, svc: Services)
    requires req.httpMethod != "OPTIONS" && Authorize(req, svc).Ok?
    requires Coerce.Truthy(svc.storedCustomer(Authorize(req, svc).value.member.organizationId))
    ensures forall c | c in Handle(req, svc).calls :: !c.CreateCustomer?
    ensures forall c | c in Handle(req, svc).calls && c.CreateSession? ::
              c.sessionRequest.customer == svc.storedCustomer(Authorize(req, svc).value.member.organizationId).value
  {
  }
}

=== FILE: contact_edit_form.dfy ===
/** The contact edit dialog: the creation dialog's schema, a record loaded
    with `""` for every empty column and "particulier" for a missing type,
    and an update by id that carries no tags. */
module ContactEditForm {
  import opened Wrappers
  import Coerce
  import Forms
  import ContactForm

  /** The stored contact, as far as the dialog reads it. */
  datatype Contact = Contact(
    id: string,
    nom: string,
    prenom: Option<string>,
    email: Option<string>,
    telephone: Option<string>,
    kind: Option<string>,
    entrepriseId: Option<string>,
    statut: Option<string>,
    canalAcquisition: Option<string>,
    commentaires: Option<string>)

  /** The update handed to the mutation; unlike creation it has no tags. */
  datatype Update = Update(
    id: string,
    nom: string,
    kind: string,
    email: Option<string>,
    prenom: Option<string>,
    telephone: Option<string>,
    entrepriseId: Option<string>,
    statut: Option<string>,
    canalAcquisition: Option<string>,
    commentaires: Option<string>)

  /** The nullable text columns other than the type, in the order the update
      lists them. */
  function RecordColumns(c: Contact): seq<Option<string>> {
    [c.email, c.prenom, c.telephone, c.entrepriseId, c.statut, c.canalAcquisition, c.commentaires]
  }

  function UpdateColumns(u: Update): seq<Option<string>> {
    [u.email, u.prenom, u.telephone, u.entrepriseId, u.statut, u.canalAcquisition, u.commentaires]
  }

  /** The effect run when a record arrives: each column `|| ""`, the type
      `|| "particulier"`, the name as stored. */
  function Load(c: Contact): (v: ContactForm.Values)
    ensures v.nom == c.nom
    ensures v.kind == Coerce.OrElse(c.kind, "particulier")
    ensures |ContactForm.OptionalValues(v)| == |RecordColumns(c)|
    ensures forall k :: 0 <= k < |RecordColumns(c)| ==>
              (ContactForm.OptionalValues(v)[k] == "" <==> !Coerce.Truthy(RecordColumns(c)[k]))
  {
    ContactForm.Values(
      c.nom,
      Coerce.OrEmpty(c.prenom),
      Coerce.OrEmpty(c.email),
      Coerce.OrEmpty(c.telephone),
      Coerce.OrElse(c.kind, "particulier"),
      Coerce.OrEmpty(c.entrepriseId),
      Coerce.OrEmpty(c.statut),
      Coerce.OrEmpty(c.canalAcquisition),
      Coerce.OrEmpty(c.commentaires))
  }

  /** The fields shown when the dialog's record changes: a record is loaded;
      without one the fields keep whatever they held. */
  function Shown(current: ContactForm.Values, record: Option<Contact>): (v: ContactForm.Values)
    ensures record.None? ==> v == current
    ensures record.Some? ==> v.nom == record.value.nom
  {
    if record.Some? then Load(record.value) else current
  }

  /** `cleanData` with the record's id. */
  function Clean(id: string, v: ContactForm.Values): (u: Update)
    ensures u.id == id && u.nom == v.nom && u.kind == v.kind
    ensures |UpdateColumns(u)| == |ContactForm.OptionalValues(v)|
    ensures forall k :: 0 <= k < |ContactForm.OptionalValues(v)| ==>
              (UpdateColumns(u)[k].None? <==> ContactForm.OptionalValues(v)[k] == "")
    ensures forall k :: 0 <= k < |ContactForm.OptionalValues(v)| && UpdateColumns(u)[k].Some? ==>
              UpdateColumns(u)[k].value == ContactForm.OptionalValues(v)[k]
  {
    Update(
      id,
      v.nom,
      v.kind,
      Coerce.OrNull(v.email),
      Coerce.OrNull(v.prenom),
      Coerce.OrNull(v.telephone),
      Coerce.OrNull(v.entrepriseId),
      Coerce.OrNull(v.statut),
      Coerce.OrNull(v.canalAcquisition),
      Coerce.OrNull(v.commentaires))
  }

  /** Pressing "Enregistrer": the schema first, then `if (!contact) return`,
      then the update of that record. */
  function Submit(record: Option<Contact>, v: ContactForm.Values, isEmail: string -> bool): (s: Forms.Submission<Update>)
    ensures s.Rejected? <==> ContactForm.Errors(v, isEmail) != []
    ensures s.Ignored? <==> ContactForm.Errors(v, isEmail) == [] && record.None?
    ensures s.Sent? ==> record.Some? && s.payload.id == record.value.id && s.payload.kind in ContactForm.Kinds
  {
    var errors := ContactForm.Errors(v, isEmail);
    if errors != [] then Forms.Rejected(errors)
    else if record.None? then Forms.Ignored
    else Forms.Sent(Clean(record.value.id, v))
  }

  /** A stored type outside the two known values is loaded as it is, and
      the dialog then refuses to save the record until the type is changed. */
  lemma UnknownStoredTypeBlocksSaving(c: Contact, isEmail: string -> bool)
    requires Coerce.Truthy(c.kind) && c.kind.value !in ContactForm.Kinds
    ensures Submit(Some(c), Load(c), isEmail).Rejected?
    ensures ContactForm.KindInvalid(c.kind.value) in Submit(Some(c), Load(c), isEmail).errors
  {
  }

  /** Opening a valid record and saving it untouched writes back every
      column except the ones that held `""`, which become `null`, and a
      missing type, which becomes "particulier". */
  lemma {:induction false} SaveUntouched(c: Contact, isEmail: string -> bool)
    requires ContactForm.Errors(Load(c), isEmail) == []
    ensures Submit(Some(c), Load(c), isEmail).Sent?
    ensures Submit(Some(c), Load(c), isEmail).payload.nom == c.nom
    ensures Submit(Some(c), Load(c), isEmail).payload.kind == Coerce.OrElse(c.kind, "particulier")
    ensures forall k :: 0 <= k < |RecordColumns(c)| ==>
              (UpdateColumns(Submit(Some(c), Load(c), isEmail).payload)[k] == RecordColumns(c)[k]
               <==> RecordColumns(c)[k] != Some(""))
  {
    var u := Clean(c.id, Load(c));
    assert Submit(Some(c), Load(c), isEmail) == Forms.Sent(u);
    forall k | 0 <= k < |RecordColumns(c)|
      ensures UpdateColumns(u)[k] == RecordColumns(c)[k] <==> RecordColumns(c)[k] != Some("")
    {
      assert UpdateColumns(u)[k] == Coerce.OrNull(Coerce.OrEmpty(RecordColumns(c)[k]));
      Coerce.OrNullOrEmpty(RecordColumns(c)[k]);
    }
  }

  /** The dialog once the update answers: a success only closes it. */
  function Settle(d: Forms.Dialog<ContactForm.Values>, succeeded: bool): (r: Forms.Dialog<ContactForm.Values>)
    ensures succeeded ==> !r.open && r.values == d.values
    ensures !succeeded ==> r == d
  {
    Forms.AfterMutation(d, ContactForm.Defaults, succeeded, false)
  }
}

=== FILE: contact_form.dfy ===
/** The contact creation dialog and the schema it shares with the edit
    dialog: a required name, an e-mail that is either empty or valid, a type
    that is one of two values, the rest optional text. */
module ContactForm {
  import opened Wrappers
  import Coerce
  import Forms

  datatype Values = Values(
    nom: string,
    prenom: string,
    email: string,
    telephone: string,
    kind: string,
    entrepriseId: string,
    statut: string,
    canalAcquisition: string,
    commentaires: string)

  /** Everything empty, type "particulier". */
  const Defaults := Values("", "", "", "", "particulier", "", "", "", "")

  const Kinds: set<string> := {"particulier", "entreprise"}

  const NomRequired := "Le nom est requis"
  const EmailInvalid := "Email invalide"

  /** zod's own message for a value outside the type enum. */
  function KindInvalid(received: string): string {
    "Invalid enum value. Expected 'particulier' | 'entreprise', received '" + received + "'"
  }

  /** The schema, every failing rule in field order; `isEmail` stands for
      zod's e-mail check. */
  function Errors(v: Values, isEmail: string -> bool): (errors: seq<string>)
    ensures errors == [] <==> v.nom != "" && (v.email == "" || isEmail(v.email)) && v.kind in Kinds
    ensures v.nom == "" ==> |errors| > 0 && errors[0] == NomRequired
    ensures NomRequired in errors <==> v.nom == ""
    ensures EmailInvalid in errors <==> v.email != "" && !isEmail(v.email)
  {
    Forms.Rule(v.nom != "", NomRequired)
    + Forms.Rule(v.email == "" || isEmail(v.email), EmailInvalid)
    + Forms.Rule(v.kind in Kinds, KindInvalid(v.kind))
  }

  /** An empty e-mail is always accepted, whatever the e-mail check says. */
  lemma EmptyEmailAccepted(v: Values, isEmail: string -> bool)
    requires v.nom != "" && v.kind in Kinds && v.email == ""
    ensures Errors(v, isEmail) == []
  {
  }

  /** The untouched dialog is rejected for its missing name alone. */
  lemma DefaultsRejectedForName(isEmail: string -> bool)
    ensures Errors(Defaults, isEmail) == [NomRequired]
  {
  }

  /** The row handed to the creation call; `tags` is always `null`. */
  datatype Payload = Payload(
    nom: string,
    kind: string,
    email: Option<string>,
    prenom: Option<string>,
    telephone: Option<string>,
    entrepriseId: Option<string>,
    statut: Option<string>,
    canalAcquisition: Option<string>,
    commentaires: Option<string>,
    tags: Option<seq<string>>)

  /** The optional fields, in the order `cleanData` lists them. */
  function OptionalValues(v: Values): seq<string> {
    [v.email, v.prenom, v.telephone, v.entrepriseId, v.statut, v.canalAcquisition, v.commentaires]
  }

  function OptionalColumns(p: Payload): seq<Option<string>> {
    [p.email, p.prenom, p.telephone, p.entrepriseId, p.statut, p.canalAcquisition, p.commentaires]
  }

  /** `cleanData`: name and type as typed, the rest `|| null`, no tags. */
  function Clean(v: Values): (p: Payload)
    ensures p.nom == v.nom && p.kind == v.kind && p.tags.None?
    ensures |OptionalColumns(p)| == |OptionalValues(v)|
    ensures forall k :: 0 <= k < |OptionalValues(v)| ==>
              (OptionalColumns(p)[k].None? <==> OptionalValues(v)[k] == "")
    ensures forall k :: 0 <= k < |OptionalValues(v)| && OptionalColumns(p)[k].Some? ==>
              OptionalColumns(p)[k].value == OptionalValues(v)[k]
  {
    Payload(
      v.nom,
      v.kind,
      Coerce.OrNull(v.email),
      Coerce.OrNull(v.prenom),
      Coerce.OrNull(v.telephone),
      Coerce.OrNull(v.entrepriseId),
      Coerce.OrNull(v.statut),
      Coerce.OrNull(v.canalAcquisition),
      Coerce.OrNull(v.commentaires),
      None)
  }

  /** Pressing "Créer": the schema, then the cleaned row. */
  function Submit(v: Values, isEmail: string -> bool): (s: Forms.Submission<Payload>)
    ensures s.Sent? <==> Errors(v, isEmail) == []
    ensures !s.Ignored?
    ensures s.Rejected? ==> |s.errors| > 0
    ensures s.Sent? ==> s.payload.nom != "" && s.payload.kind in Kinds
    ensures s.Sent? ==> s.payload.email.None? || isEmail(s.payload.email.value)
  {
    var errors := Errors(v, isEmail);
    if errors != [] then Forms.Rejected(errors) else Forms.Sent(Clean(v))
  }

  /** Nothing typed is lost: two fillings that send the same row were the
      same filling. */
  lemma CleanLosesNothing(v: Values, w: Values)
    requires Clean(v) == Clean(w)
    ensures v == w
  {
  }

  /** The dialog once the creation call answers: a success closes it and
      restores the defaults. */
  function Settle(d: Forms.Dialog<Values>, succeeded: bool): (r: Forms.Dialog<Values>)
    ensures succeeded ==> !r.open && r.values == Defaults
    ensures !succeeded ==> r == d
  {
    Forms.AfterMutation(d, Defaults, succeeded, true)
  }
}

=== FILE: contacts_page.dfy ===
/** The contacts list: search and select filters, the source labels and
    the status and type counts. */
module ContactsPage {
  import opened Wrappers
  import Seqs
  import ListView

  datatype Contact = Contact(
    nom: string,
    prenom: string,
    email: string,
    telephone: string,
    kind: string,                // `type`: entreprise or particulier
    entreprise: Option<string>,  // missing for private individuals
    fonction: string,
    statut: string,
    source: string)

  datatype Filters = Filters(search: string, kind: string, statut: string)

  /** The search: lower-cased substring on the last name, first name, email
      or company; a missing company cannot match. */
  predicate MatchesSearch(c: Contact, query: string) {
    || ListView.MatchesLower(c.nom, query)
    || ListView.MatchesLower(c.prenom, query)
    || ListView.MatchesLower(c.email, query)
    || ListView.MatchesLowerOpt(c.entreprise, query)
  }

  predicate Keeps(f: Filters, c: Contact) {
    && MatchesSearch(c, f.search)
    && ListView.SelectAccepts(f.kind, c.kind)
    && ListView.SelectAccepts(f.statut, c.statut)
  }

  function KeepFn(f: Filters): Contact -> bool {
    (c: Contact) => Keeps(f, c)
  }

  /** `filteredContacts`. */
  function Filtered(list: seq<Contact>, f: Filters): (r: seq<Contact>)
    ensures Seqs.IsSubsequence(r, list)
    ensures forall c :: c in r <==> c in list && Keeps(f, c)
    ensures forall c :: multiset(r)[c] == if Keeps(f, c) then multiset(list)[c] else 0
  {
    Seqs.FilterIsSubsequence(list, KeepFn(f));
    forall c ensures multiset(Seqs.Filter(list, KeepFn(f)))[c] == if Keeps(f, c) then multiset(list)[c] else 0 {
      Seqs.FilterMultiplicity(list, KeepFn(f), c);
    }
    forall c ensures c in Seqs.Filter(list, KeepFn(f)) <==> c in list && Keeps(f, c) {
      Seqs.FilterMembership(list, KeepFn(f), c);
    }
    Seqs.Filter(list, KeepFn(f))
  }

  /** Filtering the filtered list again changes nothing. */
  lemma FilteredIdempotent(list: seq<Contact>, f: Filters)
    ensures Filtered(Filtered(list, f), f) == Filtered(list, f)
  {
    Seqs.FilterIdempotent(list, KeepFn(f));
  }

  /** The initial filters keep every contact. */
  lemma InitialFiltersKeepAll(list: seq<Contact>)
    ensures Filtered(list, Filters("", ListView.All, ListView.All)) == list
  {
    forall k | 0 <= k < |list| ensures KeepFn(Filters("", ListView.All, ListView.All))(list[k]) {
      ListView.EmptyQueryMatches(list[k].nom);
    }
    Seqs.FilterAllPass(list, KeepFn(Filters("", ListView.All, ListView.All)));
  }

  /** A non-"all" select keeps only exactly equal values. */
  lemma SelectsAreExact(list: seq<Contact>, f: Filters, c: Contact)
    requires c in Filtered(list, f)
    ensures f.kind != ListView.All ==> c.kind == f.kind
    ensures f.statut != ListView.All ==> c.statut == f.statut
  {
  }

  /** A contact without a company is found only through its names or email. */
  lemma NoCompanyMatchesByNameOnly(c: Contact, query: string)
    requires c.entreprise.None?
    ensures MatchesSearch(c, query) <==>
              ListView.MatchesLower(c.nom, query) || ListView.MatchesLower(c.prenom, query)
              || ListView.MatchesLower(c.email, query)
  {
  }

  const SourceKeys: set<string> := {"prospection", "site_web", "recommandation", "salon", "publicite", "autres"}

  /** `getSourceLabel`: the label of a known source, any other key as it is. */
  function SourceLabel(source: string): (shown: string)
    ensures shown == source <==> source !in SourceKeys
    ensures source in SourceKeys ==> |shown| > 0 && 'A' <= shown[0] <= 'Z'
  {
    match source
    case "prospection" => "Prospection"
    case "site_web" => "Site web"
    case "recommandation" => "Recommandation"
    case "salon" => "Salon"
    case "publicite" => "Publicité"
    case "autres" => "Autres"
    case _ => source
  }

  function OfStatut(statut: string): Contact -> bool {
    (c: Contact) => c.statut == statut
  }

  function OfKind(kind: string): Contact -> bool {
    (c: Contact) => c.kind == kind
  }

  /** The active and prospect cards together, and the company card alone,
      never exceed the total card. */
  lemma CountsWithinTotal(list: seq<Contact>)
    ensures Seqs.Count(list, OfStatut("actif")) + Seqs.Count(list, OfStatut("prospect")) <= |list|
    ensures Seqs.Count(list, OfKind("entreprise")) <= |list|
  {
    Seqs.ExclusivePairBounded(list, OfStatut("actif"), OfStatut("prospect"));
  }
}

=== FILE: devis_form.dfy ===
/** The quote creation dialog: a required number, a status from five values,
    three optional non-negative amounts typed as text, and a cleaning step
    that drops every empty field and every amount of 0. */
module DevisForm {
  import opened Wrappers
  import Coerce
  import Forms

  datatype Values = Values(
    numero: string,
    dateEmission: string,
    contactId: string,
    entrepriseId: string,
    statut: string,
    montantHt: Forms.Amount,
    montantTva: Forms.Amount,
    montantTtc: Forms.Amount,
    canalAcquisition: string,
    commentaires: string)

  /** The values the dialog starts from, and returns to after a success;
      `today` is the date part of the clock's ISO timestamp when the dialog
      was first rendered. */
  function Defaults(today: string): (v: Values)
    ensures v.dateEmission == today && v.statut == "brouillon"
    ensures v.numero == "" && v.montantHt.Missing? && v.montantTva.Missing? && v.montantTtc.Missing?
  {
    Values("", today, "", "", "brouillon", Forms.Missing, Forms.Missing, Forms.Missing, "", "")
  }

  const Statuses: set<string> := {"brouillon", "envoye", "accepte", "refuse", "expire"}

  const NumeroRequired := "Le numéro de devis est requis"
  const AmountNegative := "Le montant doit être positif"

  /** zod's own message for a status outside the enum. */
  function StatutInvalid(received: string): string {
    "Invalid enum value. Expected 'brouillon' | 'envoye' | 'accepte' | 'refuse' | 'expire', received '"
    + received + "'"
  }

  /** An amount the schema accepts: left blank, or a number that is not
      negative. */
  predicate AmountAccepted(a: Forms.Amount) {
    a.Missing? || (a.Number? && a.value >= 0.0)
  }

  /** The schema, every failing rule in field order. */
  function Errors(v: Values): (errors: seq<string>)
    ensures errors == [] <==>
              && v.numero != "" && v.statut in Statuses
              && AmountAccepted(v.montantHt) && AmountAccepted(v.montantTva) && AmountAccepted(v.montantTtc)
    ensures NumeroRequired in errors <==> v.numero == ""
  {
    Forms.Rule(v.numero != "", NumeroRequired)
    + Forms.Rule(v.statut in Statuses, StatutInvalid(v.statut))
    + Forms.AmountRule(v.montantHt, AmountNegative)
    + Forms.AmountRule(v.montantTva, AmountNegative)
    + Forms.AmountRule(v.montantTtc, AmountNegative)
  }

  /** The row handed to the creation call; `None` is a field left out. */
  datatype Payload = Payload(
    numero: string,
    dateEmission: Option<string>,
    contactId: Option<string>,
    entrepriseId: Option<string>,
    statut: string,
    montantHt: Option<real>,
    montantTva: Option<real>,
    montantTtc: Option<real>,
    canalAcquisition: Option<string>,
    commentaires: Option<string>)

  /** The optional text fields, in the order the payload lists them. */
  function OptionalValues(v: Values): seq<string> {
    [v.dateEmission, v.contactId, v.entrepriseId, v.canalAcquisition, v.commentaires]
  }

  /** The payload's columns for those fields, in the same order. */
  function OptionalColumns(p: Payload): seq<Option<string>> {
    [p.dateEmission, p.contactId, p.entrepriseId, p.canalAcquisition, p.commentaires]
  }

  /** The typed amounts, HT, TVA and TTC. */
  function TypedAmounts(v: Values): seq<Forms.Amount> {
    [v.montantHt, v.montantTva, v.montantTtc]
  }

  /** The payload's amount columns, in the same order. */
  function AmountColumns(p: Payload): seq<Option<real>> {
    [p.montantHt, p.montantTva, p.montantTtc]
  }

  /** `cleanData`: number and status as typed, everything else `|| undefined`. */
  function Clean(v: Values): (p: Payload)
    ensures p.numero == v.numero && p.statut == v.statut
    ensures |OptionalColumns(p)| == |OptionalValues(v)|
    ensures forall k :: 0 <= k < |OptionalValues(v)| ==>
              (OptionalColumns(p)[k].None? <==> OptionalValues(v)[k] == "")
    ensures forall k :: 0 <= k < |OptionalValues(v)| && OptionalColumns(p)[k].Some? ==>
              OptionalColumns(p)[k].value == OptionalValues(v)[k]
    ensures |AmountColumns(p)| == |TypedAmounts(v)|
    ensures forall k :: 0 <= k < |TypedAmounts(v)| ==>
              (AmountColumns(p)[k].Some? <==> TypedAmounts(v)[k].Number? && TypedAmounts(v)[k].value != 0.0)
    ensures forall k :: 0 <= k < |TypedAmounts(v)| && AmountColumns(p)[k].Some? ==>
              AmountColumns(p)[k].value == TypedAmounts(v)[k].value
  {
    Payload(
      v.numero,
      Coerce.OrNull(v.dateEmission),
      Coerce.OrNull(v.contactId),
      Coerce.OrNull(v.entrepriseId),
      v.statut,
      Forms.AmountOrUndefined(v.montantHt),
      Forms.AmountOrUndefined(v.montantTva),
      Forms.AmountOrUndefined(v.montantTtc),
      Coerce.OrNull(v.canalAcquisition),
      Coerce.OrNull(v.commentaires))
  }

  /** Pressing "Créer": the schema, then the cleaned row. */
  function Submit(v: Values): (s: Forms.Submission<Payload>)
    ensures s.Sent? <==> Errors(v) == []
    ensures !s.Ignored?
    ensures s.Rejected? ==> |s.errors| > 0
  {
    var errors := Errors(v);
    if errors != [] then Forms.Rejected(errors) else Forms.Sent(Clean(v))
  }

  /** Every amount that reaches the creation call is strictly positive: the
      schema removes the negative ones and cleaning removes 0. */
  lemma SentAmountsArePositive(v: Values)
    requires Submit(v).Sent?
    ensures Submit(v).payload.statut in Statuses
    ensures Submit(v).payload.montantHt.Some? ==> Submit(v).payload.montantHt.value > 0.0
    ensures Submit(v).payload.montantTva.Some? ==> Submit(v).payload.montantTva.value > 0.0
    ensures Submit(v).payload.montantTtc.Some? ==> Submit(v).payload.montantTtc.value > 0.0
  {
  }

  /** Text that does not read as a number blocks the submission with zod's
      own message, whichever amount it is typed in. */
  lemma UnreadableAmountBlocks(v: Values, text: string, parse: string -> Option<real>)
    requires text != "" && parse(text).None?
    ensures Submit(v.(montantTtc := Forms.AmountInput(text, parse))).Rejected?
    ensures Forms.NotANumberMessage in Submit(v.(montantTtc := Forms.AmountInput(text, parse))).errors
  {
  }

  /** Typing 0 in an amount sends the same row as leaving it blank. */
  lemma ZeroIsLikeBlank(v: Values)
    ensures Clean(v.(montantTtc := Forms.Number(0.0))) == Clean(v.(montantTtc := Forms.Missing))
    ensures Clean(v.(montantHt := Forms.Number(0.0))) == Clean(v.(montantHt := Forms.Missing))
  {
  }

  /** The dialog once the creation call answers: a success closes it and
      restores the defaults, issue date included. */
  function Settle(d: Forms.Dialog<Values>, today: string, succeeded: bool): (r: Forms.Dialog<Values>)
    ensures succeeded ==> !r.open && r.values == Defaults(today)
    ensures !succeeded ==> r == d
  {
    Forms.AfterMutation(d, Defaults(today), succeeded, true)
  }
}

=== FILE: devis_page.dfy ===
/** The quotes list: search, status and period filters, the status badge,
    the price cell, the summary figures and the empty state. */
module DevisPage {
  import opened Wrappers
  import Seqs
  import ListView

  /** The issue date as the period filter sees it: missing (null or ""), not
      a date, or issued a whole number of days before today (negative for a
      future date). */
  datatype Emission = NoDate | Unparseable | DaysAgo(days: int)

  datatype Devis = Devis(
    numero: string,
    contactNom: Option<string>,     // `contacts?.nom`: no joined contact, or no name
    raisonSociale: Option<string>,  // `entreprises?.raison_sociale`
    statut: Option<string>,
    emission: Emission,
    montantTtc: Option<real>)

  datatype Filters = Filters(search: string, statut: string, period: string)

  predicate MatchesSearch(d: Devis, query: string) {
    || ListView.MatchesLower(d.numero, query)
    || ListView.MatchesLowerOpt(d.contactNom, query)
    || ListView.MatchesLowerOpt(d.raisonSociale, query)
  }

  /** The window of a period value, if the switch has a case for it. */
  function WindowDays(period: string): (n: Option<nat>)
    ensures n.Some? <==> period in {"30days", "3months", "6months"}
  {
    match period
    case "30days" => Some(30)
    case "3months" => Some(90)
    case "6months" => Some(180)
    case _ => None
  }

  /** `matchesPeriod`: true unless a known window excludes a dated quote. An
      unparseable date compares false against every window. */
  predicate MatchesPeriod(period: string, e: Emission) {
    if period != ListView.All && !e.NoDate? then
      match WindowDays(period)
      case None => true
      case Some(n) => e.DaysAgo? && e.days <= n
    else true
  }

  predicate Keeps(f: Filters, d: Devis) {
    && MatchesSearch(d, f.search)
    && ListView.SelectAcceptsOpt(f.statut, d.statut)
    && MatchesPeriod(f.period, d.emission)
  }

  function KeepFn(f: Filters): Devis -> bool {
    (d: Devis) => Keeps(f, d)
  }

  /** `filteredDevis`. */
  function Filtered(list: seq<Devis>, f: Filters): (r: seq<Devis>)
    ensures Seqs.IsSubsequence(r, list)
    ensures forall d :: d in r <==> d in list && Keeps(f, d)
    ensures forall d :: multiset(r)[d] == if Keeps(f, d) then multiset(list)[d] else 0
  {
    Seqs.FilterIsSubsequence(list, KeepFn(f));
    forall d ensures multiset(Seqs.Filter(list, KeepFn(f)))[d] == if Keeps(f, d) then multiset(list)[d] else 0 {
      Seqs.FilterMultiplicity(list, KeepFn(f), d);
    }
    forall d ensures d in Seqs.Filter(list, KeepFn(f)) <==> d in list && Keeps(f, d) {
      Seqs.FilterMembership(list, KeepFn(f), d);
    }
    Seqs.Filter(list, KeepFn(f))
  }

  /** "all", and a quote without an issue date, pass the period test. */
  lemma AllOrUndatedPasses(period: string, e: Emission)
    requires period == ListView.All || e.NoDate?
    ensures MatchesPeriod(period, e)
  {
  }

  /** The three windows are 30, 90 and 180 days, bounds included. */
  lemma WindowsInDays(days: int)
    ensures MatchesPeriod("30days", DaysAgo(days)) <==> days <= 30
    ensures MatchesPeriod("3months", DaysAgo(days)) <==> days <= 90
    ensures MatchesPeriod("6months", DaysAgo(days)) <==> days <= 180
  {
  }

  /** The windows are nested. */
  lemma WindowsNested(e: Emission)
    ensures MatchesPeriod("30days", e) ==> MatchesPeriod("3months", e)
    ensures MatchesPeriod("3months", e) ==> MatchesPeriod("6months", e)
  {
  }

  /** A period value the switch does not know filters nothing; a date that
      does not parse is excluded by every known window. */
  lemma UnknownPeriodPasses(period: string, e: Emission)
    ensures period !in {"30days", "3months", "6months"} ==> MatchesPeriod(period, e)
    ensures period in {"30days", "3months", "6months"} ==> !MatchesPeriod(period, Unparseable)
  {
  }

  /** The initial filters keep every quote: the number is never missing, so
      the empty search always matches it. */
  lemma InitialFiltersKeepAll(list: seq<Devis>)
    ensures Filtered(list, Filters("", ListView.All, ListView.All)) == list
  {
    forall k | 0 <= k < |list| ensures KeepFn(Filters("", ListView.All, ListView.All))(list[k]) {
      ListView.EmptyQueryMatches(list[k].numero);
    }
    Seqs.FilterAllPass(list, KeepFn(Filters("", ListView.All, ListView.All)));
  }

  /** `getStatusBadge`'s text. */
  function StatusBadge(statut: Option<string>): (shown: string)
    ensures shown == "Non défini" <==>
              statut.None? || statut.value !in {"brouillon", "envoye", "accepte", "refuse", "expire"}
  {
    if statut.None? then "Non défini"
    else match statut.value
      case "brouillon" => "Brouillon"
      case "envoye" => "Envoyé"
      case "accepte" => "Accepté"
      case "refuse" => "Refusé"
      case "expire" => "Expiré"
      case _ => "Non défini"
  }

  /** `formatPrice`. */
  function PriceCell(price: Option<real>): (c: ListView.Cell)
    ensures c == ListView.Dash <==> price.None? || price.value == 0.0
  {
    ListView.PriceCell(price)
  }

  /** `devis.reduce((sum, item) => sum + (item.montant_ttc || 0), 0)`. */
  function TotalTtc(list: seq<Devis>): real
    decreases |list|
  {
    if |list| == 0 then 0.0 else list[0].montantTtc.GetOr(0.0) + TotalTtc(list[1..])
  }

  /** The total adds up over any split of the list. */
  lemma {:induction false} TotalTtcAppend(a: seq<Devis>, b: seq<Devis>)
    ensures TotalTtc(a + b) == TotalTtc(a) + TotalTtc(b)
    decreases |a|
  {
    if |a| == 0 {
      assert a + b == b;
    } else {
      assert (a + b)[1..] == a[1..] + b;
      TotalTtcAppend(a[1..], b);
    }
  }

  /** Without any amount, the total is zero. */
  lemma {:induction false} TotalWithoutAmounts(list: seq<Devis>)
    requires forall k :: 0 <= k < |list| ==> list[k].montantTtc.None?
    ensures TotalTtc(list) == 0.0
    decreases |list|
  {
    if |list| > 0 {
      TotalWithoutAmounts(list[1..]);
    }
  }

  function OfStatut(statut: string): Devis -> bool {
    (d: Devis) => d.statut == Some(statut)
  }

  /** The accepted and sent cards together never exceed the number of quotes. */
  lemma AcceptedAndPendingWithinTotal(list: seq<Devis>)
    ensures Seqs.Count(list, OfStatut("accepte")) + Seqs.Count(list, OfStatut("envoye")) <= |list|
  {
    Seqs.ExclusivePairBounded(list, OfStatut("accepte"), OfStatut("envoye"));
  }

  /** The empty state's hint. */
  function EmptyStateHint(list: seq<Devis>): (hint: string)
    ensures hint == "Créez votre premier devis pour commencer" <==> |list| == 0
    ensures hint == "Créez votre premier devis pour commencer" || hint == "Essayez de modifier vos filtres de recherche"
  {
    if |list| == 0 then "Créez votre premier devis pour commencer"
    else "Essayez de modifier vos filtres de recherche"
  }

  /** The empty state shows whenever the filters leave nothing, and with the
      initial filters exactly when there is no quote at all. */
  lemma EmptyStateWithInitialFilters(list: seq<Devis>)
    ensures |Filtered(list, Filters("", ListView.All, ListView.All))| == 0 <==> |list| == 0
  {
    InitialFiltersKeepAll(list);
  }
}

=== FILE: entreprise_edit_form.dfy ===
/** The company edit dialog: the record is loaded into the fields with `""`
    for every empty column and "client" for a missing relation type, and
    saved back with every empty field as `null`. */
module EntrepriseEditForm {
  import opened Wrappers
  import Coerce
  import Forms
  import EntrepriseForm

  /** The stored company, as far as the dialog reads it. */
  datatype Entreprise = Entreprise(
    id: string,
    raisonSociale: string,
    siren: Option<string>,
    siret: Option<string>,
    tva: Option<string>,
    adresse: Option<string>,
    codePostal: Option<string>,
    ville: Option<string>,
    siteWeb: Option<string>,
    secteur: Option<string>,
    taille: Option<string>,
    typeRelation: Option<string>,
    banque: Option<string>,
    iban: Option<string>,
    bic: Option<string>,
    commentaires: Option<string>)

  datatype Values = Values(
    raisonSociale: string,
    siren: string,
    siret: string,
    tva: string,
    adresse: string,
    codePostal: string,
    ville: string,
    siteWeb: string,
    secteur: string,
    taille: string,
    typeRelation: string,
    banque: string,
    iban: string,
    bic: string,
    commentaires: string)

  /** The values before any record is loaded: all empty, relation "client". */
  const Defaults := Values("", "", "", "", "", "", "", "", "", "", "client", "", "", "", "")

  /** The update handed to the mutation: the record's id and every column. */
  datatype Update = Update(
    id: string,
    raisonSociale: string,
    typeRelation: string,
    siren: Option<string>,
    siret: Option<string>,
    tva: Option<string>,
    adresse: Option<string>,
    codePostal: Option<string>,
    ville: Option<string>,
    siteWeb: Option<string>,
    secteur: Option<string>,
    taille: Option<string>,
    banque: Option<string>,
    iban: Option<string>,
    bic: Option<string>,
    commentaires: Option<string>)

  /** The nullable text columns other than the relation type, in the order
      the update lists them. */
  function RecordColumns(e: Entreprise): seq<Option<string>> {
    [e.siren, e.siret, e.tva, e.adresse, e.codePostal, e.ville, e.siteWeb,
     e.secteur, e.taille, e.banque, e.iban, e.bic, e.commentaires]
  }

  function FieldValues(v: Values): seq<string> {
    [v.siren, v.siret, v.tva, v.adresse, v.codePostal, v.ville, v.siteWeb,
     v.secteur, v.taille, v.banque, v.iban, v.bic, v.commentaires]
  }

  function UpdateColumns(u: Update): seq<Option<string>> {
    [u.siren, u.siret, u.tva, u.adresse, u.codePostal, u.ville, u.siteWeb,
     u.secteur, u.taille, u.banque, u.iban, u.bic, u.commentaires]
  }

  /** The effect run when a record arrives: each column `|| ""`, the relation
      type `|| "client"`, the name as stored. */
  function Load(e: Entreprise): (v: Values)
    ensures v.raisonSociale == e.raisonSociale
    ensures v.typeRelation == Coerce.OrElse(e.typeRelation, "client")
    ensures |FieldValues(v)| == |RecordColumns(e)|
    ensures forall k :: 0 <= k < |RecordColumns(e)| ==>
              (FieldValues(v)[k] == "" <==> !Coerce.Truthy(RecordColumns(e)[k]))
    ensures forall k :: 0 <= k < |RecordColumns(e)| && Coerce.Truthy(RecordColumns(e)[k]) ==>
              FieldValues(v)[k] == RecordColumns(e)[k].value
  {
    Values(
      e.raisonSociale,
      Coerce.OrEmpty(e.siren),
      Coerce.OrEmpty(e.siret),
      Coerce.OrEmpty(e.tva),
      Coerce.OrEmpty(e.adresse),
      Coerce.OrEmpty(e.codePostal),
      Coerce.OrEmpty(e.ville),
      Coerce.OrEmpty(e.siteWeb),
      Coerce.OrEmpty(e.secteur),
      Coerce.OrEmpty(e.taille),
      Coerce.OrElse(e.typeRelation, "client"),
      Coerce.OrEmpty(e.banque),
      Coerce.OrEmpty(e.iban),
      Coerce.OrEmpty(e.bic),
      Coerce.OrEmpty(e.commentaires))
  }

  /** The fields shown when the dialog's record changes: a record is loaded;
      without one the fields keep whatever they held. */
  function Shown(current: Values, record: Option<Entreprise>): (v: Values)
    ensures record.None? ==> v == current
    ensures record.Some? ==> v.raisonSociale == record.value.raisonSociale
  {
    if record.Some? then Load(record.value) else current
  }

  /** `cleanData` with the record's id: name and relation type as typed, every
      other field `|| null`. */
  function Clean(id: string, v: Values): (u: Update)
    ensures u.id == id && u.raisonSociale == v.raisonSociale && u.typeRelation == v.typeRelation
    ensures |UpdateColumns(u)| == |FieldValues(v)|
    ensures forall k :: 0 <= k < |FieldValues(v)| ==>
              (UpdateColumns(u)[k].None? <==> FieldValues(v)[k] == "")
    ensures forall k :: 0 <= k < |FieldValues(v)| && UpdateColumns(u)[k].Some? ==>
              UpdateColumns(u)[k].value == FieldValues(v)[k]
  {
    Update(
      id,
      v.raisonSociale,
      v.typeRelation,
      Coerce.OrNull(v.siren),
      Coerce.OrNull(v.siret),
      Coerce.OrNull(v.tva),
      Coerce.OrNull(v.adresse),
      Coerce.OrNull(v.codePostal),
      Coerce.OrNull(v.ville),
      Coerce.OrNull(v.siteWeb),
      Coerce.OrNull(v.secteur),
      Coerce.OrNull(v.taille),
      Coerce.OrNull(v.banque),
      Coerce.OrNull(v.iban),
      Coerce.OrNull(v.bic),
      Coerce.OrNull(v.commentaires))
  }

  /** Pressing "Enregistrer": the schema first, then `if (!entreprise) return`,
      then the update of that record. */
  function Submit(record: Option<Entreprise>, v: Values): (s: Forms.Submission<Update>)
    ensures s.Rejected? <==> v.raisonSociale == ""
    ensures s.Rejected? ==> s.errors == [EntrepriseForm.RaisonSocialeRequired]
    ensures s.Ignored? <==> v.raisonSociale != "" && record.None?
    ensures s.Sent? ==> record.Some? && s.payload.id == record.value.id
  {
    var errors := EntrepriseForm.Errors(v.raisonSociale);
    if errors != [] then Forms.Rejected(errors)
    else if record.None? then Forms.Ignored
    else Forms.Sent(Clean(record.value.id, v))
  }

  /** Opening a record and saving it untouched writes back every column
      except the ones that held `""`, which become `null`, and a missing or
      empty relation type, which becomes "client". */
  lemma {:induction false} SaveUntouched(e: Entreprise)
    requires e.raisonSociale != ""
    ensures Submit(Some(e), Load(e)).Sent?
    ensures Submit(Some(e), Load(e)).payload.raisonSociale == e.raisonSociale
    ensures Submit(Some(e), Load(e)).payload.typeRelation == Coerce.OrElse(e.typeRelation, "client")
    ensures forall k :: 0 <= k < |RecordColumns(e)| ==>
              (UpdateColumns(Submit(Some(e), Load(e)).payload)[k] == RecordColumns(e)[k]
               <==> RecordColumns(e)[k] != Some(""))
  {
    var u := Clean(e.id, Load(e));
    assert Submit(Some(e), Load(e)) == Forms.Sent(u);
    forall k | 0 <= k < |RecordColumns(e)|
      ensures UpdateColumns(u)[k] == RecordColumns(e)[k] <==> RecordColumns(e)[k] != Some("")
    {
      assert UpdateColumns(u)[k] == Coerce.OrNull(Coerce.OrEmpty(RecordColumns(e)[k]));
      Coerce.OrNullOrEmpty(RecordColumns(e)[k]);
    }
  }

  /** So a record without empty strings and with a relation type is written
      back exactly as it was read. */
  lemma SaveUntouchedIsNoOp(e: Entreprise)
    requires e.raisonSociale != "" && Coerce.Truthy(e.typeRelation)
    requires forall k :: 0 <= k < |RecordColumns(e)| ==> RecordColumns(e)[k] != Some("")
    ensures Submit(Some(e), Load(e)) == Forms.Sent(Update(
              e.id, e.raisonSociale, e.typeRelation.value, e.siren, e.siret, e.tva, e.adresse,
              e.codePostal, e.ville, e.siteWeb, e.secteur, e.taille, e.banque, e.iban, e.bic,
              e.commentaires))
  {
    SaveUntouched(e);
    var u := Submit(Some(e), Load(e)).payload;
    assert UpdateColumns(u) == RecordColumns(e);
  }

  /** The dialog once the update answers: a success only closes it; the
      fields are not reset. */
  function Settle(d: Forms.Dialog<Values>, succeeded: bool): (r: Forms.Dialog<Values>)
    ensures succeeded ==> !r.open && r.values == d.values
    ensures !succeeded ==> r == d
  {
    Forms.AfterMutation(d, Defaults, succeeded, false)
  }
}

=== FILE: entreprise_form.dfy ===
/** The company creation dialog: one required field, thirteen optional text
    fields sent as `null` when left empty, and a reset after success. */
module EntrepriseForm {
  import opened Wrappers
  import Coerce
  import Forms

  datatype Values = Values(
    raisonSociale: string,
    siren: string,
    siret: string,
    secteur: string,
    taille: string,
    typeRelation: string,
    adresse: string,
    ville: string,
    codePostal: string,
    tva: string,
    iban: string,
    bic: string,
    banque: string,
    commentaires: string)

  /** Every field starts empty. */
  const Defaults := Values("", "", "", "", "", "", "", "", "", "", "", "", "", "")

  /** The row handed to the creation call. There is no web-site column, and
      the country is always `null`. */
  datatype Payload = Payload(
    raisonSociale: string,
    typeRelation: Option<string>,
    siren: Option<string>,
    siret: Option<string>,
    tva: Option<string>,
    adresse: Option<string>,
    codePostal: Option<string>,
    ville: Option<string>,
    pays: Option<string>,
    secteur: Option<string>,
    taille: Option<string>,
    iban: Option<string>,
    bic: Option<string>,
    banque: Option<string>,
    commentaires: Option<string>)

  /** The optional fields, in the order the payload lists them. */
  function OptionalValues(v: Values): seq<string> {
    [v.typeRelation, v.siren, v.siret, v.tva, v.adresse, v.codePostal, v.ville,
     v.secteur, v.taille, v.iban, v.bic, v.banque, v.commentaires]
  }

  /** The payload's columns for those fields, in the same order. */
  function OptionalColumns(p: Payload): seq<Option<string>> {
    [p.typeRelation, p.siren, p.siret, p.tva, p.adresse, p.codePostal, p.ville,
     p.secteur, p.taille, p.iban, p.bic, p.banque, p.commentaires]
  }

  const RaisonSocialeRequired := "La raison sociale est requise"

  /** The schema, shared with the edit form: only the company name is
      required. */
  function Errors(raisonSociale: string): (errors: seq<string>)
    ensures errors == [] <==> raisonSociale != ""
    ensures errors != [] ==> errors == [RaisonSocialeRequired]
  {
    Forms.Rule(raisonSociale != "", RaisonSocialeRequired)
  }

  /** `cleanData`: the name as typed, each optional field `|| null`. */
  function Clean(v: Values): (p: Payload)
    ensures p.raisonSociale == v.raisonSociale && p.pays.None?
    ensures |OptionalColumns(p)| == |OptionalValues(v)|
    ensures forall k :: 0 <= k < |OptionalValues(v)| ==>
              (OptionalColumns(p)[k].None? <==> OptionalValues(v)[k] == "")
    ensures forall k :: 0 <= k < |OptionalValues(v)| && OptionalColumns(p)[k].Some? ==>
              OptionalColumns(p)[k].value == OptionalValues(v)[k]
  {
    Payload(
      v.raisonSociale,
      Coerce.OrNull(v.typeRelation),
      Coerce.OrNull(v.siren),
      Coerce.OrNull(v.siret),
      Coerce.OrNull(v.tva),
      Coerce.OrNull(v.adresse),
      Coerce.OrNull(v.codePostal),
      Coerce.OrNull(v.ville),
      None,
      Coerce.OrNull(v.secteur),
      Coerce.OrNull(v.taille),
      Coerce.OrNull(v.iban),
      Coerce.OrNull(v.bic),
      Coerce.OrNull(v.banque),
      Coerce.OrNull(v.commentaires))
  }

  /** Pressing "Créer": rejected without a name, otherwise the cleaned row is
      sent; this form never returns early. */
  function Submit(v: Values): (s: Forms.Submission<Payload>)
    ensures s.Sent? <==> v.raisonSociale != ""
    ensures s.Rejected? <==> v.raisonSociale == ""
    ensures s.Rejected? ==> s.errors == [RaisonSocialeRequired]
    ensures s.Sent? ==> s.payload.raisonSociale == v.raisonSociale
  {
    var errors := Errors(v.raisonSociale);
    if errors != [] then Forms.Rejected(errors) else Forms.Sent(Clean(v))
  }

  /** Nothing typed is lost: two fillings that send the same row were the
      same filling. */
  lemma CleanLosesNothing(v: Values, w: Values)
    requires Clean(v) == Clean(w)
    ensures v == w
  {
  }

  /** The dialog once the creation call answers: a success closes it and
      empties every field. */
  function Settle(d: Forms.Dialog<Values>, succeeded: bool): (r: Forms.Dialog<Values>)
    ensures succeeded ==> !r.open && r.values == Defaults
    ensures !succeeded ==> r == d
  {
    Forms.AfterMutation(d, Defaults, succeeded, true)
  }

  /** After a successful creation, pressing "Créer" again without typing is
      rejected: the same company cannot be sent twice by accident. */
  lemma NoResubmitAfterSuccess(d: Forms.Dialog<Values>)
    ensures Submit(Settle(d, true).values) == Forms.Rejected([RaisonSocialeRequired])
  {
  }

  /** A company given only a name is sent with every other column `null`. */
  lemma NameOnlySendsNulls(name: string)
    requires name != ""
    ensures Submit(Defaults.(raisonSociale := name)).Sent?
    ensures forall c | c in OptionalColumns(Submit(Defaults.(raisonSociale := name)).payload) :: c.None?
  {
  }
}

=== FILE: entreprises_page.dfy ===
/** The companies list: search and select filters, the size and sector
    labels, the type counts and the website column. */
module EntreprisesPage {
  import Text
  import Seqs
  import ListView

  datatype Entreprise = Entreprise(
    raisonSociale: string,
    siren: string,
    siret: string,
    tva: string,
    kind: string,        // `type`: client, prospect or fournisseur
    secteur: string,
    taille: string,
    ville: string,
    siteWeb: string)

  datatype Filters = Filters(search: string, kind: string, secteur: string)

  /** The search: lower-cased on the name and the city, verbatim on the two
      registration numbers. */
  predicate MatchesSearch(e: Entreprise, query: string) {
    || ListView.MatchesLower(e.raisonSociale, query)
    || Text.Contains(e.siren, query)
    || Text.Contains(e.siret, query)
    || ListView.MatchesLower(e.ville, query)
  }

  predicate Keeps(f: Filters, e: Entreprise) {
    && MatchesSearch(e, f.search)
    && ListView.SelectAccepts(f.kind, e.kind)
    && ListView.SelectAccepts(f.secteur, e.secteur)
  }

  function KeepFn(f: Filters): Entreprise -> bool {
    (e: Entreprise) => Keeps(f, e)
  }

  /** `filteredEntreprises`. */
  function Filtered(list: seq<Entreprise>, f: Filters): (r: seq<Entreprise>)
    ensures Seqs.IsSubsequence(r, list)
    ensures forall e :: e in r <==> e in list && Keeps(f, e)
    ensures forall e :: multiset(r)[e] == if Keeps(f, e) then multiset(list)[e] else 0
  {
    Seqs.FilterIsSubsequence(list, KeepFn(f));
    forall e ensures multiset(Seqs.Filter(list, KeepFn(f)))[e] == if Keeps(f, e) then multiset(list)[e] else 0 {
      Seqs.FilterMultiplicity(list, KeepFn(f), e);
    }
    forall e ensures e in Seqs.Filter(list, KeepFn(f)) <==> e in list && Keeps(f, e) {
      Seqs.FilterMembership(list, KeepFn(f), e);
    }
    Seqs.Filter(list, KeepFn(f))
  }

  /** The initial filters (empty search, both selects on "all") keep the list as it is. */
  lemma InitialFiltersKeepAll(list: seq<Entreprise>)
    ensures Filtered(list, Filters("", ListView.All, ListView.All)) == list
  {
    forall k | 0 <= k < |list| ensures KeepFn(Filters("", ListView.All, ListView.All))(list[k]) {
      ListView.EmptyQueryMatches(list[k].raisonSociale);
    }
    Seqs.FilterAllPass(list, KeepFn(Filters("", ListView.All, ListView.All)));
  }

  /** A non-"all" type select keeps only that exact type. */
  lemma TypeSelectIsExact(list: seq<Entreprise>, f: Filters, e: Entreprise)
    requires f.kind != ListView.All && e in Filtered(list, f)
    ensures e.kind == f.kind
  {
  }

  /** The search ignores case on the name and the city, on either side, and
      matches the SIREN and SIRET verbatim: a company whose numbers are "AB"
      is found by "AB" but not by "ab". */
  lemma SearchCaseRules(e: Entreprise, query: string)
    ensures ListView.MatchesLower(e.raisonSociale, query) <==> ListView.MatchesLower(e.raisonSociale, Text.Lower(query))
    ensures ListView.MatchesLower(e.raisonSociale, query) <==> ListView.MatchesLower(Text.Lower(e.raisonSociale), query)
    ensures ListView.MatchesLower(e.ville, query) <==> ListView.MatchesLower(e.ville, Text.Lower(query))
    ensures ListView.MatchesLower(e.ville, query) <==> ListView.MatchesLower(Text.Lower(e.ville), query)
    ensures ListView.MatchesLower(e.raisonSociale, query) || ListView.MatchesLower(e.ville, query) ==> MatchesSearch(e, query)
    ensures Text.Contains(e.siren, query) || Text.Contains(e.siret, query) ==> MatchesSearch(e, query)
    ensures var x := Entreprise("X", "AB", "AB", "", "client", "", "", "Y", "");
            MatchesSearch(x, "AB") && !MatchesSearch(x, "ab")
  {
    Text.LowerIdempotent(query);
    Text.LowerIdempotent(e.raisonSociale);
    Text.LowerIdempotent(e.ville);
    assert Text.StartsWith("AB", "AB");
    assert !Text.StartsWith("AB", "ab") by { assert "AB"[..2][0] != "ab"[0]; }
    assert !Text.Contains("AB"[1..], "ab");
    assert Text.Lower("ab") == "ab";
    assert !Text.Contains(Text.Lower("X"), "ab");
    assert !Text.Contains(Text.Lower("Y"), "ab");
  }

  const TailleKeys: set<string> := {"grande", "moyenne", "pme", "petite"}
  const SecteurKeys: set<string> := {"industrie", "tech", "services", "transport", "commerce", "construction", "autres"}

  /** `getTailleLabel`: the label of a known size, any other key as it is. */
  function TailleLabel(taille: string): (shown: string)
    ensures shown == taille <==> taille !in TailleKeys
    ensures taille in TailleKeys ==> shown in {"Grande entreprise", "ETI", "PME", "TPE"}
  {
    match taille
    case "grande" => "Grande entreprise"
    case "moyenne" => "ETI"
    case "pme" => "PME"
    case "petite" => "TPE"
    case _ => taille
  }

  /** `getSecteurLabel`: the label of a known sector, any other key as it is. */
  function SecteurLabel(secteur: string): (shown: string)
    ensures shown == secteur <==> secteur !in SecteurKeys
    ensures secteur in SecteurKeys ==> |shown| > 0 && 'A' <= shown[0] <= 'Z'
  {
    match secteur
    case "industrie" => "Industrie"
    case "tech" => "Technologie"
    case "services" => "Services"
    case "transport" => "Transport"
    case "commerce" => "Commerce"
    case "construction" => "Construction"
    case "autres" => "Autres"
    case _ => secteur
  }

  /** Different known sizes get different labels, and the edit form's "tpe"
      is not a known size: it is shown as "tpe", not as "TPE". */
  lemma TailleLabelsDistinct(a: string, b: string)
    requires a in TailleKeys && b in TailleKeys && a != b
    ensures TailleLabel(a) != TailleLabel(b)
    ensures TailleLabel("tpe") == "tpe"
  {
  }

  function OfKind(kind: string): Entreprise -> bool {
    (e: Entreprise) => e.kind == kind
  }

  /** The three type cards never add up to more than the total card. */
  lemma TypeCountsWithinTotal(list: seq<Entreprise>)
    ensures Seqs.Count(list, OfKind("client")) + Seqs.Count(list, OfKind("prospect"))
            + Seqs.Count(list, OfKind("fournisseur")) <= |list|
  {
    Seqs.ExclusiveCountsBounded(list, OfKind("client"), OfKind("prospect"), OfKind("fournisseur"));
  }

  /** `siteWeb.replace(/^https?:\/\//, '')`: one leading scheme, and only a
      lower-case one, is removed. */
  function SiteDisplay(url: string): (shown: string)
    ensures |shown| <= |url| && shown == url[|url| - |shown|..]
    ensures Text.StartsWith(url, "https://") ==> |url| - |shown| == 8
    ensures Text.StartsWith(url, "http://") ==> |url| - |shown| == 7
    ensures !Text.StartsWith(url, "https://") && !Text.StartsWith(url, "http://") ==> shown == url
  {
    if Text.StartsWith(url, "https://") then
      assert url[..7][4] == 's';
      url[8..]
    else if Text.StartsWith(url, "http://") then url[7..]
    else url
  }

  /** Displaying a site given with either scheme shows the address that
      followed the scheme. */
  lemma SiteDisplayRemovesScheme(address: string)
    ensures SiteDisplay("https://" + address) == address
    ensures SiteDisplay("http://" + address) == address
  {
    assert ("https://" + address)[..8] == "https://";
    assert ("http://" + address)[..7] == "http://";
    if |"http://" + address| >= 8 {
      assert ("http://" + address)[..8][4] == ':';
    }
  }

  /** Only the first scheme goes, and an upper-case scheme stays. */
  lemma SiteDisplayStripsOnce(address: string)
    ensures SiteDisplay("https://https://" + address) == "https://" + address
    ensures SiteDisplay("HTTPS://" + address) == "HTTPS://" + address
  {
    SiteDisplayRemovesScheme("https://" + address);
    assert "https://https://" + address == "https://" + ("https://" + address);
    var upper := "HTTPS://" + address;
    assert upper[..8][0] == 'H';
    assert upper[..7][0] == 'H';
  }
}

=== FILE: forms.dfy ===
/** What the six record forms share: the outcome of pressing submit, the
    dialog after the remote call, and the numeric inputs. */
module Forms {
  import opened Wrappers
  import Coerce

  /** Pressing submit: the schema rejects the values with its messages, or
      the handler returns without a call (an edit form with no record), or
      the payload is sent. */
  datatype Submission<P> = Rejected(errors: seq<string>) | Ignored | Sent(payload: P)

  /** One schema rule: its message when it fails. */
  function Rule(holds: bool, message: string): (errors: seq<string>)
    ensures holds <==> errors == []
    ensures !holds ==> errors == [message]
  {
    if holds then [] else [message]
  }

  /** The dialog: whether it is open, and the values in the form. */
  datatype Dialog<V> = Dialog(open: bool, values: V)

  /** The dialog once the remote call has answered: a success closes it, and
      a creation form also resets its values to the defaults; a failure
      leaves it as it was. */
  function AfterMutation<V>(d: Dialog<V>, defaults: V, succeeded: bool, resets: bool): (r: Dialog<V>)
    ensures succeeded ==> !r.open
    ensures succeeded && resets ==> r.values == defaults
    ensures succeeded && !resets ==> r.values == d.values
    ensures !succeeded ==> r == d
  {
    if !succeeded then d
    else if resets then Dialog(false, defaults)
    else d.(open := false)
  }

  /** A successful creation leaves the dialog in the same state however it
      was filled in: closed, with the defaults. */
  lemma CreationSuccessForgetsInput<V>(d: Dialog<V>, e: Dialog<V>, defaults: V)
    ensures AfterMutation(d, defaults, true, true) == AfterMutation(e, defaults, true, true)
  {
  }

  /** A number input's value: cleared, a number, or text `parseFloat` could
      not read. */
  datatype Amount = Missing | Number(value: real) | NotANumber

  /** `e.target.value ? parseFloat(e.target.value) : undefined`; `parse`
      stands for `parseFloat`, `None` for `NaN`. */
  function AmountInput(text: string, parse: string -> Option<real>): (a: Amount)
    ensures a.Missing? <==> text == ""
    ensures a.Number? ==> parse(text) == Some(a.value)
  {
    if text == "" then Missing
    else match parse(text)
      case None => NotANumber
      case Some(v) => Number(v)
  }

  /** zod's own message for `NaN` in a number field. */
  const NotANumberMessage := "Expected number, received nan"

  /** `z.number().min(0, message).optional()`. */
  function AmountRule(a: Amount, message: string): (errors: seq<string>)
    ensures errors == [] <==> a.Missing? || (a.Number? && a.value >= 0.0)
  {
    match a
    case Missing => []
    case NotANumber => [NotANumberMessage]
    case Number(v) => Rule(v >= 0.0, message)
  }

  /** `amount || undefined`: an amount of 0 is dropped like a missing one. */
  function AmountOrUndefined(a: Amount): (r: Option<real>)
    ensures r.Some? <==> a.Number? && a.value != 0.0
    ensures r.Some? ==> r.value == a.value
  {
    match a
    case Number(v) => Coerce.NonZero(Some(v))
    case _ => None
  }

  /** Typing a number that is not zero always reaches the payload unchanged. */
  lemma TypedAmountReachesPayload(text: string, parse: string -> Option<real>, v: real)
    requires text != "" && parse(text) == Some(v) && v != 0.0
    ensures AmountOrUndefined(AmountInput(text, parse)) == Some(v)
  {
  }
}

=== FILE: list_view.dfy ===
/** The pieces every list page is assembled from: the "all"-or-equal select
    test, the lower-cased substring search, the "-" placeholders, the
    client cell, and counts over a list that may not have arrived. */
module ListView {
  import opened Wrappers
  import Coerce
  import Text
  import Seqs

  /** The value of a select that filters nothing. */
  const All := "all"

  /** `filter === "all" || value === filter`. */
  predicate SelectAccepts(filter: string, value: string) {
    filter == All || value == filter
  }

  /** The same test against a field that may be missing. */
  predicate SelectAcceptsOpt(filter: string, value: Option<string>) {
    filter == All || value == Some(filter)
  }

  /** `field.toLowerCase().includes(query.toLowerCase())`. */
  predicate MatchesLower(field: string, query: string) {
    Text.Contains(Text.Lower(field), Text.Lower(query))
  }

  /** The optional-chaining form `field?.toLowerCase().includes(...)`: a
      missing field gives `undefined`, which is falsy. */
  predicate MatchesLowerOpt(field: Option<string>, query: string) {
    field.Some? && MatchesLower(field.value, query)
  }

  /** The empty search matches every present field. */
  lemma EmptyQueryMatches(field: string)
    ensures MatchesLower(field, "")
  {
    Text.ContainsEmpty(Text.Lower(field));
  }

  /** A field containing the query verbatim matches it, whatever the case of
      either; the search is case-insensitive, not just case-preserving. */
  lemma VerbatimMatchMatches(field: string, query: string)
    requires Text.Contains(field, query)
    ensures MatchesLower(field, query)
  {
    Text.LowerKeepsContains(field, query);
  }

  /** What a price or amount cell shows. */
  datatype Cell = Dash | Amount(value: real)

  /** `price ? format(price) : "-"`: a missing amount and an amount of 0
      both show the placeholder. */
  function PriceCell(price: Option<real>): (c: Cell)
    ensures c == Dash <==> price.None? || price.value == 0.0
    ensures c.Amount? ==> price == Some(c.value)
  {
    match Coerce.NonZero(price)
    case None => Dash
    case Some(v) => Amount(v)
  }

  /** The joined contact and company of a row, as far as the client cell uses them. */
  datatype ContactJoin = ContactJoin(nom: string, prenom: Option<string>)
  datatype CompanyJoin = CompanyJoin(raisonSociale: Option<string>)

  /** The client cell: the trimmed "nom prenom" of a joined contact, else the
      company's name, else "-". */
  function ClientCell(contact: Option<ContactJoin>, company: Option<CompanyJoin>): (cell: string)
    ensures contact.Some? ==>
              exists i :: Text.TrimmedSliceAt(contact.value.nom + " " + Coerce.OrEmpty(contact.value.prenom), cell, i)
    ensures contact.Some? ==> |cell| > 0 ==> !Text.IsWhitespace(cell[0]) && !Text.IsWhitespace(cell[|cell| - 1])
    ensures contact.None? ==> |cell| > 0
  {
    if contact.Some? then
      Text.Trim(contact.value.nom + " " + Coerce.OrEmpty(contact.value.prenom))
    else if company.Some? && Coerce.Truthy(company.value.raisonSociale) then
      company.value.raisonSociale.value
    else "-"
  }

  /** A joined contact decides the cell whatever the company. */
  lemma ContactTakesPrecedence(contact: ContactJoin, a: Option<CompanyJoin>, b: Option<CompanyJoin>)
    ensures ClientCell(Some(contact), a) == ClientCell(Some(contact), b)
  {
  }

  /** Without a contact, a named company shows its name and nothing else shows "-". */
  lemma CompanyThenDash(company: Option<CompanyJoin>)
    ensures company.Some? && Coerce.Truthy(company.value.raisonSociale) ==>
              ClientCell(None, company) == company.value.raisonSociale.value
    ensures !(company.Some? && Coerce.Truthy(company.value.raisonSociale)) ==> ClientCell(None, company) == "-"
  {
  }

  /** A contact with a name and no first name shows the name alone: the
      separating space is trimmed away. */
  lemma ContactWithoutFirstName(nom: string)
    requires |nom| > 0 && !Text.IsWhitespace(nom[0]) && !Text.IsWhitespace(nom[|nom| - 1])
    ensures ClientCell(Some(ContactJoin(nom, None)), None) == nom
  {
    var s := nom + " " + "";
    assert s == nom + [' '];
    assert Text.TrimStart(s) == s;
    assert Text.TrimEnd(s) == nom by {
      assert s[..|nom|] == nom;
    }
  }

  /** `list?.filter(p).length || 0`. */
  function CountOpt<T>(list: Option<seq<T>>, p: T -> bool): (n: nat)
    ensures list.None? ==> n == 0
    ensures list.Some? ==> n <= |list.value|
  {
    if list.None? then 0 else Seqs.Count(list.value, p)
  }

  /** `list?.length || 0`. */
  function TotalOpt<T>(list: Option<seq<T>>): (n: nat)
    ensures list.None? ==> n == 0
    ensures list.Some? ==> n == |list.value|
  {
    if list.None? then 0 else |list.value|
  }

  /** Three mutually exclusive status counts never exceed the total card,
      whether or not the list has arrived. */
  lemma ExclusiveCountsWithinTotal<T>(list: Option<seq<T>>, p: T -> bool, q: T -> bool, r: T -> bool)
    requires forall x :: !(p(x) && q(x)) && !(p(x) && r(x)) && !(q(x) && r(x))
    ensures CountOpt(list, p) + CountOpt(list, q) + CountOpt(list, r) <= TotalOpt(list)
  {
    if list.Some? {
      Seqs.ExclusiveCountsBounded(list.value, p, q, r);
    }
  }

  /** `(!list || list.length === 0)`: the row shown in place of an empty table. */
  predicate ShowsEmptyRow<T>(list: Option<seq<T>>) {
    list.None? || |list.value| == 0
  }

  /** The placeholder row and the data rows never appear together, and one of
      them always does. */
  lemma EmptyRowIffNoDataRows<T>(list: Option<seq<T>>)
    ensures ShowsEmptyRow(list) <==> TotalOpt(list) == 0
  {
  }

  /** What a page backed by a query shows before its table. */
  datatype PageView = Spinner | ErrorMessage | Rows

  /** `if (isLoading) ... if (error) ... else the page`. */
  function Page(isLoading: bool, hasError: bool): (v: PageView)
    ensures v == Rows <==> !isLoading && !hasError
    ensures isLoading ==> v == Spinner
  {
    if isLoading then Spinner else if hasError then ErrorMessage else Rows
  }
}

=== FILE: notifications.dfy ===
/** The in-memory notification store: a fixed set of sample notifications
    loaded once an organization is known, an unread counter, and the three
    operations that change them. */
module Notifications {
  import opened Wrappers
  import Coerce
  import Seqs

  datatype Kind = Info | Success | Warning | Error

  datatype Notification = Notification(
    id: string,
    title: string,
    message: string,
    kind: Kind,
    read: bool,
    actionUrl: Option<string>)

  datatype Store = Store(items: seq<Notification>, unreadCount: nat, loading: bool)

  /** The store at mount: no items, a zero counter, loading. */
  const Initial := Store([], 0, true)

  predicate IsUnread(n: Notification) {
    !n.read
  }

  /** `notifications.filter(n => !n.read).length`. */
  function UnreadCount(items: seq<Notification>): nat {
    Seqs.Count(items, IsUnread)
  }

  /** The counter agrees with the list. */
  predicate Consistent(s: Store) {
    s.unreadCount == UnreadCount(s.items)
  }

  predicate UniqueIds(items: seq<Notification>) {
    forall i, j :: 0 <= i < j < |items| ==> items[i].id != items[j].id
  }

  /** The five sample notifications; the creation timestamps are left out. */
  const Samples: seq<Notification> := [
    Notification("1", "Nouveau contact ajouté", "Jean Dupont a été ajouté à vos contacts.", Success, false, Some("/contacts")),
    Notification("2", "Devis en attente", "Le devis DEV-2024-001 attend votre validation.", Warning, false, Some("/devis")),
    Notification("3", "Paiement reçu", "Paiement de 1 250€ reçu pour la facture FAC-2024-012.", Success, true, Some("/paiements")),
    Notification("4", "Tâche en retard", "La tâche \"Relance client ABC\" devait être terminée hier.", Error, false, Some("/taches")),
    Notification("5", "Nouvelle entreprise", "TechCorp SAS a été ajoutée à votre portefeuille.", Info, true, Some("/entreprises"))
  ]

  /** The loading effect for the current organization id. */
  function Load(s: Store, organizationId: Option<string>): (r: Store)
    ensures !Coerce.Truthy(organizationId) ==> r == s
    ensures Coerce.Truthy(organizationId) ==> r.items == Samples && !r.loading && Consistent(r)
  {
    if !Coerce.Truthy(organizationId) then s
    else Store(Samples, UnreadCount(Samples), false)
  }

  /** The samples: five distinct ids, of which exactly "1", "2" and "4" are unread. */
  lemma SamplesShape()
    ensures |Samples| == 5 && UniqueIds(Samples)
    ensures forall k :: 0 <= k < |Samples| ==> (IsUnread(Samples[k]) <==> Samples[k].id in {"1", "2", "4"})
    ensures UnreadCount(Samples) == 3
  {
    assert Samples == [Samples[0], Samples[1]] + [Samples[2], Samples[3], Samples[4]];
    Seqs.CountAppend([Samples[0], Samples[1]], [Samples[2], Samples[3], Samples[4]], IsUnread);
  }

  /** Without an organization the store stays as mounted: empty and loading. */
  lemma NoOrganizationNothingLoaded(organizationId: Option<string>)
    requires !Coerce.Truthy(organizationId)
    ensures Load(Initial, organizationId).items == [] && Load(Initial, organizationId).loading
  {
  }

  /** `prev - 1` clamped at zero. */
  function Decrement(c: nat): (r: nat)
    ensures c > 0 ==> r == c - 1
    ensures c == 0 ==> r == 0
  {
    if c == 0 then 0 else c - 1
  }

  /** The `map` of `markAsRead`: the items with that id become read. */
  function MarkRead(items: seq<Notification>, id: string): (r: seq<Notification>)
    ensures |r| == |items|
    ensures forall k :: 0 <= k < |items| && items[k].id == id ==> r[k] == items[k].(read := true)
    ensures forall k :: 0 <= k < |items| && items[k].id != id ==> r[k] == items[k]
    decreases |items|
  {
    if |items| == 0 then []
    else [if items[0].id == id then items[0].(read := true) else items[0]] + MarkRead(items[1..], id)
  }

  /** `markAsRead`: the counter is decremented whatever the list held. */
  function MarkAsRead(s: Store, id: string): (r: Store)
    ensures r.items == MarkRead(s.items, id) && r.loading == s.loading
    ensures r.unreadCount == Decrement(s.unreadCount)
  {
    s.(items := MarkRead(s.items, id), unreadCount := Decrement(s.unreadCount))
  }

  /** How many unread items carry the id. */
  function UnreadWithId(items: seq<Notification>, id: string): nat
    decreases |items|
  {
    if |items| == 0 then 0
    else (if items[0].id == id && !items[0].read then 1 else 0) + UnreadWithId(items[1..], id)
  }

  /** Marking as read removes exactly the unread items with that id from the unread count. */
  lemma {:induction false} MarkReadUnreadCount(items: seq<Notification>, id: string)
    ensures UnreadCount(MarkRead(items, id)) + UnreadWithId(items, id) == UnreadCount(items)
    decreases |items|
  {
    if |items| > 0 {
      MarkReadUnreadCount(items[1..], id);
      var head := if items[0].id == id then items[0].(read := true) else items[0];
      assert MarkRead(items, id) == [head] + MarkRead(items[1..], id);
    }
  }

  /** With distinct ids, at most one item is unread with a given id, and one
      is exactly when the list shows such an item. */
  lemma {:induction false} UnreadWithIdUnique(items: seq<Notification>, id: string)
    requires UniqueIds(items)
    ensures UnreadWithId(items, id) <= 1
    ensures UnreadWithId(items, id) == 1 <==> exists k :: 0 <= k < |items| && items[k].id == id && !items[k].read
    decreases |items|
  {
    if |items| > 0 {
      var tail := items[1..];
      assert UniqueIds(tail) by {
        forall i, j | 0 <= i < j < |tail| ensures tail[i].id != tail[j].id {
          assert tail[i] == items[i + 1] && tail[j] == items[j + 1];
        }
      }
      UnreadWithIdUnique(tail, id);
      if items[0].id == id {
        assert UnreadWithId(tail, id) == 0;
      }
      if exists k :: 0 <= k < |items| && items[k].id == id && !items[k].read {
        var k :| 0 <= k < |items| && items[k].id == id && !items[k].read;
        if k > 0 {
          assert tail[k - 1] == items[k];
        }
      }
      if exists k :: 0 <= k < |tail| && tail[k].id == id && !tail[k].read {
        var k :| 0 <= k < |tail| && tail[k].id == id && !tail[k].read;
        assert items[k + 1] == tail[k];
      }
    }
  }

  /** The counter stays right across `markAsRead` exactly when the id names an
      unread item, or nothing was unread to begin with: marking an already
      read or an unknown id makes the counter drift below the list. */
  lemma MarkAsReadConsistency(s: Store, id: string)
    requires Consistent(s) && UniqueIds(s.items)
    ensures Consistent(MarkAsRead(s, id)) <==>
              (exists k :: 0 <= k < |s.items| && s.items[k].id == id && !s.items[k].read) || s.unreadCount == 0
  {
    MarkReadUnreadCount(s.items, id);
    UnreadWithIdUnique(s.items, id);
  }

  /** The drift on the samples: marking the already read "3" brings the
      counter to 2 while three items are still unread. */
  lemma MarkAsReadDrifts()
    ensures var s := MarkAsRead(Load(Initial, Some("org")), "3");
            s.unreadCount == 2 && UnreadCount(s.items) == 3
  {
    SamplesShape();
    var s := Load(Initial, Some("org"));
    MarkAsReadConsistency(s, "3");
    assert UnreadWithId(Samples, "3") == 0;
    MarkReadUnreadCount(Samples, "3");
  }

  /** The `map` of `markAllAsRead`. */
  function MarkAllRead(items: seq<Notification>): (r: seq<Notification>)
    ensures |r| == |items|
    ensures forall k :: 0 <= k < |items| ==> r[k] == items[k].(read := true)
    decreases |items|
  {
    if |items| == 0 then [] else [items[0].(read := true)] + MarkAllRead(items[1..])
  }

  /** `markAllAsRead`. */
  function MarkAllAsRead(s: Store): (r: Store)
    ensures |r.items| == |s.items|
    ensures forall k :: 0 <= k < |r.items| ==> r.items[k] == s.items[k].(read := true)
    ensures forall k :: 0 <= k < |r.items| ==> r.items[k].read
    ensures r.unreadCount == 0 && r.loading == s.loading
  {
    s.(items := MarkAllRead(s.items), unreadCount := 0)
  }

  /** Whatever the store held, it is consistent after `markAllAsRead`. */
  lemma {:induction false} MarkAllAsReadConsistent(s: Store)
    ensures Consistent(MarkAllAsRead(s))
  {
    var r := MarkAllRead(s.items);
    if |Seqs.Filter(r, IsUnread)| > 0 {
      var x := Seqs.Filter(r, IsUnread)[0];
      Seqs.FilterMembership(r, IsUnread, x);
      assert false;
    }
  }

  /** `k` is the position of the first item carrying the id. */
  predicate FirstWithId(items: seq<Notification>, id: string, k: int) {
    0 <= k < |items| && items[k].id == id && forall j :: 0 <= j < k ==> items[j].id != id
  }

  /** `notifications.find(n => n.id === id)`: the first item with the id. */
  function Find(items: seq<Notification>, id: string): (r: Option<Notification>)
    ensures r.Some? <==> exists k :: 0 <= k < |items| && items[k].id == id
    ensures r.Some? ==> exists k :: FirstWithId(items, id, k) && items[k] == r.value
    decreases |items|
  {
    if |items| == 0 then None
    else if items[0].id == id then
      assert FirstWithId(items, id, 0);
      Some(items[0])
    else
      var r := Find(items[1..], id);
      assert forall k :: 0 <= k < |items[1..]| ==> items[1..][k] == items[k + 1];
      assert r.Some? ==> exists k :: FirstWithId(items, id, k) && items[k] == r.value by {
        if r.Some? {
          var k :| FirstWithId(items[1..], id, k) && items[1..][k] == r.value;
          assert FirstWithId(items, id, k + 1);
        }
      }
      r
  }

  function KeepOther(id: string): Notification -> bool {
    (n: Notification) => n.id != id
  }

  /** `deleteNotification`: the items with that id leave the list, and the
      counter drops when the first of them was unread. The item is looked up
      in `rendered`, the list as of the last render that the handler closes
      over, while the list and the counter are updated from their latest
      values. */
  function Delete(s: Store, rendered: seq<Notification>, id: string): (r: Store)
    ensures forall n :: n in r.items <==> n in s.items && n.id != id
    ensures forall n :: multiset(r.items)[n] == if n.id != id then multiset(s.items)[n] else 0
    ensures Seqs.IsSubsequence(r.items, s.items)
    ensures r.unreadCount == (if Find(rendered, id).Some? && !Find(rendered, id).value.read
                              then Decrement(s.unreadCount) else s.unreadCount)
    ensures r.loading == s.loading
  {
    var found := Find(rendered, id);
    var kept := Seqs.Filter(s.items, KeepOther(id));
    Seqs.FilterIsSubsequence(s.items, KeepOther(id));
    assert forall n :: n in kept <==> n in s.items && n.id != id by {
      forall n ensures n in kept <==> n in s.items && n.id != id {
        Seqs.FilterMembership(s.items, KeepOther(id), n);
      }
    }
    forall n ensures multiset(kept)[n] == if n.id != id then multiset(s.items)[n] else 0 {
      Seqs.FilterMultiplicity(s.items, KeepOther(id), n);
    }
    s.(items := kept,
       unreadCount := if found.Some? && !found.value.read then Decrement(s.unreadCount) else s.unreadCount)
  }

  /** Deleting removes exactly the unread items with that id from the unread count. */
  lemma {:induction false} DeleteUnreadCount(items: seq<Notification>, id: string)
    ensures UnreadCount(Seqs.Filter(items, KeepOther(id))) + UnreadWithId(items, id) == UnreadCount(items)
    decreases |items|
  {
    if |items| > 0 {
      DeleteUnreadCount(items[1..], id);
    }
  }

  /** With distinct ids, the first match is unread exactly when some match is. */
  lemma {:induction false} FindUnread(items: seq<Notification>, id: string)
    requires UniqueIds(items)
    ensures (Find(items, id).Some? && !Find(items, id).value.read) <==> UnreadWithId(items, id) == 1
  {
    UnreadWithIdUnique(items, id);
    var f := Find(items, id);
    if f.Some? {
      var k :| 0 <= k < |items| && items[k] == f.value;
      assert items[k].id == id;
    }
  }

  /** With distinct ids, deleting from an up-to-date render keeps the counter right. */
  lemma DeleteConsistent(s: Store, id: string)
    requires Consistent(s) && UniqueIds(s.items)
    ensures Consistent(Delete(s, s.items, id))
  {
    DeleteUnreadCount(s.items, id);
    FindUnread(s.items, id);
    UnreadWithIdUnique(s.items, id);
  }

  /** The counter never goes negative: it is a natural number through every
      operation, and each operation takes at most one off it. */
  lemma CounterStepsDownByAtMostOne(s: Store, rendered: seq<Notification>, id: string)
    ensures MarkAsRead(s, id).unreadCount + 1 >= s.unreadCount
    ensures Delete(s, rendered, id).unreadCount + 1 >= s.unreadCount
    ensures Delete(s, rendered, id).unreadCount <= s.unreadCount
  {
  }

  /** Marking "1" read and deleting it before the page re-renders: the delete
      handler still sees "1" unread in the rendered list and decrements a
      second time, so the counter shows 1 while two items are unread. After
      a re-render the same delete leaves the counter right. */
  lemma DeleteBeforeRenderDoubleCounts()
    ensures var s0 := Load(Initial, Some("org"));
            var s1 := MarkAsRead(s0, "1");
            && Delete(s1, s0.items, "1").unreadCount == 1
            && UnreadCount(Delete(s1, s0.items, "1").items) == 2
            && Delete(s1, s1.items, "1").unreadCount == 2
  {
    var m := MarkRead(Samples, "1");
    MarkingSampleOne();
    var s0 := Load(Initial, Some("org"));
    var s1 := MarkAsRead(s0, "1");
    assert s0.items == Samples;
    assert s1.items == m && s1.unreadCount == 2;
    var stale := Delete(s1, Samples, "1");
    assert stale.unreadCount == 1;
    MarkReadClearsId(Samples, "1");
    DeleteUnreadCount(m, "1");
    assert UnreadCount(stale.items) == 2;
    assert Delete(s1, m, "1").unreadCount == 2;
  }

  /** Marking the sample "1": the counter drops to 2, and the rendered list
      before the change still shows "1" unread while the list after it
      shows it read. */
  lemma MarkingSampleOne()
    ensures MarkAsRead(Load(Initial, Some("org")), "1").unreadCount == 2
    ensures UnreadCount(MarkRead(Samples, "1")) == 2
    ensures Find(Samples, "1") == Some(Samples[0]) && !Samples[0].read
    ensures Find(MarkRead(Samples, "1"), "1") == Some(Samples[0].(read := true))
  {
    SamplesShape();
    assert UnreadWithId(Samples, "1") == 1;
    MarkReadUnreadCount(Samples, "1");
  }

  /** After marking, no unread item carries the id. */
  lemma {:induction false} MarkReadClearsId(items: seq<Notification>, id: string)
    ensures UnreadWithId(MarkRead(items, id), id) == 0
    decreases |items|
  {
    if |items| > 0 {
      MarkReadClearsId(items[1..], id);
      var head := if items[0].id == id then items[0].(read := true) else items[0];
      assert MarkRead(items, id) == [head] + MarkRead(items[1..], id);
      assert MarkRead(items, id)[1..] == MarkRead(items[1..], id);
    }
  }
}

=== FILE: onboarding.dfy ===
/** The four-step onboarding flow (welcome, organization, profile, done).
    Remote updates, toasts and navigation are emitted as effects; each
    update's success or failure is an input. */
module Onboarding {
  import opened Wrappers
  import Coerce

  /** `steps.length`. */
  const StepCount: nat := 4
  const LastStep: nat := StepCount - 1
  const OrganizationStep: nat := 1
  const ProfileStep: nat := 2

  /** The data the page holds: who is signed in, the organization, and the
      two small forms. */
  datatype Context = Context(
    userId: Option<string>,
    organizationId: Option<string>,
    organizationName: string,
    organizationDescription: string,
    fonction: string,
    telephone: string)

  datatype Effect =
    | UpdateOrganization(organizationId: string, name: string, description: string)
    | RefetchOrganization
    | UpdateProfile(userId: string, fonction: string, telephone: string)
    | Toast(title: string, destructive: bool)
    | MarkOnboardingCompleted(userId: string)
    | RefreshProfile
    | Navigate(path: string)

  predicate IsPersistence(e: Effect) {
    e.UpdateOrganization? || e.UpdateProfile?
  }

  /** `updateOrganization`: nothing without an organization id; otherwise the
      update, then a refetch and a success toast, or an error toast. */
  function UpdateOrganizationEffects(ctx: Context, succeeded: bool): (effects: seq<Effect>)
    ensures !Coerce.Truthy(ctx.organizationId) ==> effects == []
    ensures Coerce.Truthy(ctx.organizationId) ==>
              |effects| > 0 && effects[0] == UpdateOrganization(ctx.organizationId.value, ctx.organizationName, ctx.organizationDescription)
    ensures forall k :: 1 <= k < |effects| ==> !IsPersistence(effects[k])
  {
    if !Coerce.Truthy(ctx.organizationId) then []
    else
      [UpdateOrganization(ctx.organizationId.value, ctx.organizationName, ctx.organizationDescription)]
      + (if succeeded then [RefetchOrganization, Toast("Organisation mise à jour", false)]
         else [Toast("Erreur", true)])
  }

  /** `updateProfile`: nothing without a user id; otherwise the update and a
      success or an error toast. */
  function UpdateProfileEffects(ctx: Context, succeeded: bool): (effects: seq<Effect>)
    ensures !Coerce.Truthy(ctx.userId) ==> effects == []
    ensures Coerce.Truthy(ctx.userId) ==>
              |effects| > 0 && effects[0] == UpdateProfile(ctx.userId.value, ctx.fonction, ctx.telephone)
    ensures forall k :: 1 <= k < |effects| ==> !IsPersistence(effects[k])
  {
    if !Coerce.Truthy(ctx.userId) then []
    else
      [UpdateProfile(ctx.userId.value, ctx.fonction, ctx.telephone)]
      + (if succeeded then [Toast("Profil mis à jour", false)] else [Toast("Erreur", true)])
  }

  /** Marking onboarding complete (when there is a user id) and leaving for `/`. */
  function FinishEffects(ctx: Context): (effects: seq<Effect>)
    ensures |effects| > 0 && effects[|effects| - 1] == Navigate("/")
    ensures forall k :: 0 <= k < |effects| ==> !IsPersistence(effects[k])
    ensures (exists k :: 0 <= k < |effects| && effects[k].MarkOnboardingCompleted?) <==> Coerce.Truthy(ctx.userId)
    ensures Coerce.Truthy(ctx.userId) ==> effects[0] == MarkOnboardingCompleted(ctx.userId.value)
  {
    if Coerce.Truthy(ctx.userId) then
      var effects := [MarkOnboardingCompleted(ctx.userId.value), RefreshProfile, Navigate("/")];
      assert effects[0].MarkOnboardingCompleted?;
      effects
    else [Navigate("/")]
  }

  datatype NextResult = NextResult(step: nat, effects: seq<Effect>)

  /** The "Suivant"/"Commencer" button. `succeeded` is the outcome of the
      update call the step makes, if it makes one. */
  function HandleNext(step: nat, ctx: Context, succeeded: bool): (r: NextResult)
    requires step < StepCount
    ensures r.step < StepCount
    ensures step < LastStep ==> r.step == step + 1
    ensures step == LastStep ==> r.step == step
    ensures (exists k :: 0 <= k < |r.effects| && r.effects[k].UpdateOrganization?) <==>
              step == OrganizationStep && Coerce.Truthy(ctx.organizationId)
    ensures (exists k :: 0 <= k < |r.effects| && r.effects[k].UpdateProfile?) <==>
              step == ProfileStep && Coerce.Truthy(ctx.userId)
    ensures (exists k :: 0 <= k < |r.effects| && r.effects[k].Navigate?) <==> step == LastStep
    ensures step == OrganizationStep && Coerce.Truthy(ctx.organizationId) ==>
              r.effects[0] == UpdateOrganization(ctx.organizationId.value, ctx.organizationName, ctx.organizationDescription)
    ensures step == ProfileStep && Coerce.Truthy(ctx.userId) ==>
              r.effects[0] == UpdateProfile(ctx.userId.value, ctx.fonction, ctx.telephone)
    ensures step == LastStep ==>
              ((exists k :: 0 <= k < |r.effects| && r.effects[k].MarkOnboardingCompleted?) <==> Coerce.Truthy(ctx.userId))
    ensures step == LastStep && Coerce.Truthy(ctx.userId) ==> r.effects[0] == MarkOnboardingCompleted(ctx.userId.value)
    ensures step == LastStep ==> |r.effects| > 0 && r.effects[|r.effects| - 1] == Navigate("/")
  {
    var persisted :=
      if step == OrganizationStep then UpdateOrganizationEffects(ctx, succeeded)
      else if step == ProfileStep then UpdateProfileEffects(ctx, succeeded)
      else [];
    if step < LastStep then
      NextResult(step + 1, persisted)
    else
      var fin := FinishEffects(ctx);
      assert persisted == [];
      NextResult(step, fin)
  }

  /** The "Précédent" button. */
  function Previous(step: nat): (r: nat)
    ensures step > 0 ==> r == step - 1
    ensures step == 0 ==> r == 0
  {
    if step == 0 then 0 else step - 1
  }

  /** The "Passer" button, available on every step. */
  function Skip(ctx: Context): (effects: seq<Effect>)
    ensures forall k :: 0 <= k < |effects| ==> !IsPersistence(effects[k])
    ensures |effects| > 0 && effects[|effects| - 1] == Navigate("/")
    ensures (exists k :: 0 <= k < |effects| && effects[k].MarkOnboardingCompleted?) <==> Coerce.Truthy(ctx.userId)
    ensures Coerce.Truthy(ctx.userId) ==> effects[0] == MarkOnboardingCompleted(ctx.userId.value)
  {
    FinishEffects(ctx)
  }

  /** Skipping is finishing: from any step it does what "Commencer" does on the
      last step, without the data steps' updates. */
  lemma SkipIsFinishing(ctx: Context, succeeded: bool)
    ensures Skip(ctx) == HandleNext(LastStep, ctx, succeeded).effects
  {
  }

  /** A failed update is reported but does not hold the user back. */
  lemma FailureStillAdvances(step: nat, ctx: Context)
    requires step < StepCount
    ensures HandleNext(step, ctx, false).step == HandleNext(step, ctx, true).step
  {
  }

  /** The label of the primary button. */
  function PrimaryLabel(step: nat): (caption: string)
    ensures caption == "Commencer" <==> step == LastStep
    ensures caption == "Commencer" || caption == "Suivant"
  {
    if step == LastStep then "Commencer" else "Suivant"
  }

  datatype Click = Next(succeeded: bool) | Back

  /** The step after a series of clicks on the two buttons (a click on
      "Commencer" leaves the page, and the step stays where it was). */
  function Clicks(step: nat, ctx: Context, clicks: seq<Click>): nat
    requires step < StepCount
    decreases |clicks|
  {
    if |clicks| == 0 then step
    else
      var next := match clicks[0]
        case Next(ok) => HandleNext(step, ctx, ok).step
        case Back => Previous(step);
      Clicks(next, ctx, clicks[1..])
  }

  /** However the buttons are pressed, the step stays within 0..3. */
  lemma {:induction false} StepStaysInRange(step: nat, ctx: Context, clicks: seq<Click>)
    requires step < StepCount
    ensures Clicks(step, ctx, clicks) < StepCount
    decreases |clicks|
  {
    if |clicks| > 0 {
      var next := match clicks[0]
        case Next(ok) => HandleNext(step, ctx, ok).step
        case Back => Previous(step);
      StepStaysInRange(next, ctx, clicks[1..]);
    }
  }
}

=== FILE: onboarding_check.dfy ===
/** The onboarding gate: outside a fixed list of exempt paths, a signed-in
    user whose onboarding is not complete sees nothing and is sent to the
    onboarding flow. The completion flag is an input: the component reads a
    local-storage entry, while its tests drive `profile.onboarding_completed`. */
module OnboardingCheck {
  import opened Wrappers
  import AuthContext

  const OnboardingPath := "/onboarding"

  /** The paths excluded from the check, compared as whole paths. */
  const ExemptPaths: seq<string> := ["/auth", "/onboarding", "/pricing"]

  predicate IsExempt(path: string) {
    path in ExemptPaths
  }

  datatype Render = Children | Nothing

  /** The effect's decision: the path it navigates to, if any. */
  function Redirect(auth: AuthContext.AuthState, path: string, completed: bool): (r: Option<string>)
    ensures r.Some? ==> r.value == OnboardingPath
    ensures r.Some? <==> !auth.loading && auth.user.Some? && !IsExempt(path) && !completed
  {
    if auth.loading || auth.user.None? then None
    else if IsExempt(path) then None
    else if !completed then Some(OnboardingPath)
    else None
  }

  /** The render decision. */
  function RenderChoice(auth: AuthContext.AuthState, path: string, completed: bool): (r: Render)
    ensures auth.loading || IsExempt(path) ==> r == Children
    ensures completed ==> r == Children
    ensures !auth.loading && auth.user.None? ==> r == Children
  {
    if auth.loading || IsExempt(path) then Children
    else if !completed && auth.user.Some? then Nothing
    else Children
  }

  /** The render and the effect agree: nothing is shown exactly when a
      redirect is issued, so protected content never flashes and the user is
      never left on an empty page. */
  lemma NothingIffRedirect(auth: AuthContext.AuthState, path: string, completed: bool)
    ensures RenderChoice(auth, path, completed) == Nothing <==> Redirect(auth, path, completed).Some?
  {
  }

  /** Exemption is by whole-path equality over exactly three paths. */
  lemma ExemptPathsExactly(path: string)
    ensures IsExempt(path) <==> path == "/auth" || path == "/onboarding" || path == "/pricing"
  {
  }

  /** A sub-path of an exempt path is not exempt. */
  lemma SubPathNotExempt()
    ensures !IsExempt("/auth/callback") && !IsExempt("/pricing/")
  {
  }

  /** With the flag set, the gate is a pass-through on every path. */
  lemma CompletedIsPassThrough(auth: AuthContext.AuthState, path: string)
    ensures RenderChoice(auth, path, true) == Children && Redirect(auth, path, true).None?
  {
  }
}

=== FILE: organization_guard.dfy ===
/** The organization gate: a six-step priority chain over the auth context
    and the organization hook. */
module OrganizationGuard {
  import opened Wrappers
  import Coerce
  import AuthContext
  import UseOrganization

  datatype Outcome =
    | AuthSpinner
    | NotSignedIn(showsFallback: bool)   // the `fallback` prop, or the "Accès refusé" card
    | OrganizationSpinner
    | ErrorCard                          // with a "Réessayer" button
    | ProvisioningCard                   // "Organisation en cours de création", with a retry
    | Children

  /** The outcomes that offer a retry button wired to `refetch`. */
  predicate OffersRetry(o: Outcome) {
    o.ErrorCard? || o.ProvisioningCard?
  }

  /** What the gate renders. `hasFallback` says whether a truthy `fallback` was passed. */
  function Decide(auth: AuthContext.AuthState, org: UseOrganization.OrgState, hasFallback: bool): (o: Outcome)
    ensures auth.loading ==> o == AuthSpinner
    ensures !auth.loading && auth.user.None? ==> o == NotSignedIn(hasFallback)
    ensures !auth.loading && auth.user.Some? && org.loading ==> o == OrganizationSpinner
    ensures o == ErrorCard <==> !auth.loading && auth.user.Some? && !org.loading && Coerce.Truthy(org.error)
    ensures o == Children <==>
              && !auth.loading && auth.user.Some? && !org.loading
              && !Coerce.Truthy(org.error) && org.organization.Some?
  {
    if auth.loading then AuthSpinner
    else if auth.user.None? then NotSignedIn(hasFallback)
    else if org.loading then OrganizationSpinner
    else if Coerce.Truthy(org.error) then ErrorCard
    else if org.organization.None? then ProvisioningCard
    else Children
  }

  /** The six outcomes as flat conditions, each naming every higher-priority
      test it has passed. */
  predicate Condition(k: nat, auth: AuthContext.AuthState, org: UseOrganization.OrgState) {
    var signedIn := !auth.loading && auth.user.Some?;
    var settled := signedIn && !org.loading;
    var failed := Coerce.Truthy(org.error);
    match k
    case 0 => auth.loading
    case 1 => !auth.loading && auth.user.None?
    case 2 => signedIn && org.loading
    case 3 => settled && failed
    case 4 => settled && !failed && org.organization.None?
    case 5 => settled && !failed && org.organization.Some?
    case _ => false
  }

  function Index(o: Outcome): nat {
    match o
    case AuthSpinner => 0
    case NotSignedIn(_) => 1
    case OrganizationSpinner => 2
    case ErrorCard => 3
    case ProvisioningCard => 4
    case Children => 5
  }

  /** Every combination of inputs meets exactly one of the six conditions, and
      the gate renders the outcome of that condition. */
  lemma ExactlyOneOutcome(auth: AuthContext.AuthState, org: UseOrganization.OrgState, hasFallback: bool)
    ensures Condition(Index(Decide(auth, org, hasFallback)), auth, org)
    ensures forall k: nat :: Condition(k, auth, org) ==> k == Index(Decide(auth, org, hasFallback))
  {
  }

  /** A stale organization does not hide an error: the error card wins. */
  lemma ErrorWinsOverStaleOrganization(auth: AuthContext.AuthState, org: UseOrganization.OrgState, hasFallback: bool)
    requires !auth.loading && auth.user.Some? && !org.loading
    requires org.organization.Some? && org.error.Some? && org.error.value != ""
    ensures Decide(auth, org, hasFallback) == ErrorCard
  {
  }

  /** After a completed lookup the gate never shows the organization spinner;
      a "no row" answer shows the provisioning card, a row with its
      organization shows the page, and any other failure with a non-empty
      message shows the error card. */
  lemma GateAfterLookup(auth: AuthContext.AuthState, s: UseOrganization.OrgState, userId: Option<string>,
                        answer: UseOrganization.MemberAnswer, hasFallback: bool)
    requires !auth.loading && auth.user.Some? && Coerce.Truthy(userId)
    ensures var o := Decide(auth, UseOrganization.Fetch(s, userId, answer), hasFallback);
            && o != OrganizationSpinner
            && (answer.Failed? && answer.code == UseOrganization.NoRowCode ==> o == ProvisioningCard)
            && (answer.Found? && answer.organization.Some? ==> o == Children)
            && ((answer.Failed? && answer.code != UseOrganization.NoRowCode
                 && (!answer.isErrorInstance || answer.message != "")) ==> o == ErrorCard)
  {
  }

  /** Pressing retry twice against the same remote answer shows the same thing
      both times. */
  lemma RetryIdempotent(auth: AuthContext.AuthState, s: UseOrganization.OrgState, userId: Option<string>,
                        answer: UseOrganization.MemberAnswer, hasFallback: bool)
    ensures var once := UseOrganization.Refetch(s, userId, answer);
            Decide(auth, UseOrganization.Refetch(once, userId, answer), hasFallback) == Decide(auth, once, hasFallback)
  {
    UseOrganization.RefetchIdempotent(s, userId, answer);
  }
}

=== FILE: paiements_page.dfy ===
/** The payments list: the total amount and status counts over a list that
    may not have arrived, the status badge with its fallbacks, the client
    and amount cells and the placeholder row. */
module PaiementsPage {
  import opened Wrappers
  import Seqs
  import ListView

  datatype Paiement = Paiement(
    reference: string,
    contact: Option<ListView.ContactJoin>,
    entreprise: Option<ListView.CompanyJoin>,
    montant: Option<real>,
    resteAPayer: Option<real>,
    statut: Option<string>)

  const Statuses: set<string> := {"en_attente", "recu", "rapproche"}

  const EnAttenteColor := "bg-yellow-100 text-yellow-800"

  /** `statusColors[statut] || statusColors.en_attente`. */
  function StatusColor(statut: Option<string>): (colour: string)
    ensures colour == EnAttenteColor <==> statut.None? || statut.value !in Statuses || statut.value == "en_attente"
  {
    if statut.None? then EnAttenteColor
    else match statut.value
      case "recu" => "bg-green-100 text-green-800"
      case "rapproche" => "bg-blue-100 text-blue-800"
      case _ => EnAttenteColor
  }

  /** `statusLabels[statut] || statut`: a missing status renders as nothing. */
  function StatusLabel(statut: Option<string>): (shown: string)
    ensures statut.None? ==> shown == ""
    ensures statut.Some? && statut.value !in Statuses ==> shown == statut.value
    ensures statut.Some? && statut.value in Statuses ==> shown != statut.value && |shown| > 0
  {
    if statut.None? then ""
    else match statut.value
      case "en_attente" => "En attente"
      case "recu" => "Reçu"
      case "rapproche" => "Rapproché"
      case _ => statut.value
  }

  /** The three known statuses have three different colours and labels. */
  lemma KnownStatusesDistinguished(a: string, b: string)
    requires a in Statuses && b in Statuses && a != b
    ensures StatusColor(Some(a)) != StatusColor(Some(b))
    ensures StatusLabel(Some(a)) != StatusLabel(Some(b))
  {
  }

  function OfStatut(statut: string): Paiement -> bool {
    (p: Paiement) => p.statut == Some(statut)
  }

  /** The pending and received cards each, and together, stay within the
      total card, and a list that has not arrived shows 0 everywhere. */
  lemma StatusCardsWithinTotal(list: Option<seq<Paiement>>)
    ensures ListView.CountOpt(list, OfStatut("en_attente")) + ListView.CountOpt(list, OfStatut("recu"))
            <= ListView.TotalOpt(list)
    ensures list.None? ==> ListView.TotalOpt(list) == 0 && ListView.CountOpt(list, OfStatut("recu")) == 0
  {
    if list.Some? {
      Seqs.ExclusivePairBounded(list.value, OfStatut("en_attente"), OfStatut("recu"));
    }
  }

  /** `paiements?.reduce((sum, p) => sum + (p.montant || 0), 0) || 0`. */
  function TotalAmount(list: Option<seq<Paiement>>): real {
    if list.None? then 0.0 else Sum(list.value)
  }

  function Sum(list: seq<Paiement>): real
    decreases |list|
  {
    if |list| == 0 then 0.0 else list[0].montant.GetOr(0.0) + Sum(list[1..])
  }

  /** The total adds up over any split of the list. */
  lemma {:induction false} SumAppend(a: seq<Paiement>, b: seq<Paiement>)
    ensures Sum(a + b) == Sum(a) + Sum(b)
    decreases |a|
  {
    if |a| == 0 {
      assert a + b == b;
    } else {
      assert (a + b)[1..] == a[1..] + b;
      SumAppend(a[1..], b);
    }
  }

  /** With non-negative amounts the total card is at least every single amount. */
  lemma {:induction false} TotalCoversEachAmount(list: seq<Paiement>, k: nat)
    requires k < |list|
    requires forall i :: 0 <= i < |list| ==> list[i].montant.GetOr(0.0) >= 0.0
    ensures TotalAmount(Some(list)) >= list[k].montant.GetOr(0.0)
    decreases k
  {
    SumNonNegative(list[1..]);
    if k > 0 {
      TotalCoversEachAmount(list[1..], k - 1);
    }
  }

  lemma {:induction false} SumNonNegative(list: seq<Paiement>)
    requires forall i :: 0 <= i < |list| ==> list[i].montant.GetOr(0.0) >= 0.0
    ensures Sum(list) >= 0.0
    decreases |list|
  {
    if |list| > 0 {
      SumNonNegative(list[1..]);
    }
  }

  /** The client cell of a row. */
  function ClientCell(p: Paiement): string {
    ListView.ClientCell(p.contact, p.entreprise)
  }

  /** The amount and balance cells: "-" for a missing amount or for 0. */
  lemma AmountCells(p: Paiement)
    ensures ListView.PriceCell(p.montant) == ListView.Dash <==> p.montant.None? || p.montant.value == 0.0
    ensures ListView.PriceCell(p.resteAPayer) == ListView.Dash <==> p.resteAPayer.None? || p.resteAPayer.value == 0.0
  {
  }

  /** "Aucun paiement trouvé" is shown exactly when no data row is. */
  lemma PlaceholderRow(list: Option<seq<Paiement>>)
    ensures ListView.ShowsEmptyRow(list) <==> ListView.TotalOpt(list) == 0
  {
    ListView.EmptyRowIffNoDataRows(list);
  }
}

=== FILE: pricing.dfy ===
/** The pricing page: the client's plan table, the subscribe handler's
    sign-in guard and loading state, and what each plan card shows. */
module Pricing {
  import opened Wrappers
  import Coerce
  import Checkout

  /** A plan card; `price` is in whole euros per month. */
  datatype Plan = Plan(
    id: string,
    name: string,
    price: nat,
    popular: bool,
    features: seq<string>,
    limitations: seq<string>)

  const Plans: seq<Plan> := [
    Plan("free", "Gratuit", 0, false,
      ["5 contacts maximum", "Gestion de base des entreprises", "Support par email", "Stockage 1 GB"],
      ["Pas de devis/factures", "Pas d'intégrations", "Support standard"]),
    Plan("pro", "Pro", 29, true,
      ["100 contacts", "Devis et factures illimités", "Gestion des prestations", "Tableaux de bord avancés",
       "Intégrations tierces", "Support prioritaire", "Stockage 10 GB", "Export PDF/Excel"],
      []),
    Plan("enterprise", "Enterprise", 99, false,
      ["Contacts illimités", "Multi-utilisateurs", "API complète", "Personnalisation avancée",
       "Support dédié 24/7", "Stockage illimité", "Formation incluse", "SLA garanti", "Sauvegarde quotidienne"],
      [])
  ]

  /** The page and the checkout function agree on the plans: the same ids,
      the same names, and the server's price in cents is the page's price in
      euros times 100. */
  lemma ClientAgreesWithServer()
    ensures forall i | 0 <= i < |Plans| ::
              Checkout.Plan(Plans[i].id) == Some(Checkout.PlanConfig(Plans[i].price * 100, Plans[i].name))
    ensures forall id | id in Checkout.PlanIds :: exists i | 0 <= i < |Plans| :: Plans[i].id == id
  {
    assert Plans[0].id == "free" && Plans[1].id == "pro" && Plans[2].id == "enterprise";
  }

  /** No two cards share an id. */
  lemma PlanIdsDistinct()
    ensures forall i, j | 0 <= i < j < |Plans| :: Plans[i].id != Plans[j].id
  {
  }

  const SignInRequired := "Vous devez être connecté pour souscrire à un abonnement"
  const SessionFailed := "Erreur lors de la création de la session de paiement"

  /** What the handler does outside its own state. */
  datatype Effect =
    | ErrorToast(message: string)
    | InvokeCheckout(planId: string)
    | OpenCheckout(url: string)

  /** The `loading` state after one step, and the effects of that step. */
  datatype Step = Step(loading: Option<string>, effects: seq<Effect>)

  /** A click on a plan's button, up to the awaited call: signed out, an
      error toast and nothing else; signed in, `loading` holds the plan and
      the function is invoked with it. */
  function Start(loading: Option<string>, signedIn: bool, planId: string): (r: Step)
    ensures !signedIn ==> r == Step(loading, [ErrorToast(SignInRequired)])
    ensures signedIn ==> r.loading == Some(planId)
    ensures InvokeCheckout(planId) in r.effects <==> signedIn
  {
    if !signedIn then Step(loading, [ErrorToast(SignInRequired)])
    else Step(Some(planId), [InvokeCheckout(planId)])
  }

  /** The function's answer as the handler reads it: whether `error` was
      set, and `data?.url`. */
  datatype Answer = Answer(failed: bool, url: Option<string>)

  /** The rest of the handler once the call answers: an error gives the
      error toast, a URL opens the checkout page, and `finally` clears
      `loading` either way. */
  function Finish(answer: Answer): (r: Step)
    ensures r.loading.None?
    ensures (exists url :: OpenCheckout(url) in r.effects) <==> !answer.failed && Coerce.Truthy(answer.url)
    ensures ErrorToast(SessionFailed) in r.effects <==> answer.failed
    ensures |r.effects| <= 1
    ensures !answer.failed && Coerce.Truthy(answer.url) ==> r.effects == [OpenCheckout(answer.url.value)]
    ensures !answer.failed && !Coerce.Truthy(answer.url) ==> r.effects == []
  {
    if answer.failed then Step(None, [ErrorToast(SessionFailed)])
    else if Coerce.Truthy(answer.url) then Step(None, [OpenCheckout(answer.url.value)])
    else Step(None, [])
  }

  /** A signed-in click sets `loading` to that plan for the duration of the
      call and always leaves it `null` afterwards. */
  lemma LoadingBracketsTheCall(loading: Option<string>, planId: string, answer: Answer)
    ensures Start(loading, true, planId).loading == Some(planId)
    ensures Finish(answer).loading == None
    ensures Disabled(planId, Start(loading, true, planId).loading)
  {
  }

  /** Only the button of the plan being loaded is disabled, so another
      plan's button can start a second call meanwhile; whichever call answers
      first clears `loading` while the other is still running. */
  lemma SecondCallLosesItsSpinner(p: string, q: string, first: Answer)
    requires p != q
    ensures !Disabled(q, Start(None, true, p).loading)
    ensures Start(Start(None, true, p).loading, true, q).loading == Some(q)
    ensures !Disabled(q, Finish(first).loading)
  {
  }

  /** `disabled={loading === plan.id}`. */
  predicate Disabled(planId: string, loading: Option<string>) {
    loading == Some(planId)
  }

  /** The button's text. */
  function ButtonLabel(plan: Plan, loading: Option<string>): (caption: string)
    ensures caption == "Chargement..." <==> Disabled(plan.id, loading)
    ensures !Disabled(plan.id, loading) ==> (caption == "Commencer gratuitement" <==> plan.price == 0)
  {
    if loading == Some(plan.id) then "Chargement..."
    else if plan.price == 0 then "Commencer gratuitement"
    else "Choisir ce plan"
  }

  /** At most one card's button is disabled at a time. */
  lemma AtMostOneDisabled(loading: Option<string>, i: int, j: int)
    requires 0 <= i < |Plans| && 0 <= j < |Plans|
    requires Disabled(Plans[i].id, loading) && Disabled(Plans[j].id, loading)
    ensures i == j
  {
    PlanIdsDistinct();
  }

  /** "/mois" follows a non-zero price only, and the limitations block is
      shown only when the list is not empty: of the three cards, only the
      free one has limitations and lacks "/mois". */
  function ShowsPerMonth(plan: Plan): bool {
    plan.price > 0
  }

  function ShowsLimitations(plan: Plan): bool {
    |plan.limitations| > 0
  }

  lemma CardsShape()
    ensures forall i | 0 <= i < |Plans| :: ShowsLimitations(Plans[i]) <==> Plans[i].id == "free"
    ensures forall i | 0 <= i < |Plans| :: ShowsPerMonth(Plans[i]) <==> Plans[i].id != "free"
    ensures forall i | 0 <= i < |Plans| :: Plans[i].popular <==> Plans[i].id == "pro"
  {
  }

  /** The free plan is sold as a one-off payment and the others as monthly
      subscriptions, matching which cards show "/mois". */
  lemma PerMonthMatchesServerMode(i: int)
    requires 0 <= i < |Plans|
    ensures Checkout.Plan(Plans[i].id).Some?
    ensures ShowsPerMonth(Plans[i]) <==> Checkout.Plan(Plans[i].id).value.priceCents > 0
  {
    ClientAgreesWithServer();
  }
}

=== FILE: protected_route.dfy ===
/** The route guard: spinner while authentication resolves, redirect to the
    login page without a user, an in-place refusal when the profile's role
    ranks below the required one, the page otherwise. */
module ProtectedRoute {
  import opened Wrappers
  import opened AuthContext

  datatype Outcome = Spinner | Redirect(to: string) | AccessDenied | Children

  const LoginPath := "/auth"

  /** The role hierarchy table: admin 3, manager 2, user 1. */
  function Rank(r: Role): (n: nat)
    ensures 1 <= n <= 3
  {
    match r
    case Admin => 3
    case Manager => 2
    case User => 1
  }

  /** The privilege order spelled out case by case, independently of the rank
      numbers: `held` may do whatever `required` may. */
  predicate AtLeast(held: Role, required: Role) {
    match required
    case User => true
    case Manager => held == Manager || held == Admin
    case Admin => held == Admin
  }

  /** Comparing ranks is the privilege order. */
  lemma RankComparisonIsPrivilegeOrder(held: Role, required: Role)
    ensures Rank(held) >= Rank(required) <==> AtLeast(held, required)
  {
  }

  /** The privilege order is a total order. */
  lemma AtLeastIsTotalOrder(a: Role, b: Role, c: Role)
    ensures AtLeast(a, a)
    ensures AtLeast(a, b) && AtLeast(b, a) ==> a == b
    ensures AtLeast(a, b) && AtLeast(b, c) ==> AtLeast(a, c)
    ensures AtLeast(a, b) || AtLeast(b, a)
  {
  }

  /** What the guard renders for the context's state and the route's requirement. */
  function Decide(auth: AuthState, requiredRole: Option<Role>): (o: Outcome)
    ensures auth.loading ==> o == Spinner
    ensures !auth.loading && auth.user.None? ==> o == Redirect(LoginPath)
    ensures o == AccessDenied <==>
              && !auth.loading && auth.user.Some? && requiredRole.Some? && auth.profile.Some?
              && !AtLeast(auth.profile.value.role, requiredRole.value)
    ensures o == Children <==>
              && !auth.loading && auth.user.Some?
              && (requiredRole.None? || auth.profile.None? || AtLeast(auth.profile.value.role, requiredRole.value))
    ensures o.Redirect? ==> o.to == LoginPath
  {
    if auth.loading then Spinner
    else if auth.user.None? then Redirect(LoginPath)
    else if requiredRole.Some? && auth.profile.Some? && Rank(auth.profile.value.role) < Rank(requiredRole.value) then
      AccessDenied
    else Children
  }

  /** Access is monotone in the role: whatever a role may see, every role ranked
      at least as high may see too. */
  lemma HigherRoleAlsoPasses(auth: AuthState, requiredRole: Option<Role>, higher: Role)
    requires auth.profile.Some? && Decide(auth, requiredRole) == Children
    requires AtLeast(higher, auth.profile.value.role)
    ensures Decide(auth.(profile := Some(auth.profile.value.(role := higher))), requiredRole) == Children
  {
    if requiredRole.Some? {
      AtLeastIsTotalOrder(higher, auth.profile.value.role, requiredRole.value);
    }
  }

  /** Access is anti-monotone in the requirement: lowering it never refuses
      someone who was let in. */
  lemma LowerRequirementAlsoPasses(auth: AuthState, required: Role, lower: Role)
    requires Decide(auth, Some(required)) == Children
    requires AtLeast(required, lower)
    ensures Decide(auth, Some(lower)) == Children
  {
    if auth.profile.Some? {
      AtLeastIsTotalOrder(auth.profile.value.role, required, lower);
    }
  }

  /** A signed-in admin, and any signed-in user whose profile is not loaded
      yet, is let through every route. */
  lemma AdminOrUnloadedProfilePasses(auth: AuthState, requiredRole: Option<Role>)
    requires !auth.loading && auth.user.Some?
    requires auth.profile.None? || auth.profile.value.role == Admin
    ensures Decide(auth, requiredRole) == Children
  {
  }

  /** A manager on an admin route is refused in place, not redirected. */
  lemma ManagerOnAdminRouteRefused(auth: AuthState)
    requires !auth.loading && auth.user.Some? && auth.profile.Some? && auth.profile.value.role == Manager
    ensures Decide(auth, Some(Admin)) == AccessDenied
  {
  }
}

=== FILE: reclamations_page.dfy ===
/** The complaints list: status counts over a list that may not have
    arrived, the status badge with its fallbacks, the client cell and the
    placeholder row. */
module ReclamationsPage {
  import opened Wrappers
  import Seqs
  import ListView

  datatype Reclamation = Reclamation(
    numero: string,
    contact: Option<ListView.ContactJoin>,
    entreprise: Option<ListView.CompanyJoin>,
    theme: Option<string>,
    statut: Option<string>)

  const Statuses: set<string> := {"prise_en_compte", "en_cours", "traitee", "rejetee"}

  datatype Icon = Clock | AlertTriangle | CheckCircle | XCircle

  const PriseEnCompteColor := "bg-yellow-100 text-yellow-800"

  /** `statusColors[statut] || statusColors.prise_en_compte`. */
  function StatusColor(statut: Option<string>): (colour: string)
    ensures colour == PriseEnCompteColor <==> statut.None? || statut.value !in Statuses || statut.value == "prise_en_compte"
  {
    if statut.None? then PriseEnCompteColor
    else match statut.value
      case "en_cours" => "bg-blue-100 text-blue-800"
      case "traitee" => "bg-green-100 text-green-800"
      case "rejetee" => "bg-gray-100 text-gray-800"
      case _ => PriseEnCompteColor
  }

  /** `statusLabels[statut] || statut`: a missing status renders as nothing. */
  function StatusLabel(statut: Option<string>): (shown: string)
    ensures statut.None? ==> shown == ""
    ensures statut.Some? && statut.value !in Statuses ==> shown == statut.value
    ensures statut.Some? && statut.value in Statuses ==> shown != statut.value && |shown| > 0
  {
    if statut.None? then ""
    else match statut.value
      case "prise_en_compte" => "Prise en compte"
      case "en_cours" => "En cours"
      case "traitee" => "Traitée"
      case "rejetee" => "Rejetée"
      case _ => statut.value
  }

  /** `statusIcons[statut] || Clock`. */
  function StatusIcon(statut: Option<string>): (icon: Icon)
    ensures (statut.None? || statut.value !in Statuses) ==> icon == Clock
    ensures icon == Clock <==> statut.None? || statut.value !in Statuses || statut.value == "prise_en_compte"
  {
    if statut.None? then Clock
    else match statut.value
      case "en_cours" => AlertTriangle
      case "traitee" => CheckCircle
      case "rejetee" => XCircle
      case _ => Clock
  }

  /** The four known statuses have four different colours, labels and icons. */
  lemma KnownStatusesDistinguished(a: string, b: string)
    requires a in Statuses && b in Statuses && a != b
    ensures StatusColor(Some(a)) != StatusColor(Some(b))
    ensures StatusLabel(Some(a)) != StatusLabel(Some(b))
    ensures StatusIcon(Some(a)) != StatusIcon(Some(b))
  {
  }

  function OfStatut(statut: string): Reclamation -> bool {
    (r: Reclamation) => r.statut == Some(statut)
  }

  /** The three status cards never add up to more than the total card, and a
      list that has not arrived shows 0 everywhere. */
  lemma StatusCardsWithinTotal(list: Option<seq<Reclamation>>)
    ensures ListView.CountOpt(list, OfStatut("prise_en_compte")) + ListView.CountOpt(list, OfStatut("en_cours"))
            + ListView.CountOpt(list, OfStatut("traitee")) <= ListView.TotalOpt(list)
    ensures list.None? ==> ListView.TotalOpt(list) == 0 && ListView.CountOpt(list, OfStatut("en_cours")) == 0
  {
    ListView.ExclusiveCountsWithinTotal(list, OfStatut("prise_en_compte"), OfStatut("en_cours"), OfStatut("traitee"));
  }

  /** The client cell of a row. */
  function ClientCell(r: Reclamation): string {
    ListView.ClientCell(r.contact, r.entreprise)
  }

  /** "Aucune réclamation trouvée" is shown exactly when no data row is. */
  lemma PlaceholderRow(list: Option<seq<Reclamation>>)
    ensures ListView.ShowsEmptyRow(list) <==> list.None? || |list.value| == 0
    ensures ListView.ShowsEmptyRow(list) <==> ListView.TotalOpt(list) == 0
  {
    ListView.EmptyRowIffNoDataRows(list);
  }
}

=== FILE: seqs.dfy ===
/** `Array.prototype.filter` and `.filter(p).length`, the two list operations
    every list page is built from, with the facts the pages rely on. */
module Seqs {

  /** `s.filter(keep)`: the elements satisfying `keep`, in their original order. */
  function Filter<T>(s: seq<T>, keep: T -> bool): (r: seq<T>)
    ensures |r| <= |s|
    ensures forall k :: 0 <= k < |r| ==> keep(r[k]) && r[k] in s
    decreases |s|
  {
    if |s| == 0 then []
    else if keep(s[0]) then [s[0]] + Filter(s[1..], keep)
    else Filter(s[1..], keep)
  }

  /** `a` can be obtained from `b` by deleting elements (greedy matching is complete). */
  predicate IsSubsequence<T(==)>(a: seq<T>, b: seq<T>)
    decreases |b|
  {
    |a| == 0 || (|b| > 0 && if a[0] == b[0] then IsSubsequence(a[1..], b[1..]) else IsSubsequence(a, b[1..]))
  }

  /** An element is kept exactly when it is in the input and passes the test. */
  lemma {:induction false} FilterMembership<T>(s: seq<T>, keep: T -> bool, x: T)
    ensures x in Filter(s, keep) <==> x in s && keep(x)
    decreases |s|
  {
    if |s| > 0 {
      FilterMembership(s[1..], keep, x);
      assert s == [s[0]] + s[1..];
    }
  }

  /** An element kept occurs as often as in the input; any other not at all. */
  lemma {:induction false} FilterMultiplicity<T>(s: seq<T>, keep: T -> bool, x: T)
    ensures multiset(Filter(s, keep))[x] == if keep(x) then multiset(s)[x] else 0
    decreases |s|
  {
    if |s| > 0 {
      FilterMultiplicity(s[1..], keep, x);
      assert s == [s[0]] + s[1..];
    }
  }

  /** Filtering distributes over concatenation: relative order is kept and
      nothing is invented. */
  lemma {:induction false} FilterAppend<T>(a: seq<T>, b: seq<T>, keep: T -> bool)
    ensures Filter(a + b, keep) == Filter(a, keep) + Filter(b, keep)
    decreases |a|
  {
    if |a| == 0 {
      assert a + b == b;
    } else {
      assert (a + b)[1..] == a[1..] + b;
      FilterAppend(a[1..], b, keep);
    }
  }

  /** The filtered list is an order-preserving subsequence of the input. */
  lemma {:induction false} FilterIsSubsequence<T>(s: seq<T>, keep: T -> bool)
    ensures IsSubsequence(Filter(s, keep), s)
    decreases |s|
  {
    if |s| > 0 {
      FilterIsSubsequence(s[1..], keep);
      var r := Filter(s[1..], keep);
      if keep(s[0]) {
        assert ([s[0]] + r)[1..] == r;
      }
    }
  }

  /** When every element passes, filtering is the identity. */
  lemma {:induction false} FilterAllPass<T>(s: seq<T>, keep: T -> bool)
    requires forall k :: 0 <= k < |s| ==> keep(s[k])
    ensures Filter(s, keep) == s
    decreases |s|
  {
    if |s| > 0 {
      FilterAllPass(s[1..], keep);
      assert [s[0]] + s[1..] == s;
    }
  }

  /** Filtering twice with the same test is filtering once. */
  lemma FilterIdempotent<T>(s: seq<T>, keep: T -> bool)
    ensures Filter(Filter(s, keep), keep) == Filter(s, keep)
  {
    FilterAllPass(Filter(s, keep), keep);
  }

  /** Filtering by a conjunction is filtering by each test in turn. */
  lemma {:induction false} FilterConjunction<T>(s: seq<T>, p: T -> bool, q: T -> bool, both: T -> bool)
    requires forall x :: both(x) == (p(x) && q(x))
    ensures Filter(s, both) == Filter(Filter(s, p), q)
    decreases |s|
  {
    if |s| > 0 {
      FilterConjunction(s[1..], p, q, both);
    }
  }

  /** A stronger test keeps fewer elements. */
  lemma {:induction false} FilterMonotone<T>(s: seq<T>, p: T -> bool, q: T -> bool)
    requires forall x :: p(x) ==> q(x)
    ensures |Filter(s, p)| <= |Filter(s, q)|
    decreases |s|
  {
    if |s| > 0 {
      FilterMonotone(s[1..], p, q);
    }
  }

  /** `s.filter(p).length`. */
  function Count<T>(s: seq<T>, p: T -> bool): nat {
    |Filter(s, p)|
  }

  /** Counts of three mutually exclusive categories never exceed the total. */
  lemma {:induction false} ExclusiveCountsBounded<T>(s: seq<T>, p: T -> bool, q: T -> bool, r: T -> bool)
    requires forall x :: !(p(x) && q(x)) && !(p(x) && r(x)) && !(q(x) && r(x))
    ensures Count(s, p) + Count(s, q) + Count(s, r) <= |s|
    decreases |s|
  {
    if |s| > 0 {
      ExclusiveCountsBounded(s[1..], p, q, r);
    }
  }

  /** Counts of two mutually exclusive categories never exceed the total. */
  lemma {:induction false} ExclusivePairBounded<T>(s: seq<T>, p: T -> bool, q: T -> bool)
    requires forall x :: !(p(x) && q(x))
    ensures Count(s, p) + Count(s, q) <= |s|
    decreases |s|
  {
    if |s| > 0 {
      ExclusivePairBounded(s[1..], p, q);
    }
  }

  /** Counting over a concatenation adds up. */
  lemma CountAppend<T>(a: seq<T>, b: seq<T>, p: T -> bool)
    ensures Count(a + b, p) == Count(a, p) + Count(b, p)
  {
    FilterAppend(a, b, p);
  }
}

=== FILE: text.dfy ===
/** The string operations the pages and the checkout function use:
    `toLowerCase`, `includes`, `startsWith`, `trim`, and `replace` of a fixed
    string. Case mapping is ASCII only. */
module Text {

  /** ASCII lower-casing of one character; every other character is unchanged. */
  function LowerChar(c: char): char {
    if 'A' <= c <= 'Z' then (c as int + 32) as char else c
  }

  /** `s.toLowerCase()`, restricted to the ASCII case mapping. */
  function Lower(s: string): (r: string)
    ensures |r| == |s|
    ensures forall i :: 0 <= i < |s| ==> r[i] == LowerChar(s[i])
  {
    seq(|s|, i requires 0 <= i < |s| => LowerChar(s[i]))
  }

  /** `s.startsWith(p)`. */
  predicate StartsWith(s: string, p: string) {
    |p| <= |s| && s[..|p|] == p
  }

  /** `s.includes(sub)`: `sub` occurs at some position of `s`. */
  predicate Contains(s: string, sub: string)
    decreases |s|
  {
    StartsWith(s, sub) || (|s| > 0 && Contains(s[1..], sub))
  }

  /** Every string includes the empty string, so an empty search keeps everything. */
  lemma {:induction false} ContainsEmpty(s: string)
    ensures Contains(s, "")
  {
    assert StartsWith(s, "");
  }

  /** `sub` occurs in `s` starting at index `i`. */
  predicate OccursAt(s: string, sub: string, i: int) {
    0 <= i <= |s| - |sub| && s[i..i + |sub|] == sub
  }

  /** An occurrence found by `Contains` is a real slice of `s`. */
  lemma {:induction false} ContainsWitness(s: string, sub: string)
    requires Contains(s, sub)
    ensures exists i :: OccursAt(s, sub, i)
    decreases |s|
  {
    if StartsWith(s, sub) {
      assert OccursAt(s, sub, 0);
    } else {
      ContainsWitness(s[1..], sub);
      var i :| OccursAt(s[1..], sub, i);
      assert s[i + 1..i + 1 + |sub|] == s[1..][i..i + |sub|];
      assert OccursAt(s, sub, i + 1);
    }
  }

  /** A slice of `s` is found by `Contains`. */
  lemma {:induction false} SliceContained(s: string, sub: string, i: int)
    requires OccursAt(s, sub, i)
    ensures Contains(s, sub)
    decreases i
  {
    if i == 0 {
      assert s[..|sub|] == sub;
    } else {
      assert s[1..][i - 1..i - 1 + |sub|] == s[i..i + |sub|];
      SliceContained(s[1..], sub, i - 1);
    }
  }

  lemma LowerSlice(s: string, i: int, j: int)
    requires 0 <= i <= j <= |s|
    ensures Lower(s)[i..j] == Lower(s[i..j])
  {
  }

  /** Lower-casing both sides keeps every match: a case-insensitive search finds
      at least what a case-sensitive one finds. */
  lemma {:induction false} LowerKeepsContains(s: string, sub: string)
    requires Contains(s, sub)
    ensures Contains(Lower(s), Lower(sub))
  {
    ContainsWitness(s, sub);
    var i :| OccursAt(s, sub, i);
    LowerSlice(s, i, i + |sub|);
    SliceContained(Lower(s), Lower(sub), i);
  }

  lemma LowerIdempotent(s: string)
    ensures Lower(Lower(s)) == Lower(s)
  {
  }

  /** The characters JavaScript's `trim` removes: WhiteSpace and LineTerminator
      of ECMA-262 (section 12.2 and 12.3 of the 2022 edition). */
  predicate IsWhitespace(c: char) {
    || c == ' ' || c == '\t' || c == '\n' || c == '\r'
    || c == '\U{000B}' || c == '\U{000C}' || c == '\U{00A0}' || c == '\U{1680}'
    || ('\U{2000}' <= c <= '\U{200A}')
    || c == '\U{2028}' || c == '\U{2029}' || c == '\U{202F}' || c == '\U{205F}'
    || c == '\U{3000}' || c == '\U{FEFF}'
  }

  /** `trimStart`: the suffix of `s` left after dropping leading whitespace. */
  function TrimStart(s: string): (r: string)
    ensures |r| <= |s| && r == s[|s| - |r|..]
    ensures forall k :: 0 <= k < |s| - |r| ==> IsWhitespace(s[k])
    ensures |r| > 0 ==> !IsWhitespace(r[0])
  {
    if |s| > 0 && IsWhitespace(s[0]) then TrimStart(s[1..]) else s
  }

  /** `trimEnd`: the prefix of `s` left after dropping trailing whitespace. */
  function TrimEnd(s: string): (r: string)
    ensures |r| <= |s| && r == s[..|r|]
    ensures forall k :: |r| <= k < |s| ==> IsWhitespace(s[k])
    ensures |r| > 0 ==> !IsWhitespace(r[|r| - 1])
  {
    if |s| > 0 && IsWhitespace(s[|s| - 1]) then TrimEnd(s[..|s| - 1]) else s
  }

  /** `r` is the slice of `s` at `i` and everything around it is whitespace. */
  predicate TrimmedSliceAt(s: string, r: string, i: int) {
    && 0 <= i <= |s| - |r| && r == s[i..i + |r|]
    && (forall k :: 0 <= k < i ==> IsWhitespace(s[k]))
    && (forall k :: i + |r| <= k < |s| ==> IsWhitespace(s[k]))
  }

  /** `s.trim()`: a contiguous slice of `s` with whitespace on neither end, and
      everything cut away is whitespace. */
  function Trim(s: string): (r: string)
    ensures exists i :: TrimmedSliceAt(s, r, i)
    ensures |r| > 0 ==> !IsWhitespace(r[0]) && !IsWhitespace(r[|r| - 1])
  {
    var t := TrimStart(s);
    var r := TrimEnd(t);
    var i := |s| - |t|;
    assert TrimmedSliceAt(s, r, i);
    r
  }

  /** Trimming is pinned down by its specification: a slice with whitespace
      on neither end, around which only whitespace was cut, is the trim. */
  lemma TrimUnique(s: string, r: string, i: int)
    requires TrimmedSliceAt(s, r, i)
    requires |r| > 0 ==> !IsWhitespace(r[0]) && !IsWhitespace(r[|r| - 1])
    ensures r == Trim(s)
  {
    var t := Trim(s);
    var j :| TrimmedSliceAt(s, t, j);
    if |r| > 0 {
      assert s[i] == r[0] && s[i + |r| - 1] == r[|r| - 1];
      assert |t| > 0;
      assert s[j] == t[0] && s[j + |t| - 1] == t[|t| - 1];
      assert i == j && |r| == |t|;
    } else {
      assert forall k :: 0 <= k < |s| ==> IsWhitespace(s[k]);
    }
  }

  /** Trimming twice is trimming once. */
  lemma TrimIdempotent(s: string)
    ensures Trim(Trim(s)) == Trim(s)
  {
    var r := Trim(s);
    if |r| > 0 {
      assert TrimStart(r) == r;
      assert TrimEnd(r) == r;
    }
  }

  /** A string with no whitespace at either end is its own trim. */
  lemma TrimNoop(s: string)
    requires |s| > 0 ==> !IsWhitespace(s[0]) && !IsWhitespace(s[|s| - 1])
    ensures Trim(s) == s
  {
  }

  /** `i` is where `pat` first occurs in `s`. */
  predicate FirstOccurrence(s: string, pat: string, i: int) {
    OccursAt(s, pat, i) && forall j :: 0 <= j < i ==> !OccursAt(s, pat, j)
  }

  /** Past a non-matching first character, the first occurrence is found one
      position earlier in the rest of the string. */
  lemma FirstOccurrenceShift(s: string, pat: string, i: int)
    requires |s| > 0 && !StartsWith(s, pat) && FirstOccurrence(s, pat, i)
    ensures i > 0 && FirstOccurrence(s[1..], pat, i - 1)
  {
    assert s[0..|pat|] == s[..|pat|];
    assert !OccursAt(s, pat, 0);
    assert i > 0;
    assert s[1..][i - 1..i - 1 + |pat|] == s[i..i + |pat|];
    forall j | 0 <= j < i - 1 ensures !OccursAt(s[1..], pat, j) {
      assert !OccursAt(s, pat, j + 1);
      assert s[1..][j..j + |pat|] == s[j + 1..j + 1 + |pat|];
    }
  }

  /** A string that includes `pat` has a first occurrence of it. */
  lemma {:induction false} FirstOccurrenceExists(s: string, pat: string)
    requires Contains(s, pat)
    ensures exists i :: FirstOccurrence(s, pat, i)
    decreases |s|
  {
    if StartsWith(s, pat) {
      assert FirstOccurrence(s, pat, 0);
    } else {
      FirstOccurrenceExists(s[1..], pat);
      var i :| FirstOccurrence(s[1..], pat, i);
      assert s[i + 1..i + 1 + |pat|] == s[1..][i..i + |pat|];
      forall j | 0 <= j < i + 1 ensures !OccursAt(s, pat, j) {
        if j > 0 {
          assert !OccursAt(s[1..], pat, j - 1);
          assert j + |pat| <= |s|;
          assert s[1..][j - 1..j - 1 + |pat|] == s[j..j + |pat|];
        } else {
          assert s[..|pat|] == s[0..|pat|];
        }
      }
      assert FirstOccurrence(s, pat, i + 1);
    }
  }

  /** `s.replace(pat, "")` for a non-empty string pattern: the first occurrence
      of `pat`, if any, is removed. */
  function RemoveFirst(s: string, pat: string): (r: string)
    requires |pat| > 0
    ensures forall i :: FirstOccurrence(s, pat, i) ==> r == s[..i] + s[i + |pat|..]
    ensures StartsWith(s, pat) ==> r == s[|pat|..]
    ensures !Contains(s, pat) ==> r == s
    ensures Contains(s, pat) ==> |r| == |s| - |pat|
    decreases |s|
  {
    if StartsWith(s, pat) then
      assert OccursAt(s, pat, 0);
      s[|pat|..]
    else if |s| == 0 then s
    else
      var rest := RemoveFirst(s[1..], pat);
      assert forall i :: FirstOccurrence(s, pat, i) ==> [s[0]] + rest == s[..i] + s[i + |pat|..] by {
        forall i | FirstOccurrence(s, pat, i) ensures [s[0]] + rest == s[..i] + s[i + |pat|..] {
          FirstOccurrenceShift(s, pat, i);
          assert s[..i] == [s[0]] + s[1..][..i - 1];
          assert s[i + |pat|..] == s[1..][i - 1 + |pat|..];
        }
      }
      [s[0]] + rest
  }
}

=== FILE: use_organization.dfy ===
/** The organization hook: how one lookup of the signed-in user's membership
    row (with its joined organization) folds into the hook's four state cells. */
module UseOrganization {
  import opened Wrappers
  import Coerce

  datatype Organization = Organization(id: string, name: string, slug: string, description: Option<string>)

  datatype Member = Member(id: string, organizationId: string, userId: string, role: string, joinedAt: string)

  datatype OrgState = OrgState(
    organization: Option<Organization>,
    memberInfo: Option<Member>,
    loading: bool,
    error: Option<string>)

  /** The hook's state at mount. */
  const Initial := OrgState(None, None, true, None)

  /** The error code the data API returns when `.single()` finds no row. */
  const NoRowCode := "PGRST116"

  /** The message stored when the thrown value is not an `Error` instance. */
  const GenericError := "Une erreur est survenue"

  /** How the membership query ended: a row (whose joined organization may be
      missing), or a failure with its code, its message and whether the thrown
      value is an `Error` instance. */
  datatype MemberAnswer =
    | Found(member: Member, organization: Option<Organization>)
    | Failed(code: string, message: string, isErrorInstance: bool)

  /** The state between the start of a lookup and its answer. */
  function Start(s: OrgState): (r: OrgState)
    ensures r.loading && r.error.None?
    ensures r.organization == s.organization && r.memberInfo == s.memberInfo
  {
    s.(loading := true, error := None)
  }

  /** The state once the membership query has answered. */
  function Complete(s: OrgState, answer: MemberAnswer): OrgState {
    match answer
    case Found(m, org) => s.(memberInfo := Some(m), organization := org, loading := false)
    case Failed(code, message, isError) =>
      if code == NoRowCode then s.(organization := None, memberInfo := None, loading := false)
      else s.(error := Some(if isError then message else GenericError), loading := false)
  }

  /** `fetchOrganization` for the current user id, given the answer the query
      would get. */
  function Fetch(s: OrgState, userId: Option<string>, answer: MemberAnswer): (r: OrgState)
    ensures !r.loading
    ensures !Coerce.Truthy(userId) ==> r == s.(loading := false)
    ensures Coerce.Truthy(userId) && answer.Found? ==>
              r.memberInfo == Some(answer.member) && r.organization == answer.organization && r.error.None?
    ensures Coerce.Truthy(userId) && answer.Failed? && answer.code == NoRowCode ==>
              r.organization.None? && r.memberInfo.None? && r.error.None?
    ensures Coerce.Truthy(userId) && answer.Failed? && answer.code != NoRowCode ==>
              && r.organization == s.organization && r.memberInfo == s.memberInfo
              && r.error == Some(if answer.isErrorInstance then answer.message else GenericError)
  {
    if !Coerce.Truthy(userId) then s.(loading := false)
    else Complete(Start(s), answer)
  }

  /** `refetch` runs the same lookup again. */
  function Refetch(s: OrgState, userId: Option<string>, answer: MemberAnswer): OrgState {
    Fetch(s, userId, answer)
  }

  /** Retrying against an unchanged remote answer changes nothing more: the
      state after one lookup is a fixed point of the lookup. */
  lemma RefetchIdempotent(s: OrgState, userId: Option<string>, answer: MemberAnswer)
    ensures Refetch(Fetch(s, userId, answer), userId, answer) == Fetch(s, userId, answer)
  {
  }

  /** Whatever the state before, the lookup's result depends on that state only
      through the organization and member cells, and only on a real failure. */
  lemma FetchForgetsLoadingAndError(s: OrgState, t: OrgState, userId: Option<string>, answer: MemberAnswer)
    requires Coerce.Truthy(userId)
    requires s.organization == t.organization && s.memberInfo == t.memberInfo
    ensures Fetch(s, userId, answer) == Fetch(t, userId, answer)
  {
  }
}

=== FILE: wrappers.dfy ===
/** Optional values and results, standing for TypeScript's `T | null` and for
    operations that either produce a value or throw. */
module Wrappers {

  /** `None` plays the role of `null` / `undefined`. */
  datatype Option<+T> = None | Some(value: T) {

    /** The value, or `default` when there is none (`x ?? default`). */
    function GetOr(default: T): T {
      match this
      case Some(v) => v
      case None => default
    }
  }

  /** The outcome of a call that may throw: `Ok` carries the value, `Err` the error message. */
  datatype Result<+R> = Ok(value: R) | Err(message: string)
}

/** JavaScript truthiness as it appears in the forms and pages: the empty string,
    `null`/`undefined` and the number 0 are falsy. */
module Coerce {
  import opened Wrappers

  /** `s` is a present, non-empty string (what `if (s)` tests on a `string | null`). */
  predicate Truthy(s: Option<string>) {
    s.Some? && s.value != ""
  }

  /** `s || null` for a form field that always holds a string. */
  function OrNull(s: string): (r: Option<string>)
    ensures r.None? <==> s == ""
    ensures r.Some? ==> r.value == s
  {
    if s == "" then None else Some(s)
  }

  /** `o || fallback` on an optional string: the value when it is truthy, else `fallback`. */
  function OrElse(o: Option<string>, fallback: string): (r: string)
    ensures Truthy(o) ==> r == o.value
    ensures !Truthy(o) ==> r == fallback
  {
    if Truthy(o) then o.value else fallback
  }

  /** `o || ""`, the edit forms' load mapping for one nullable column. */
  function OrEmpty(o: Option<string>): string {
    OrElse(o, "")
  }

  /** `x || undefined` on an optional amount: 0 is falsy and is dropped. */
  function NonZero(x: Option<real>): (r: Option<real>)
    ensures r.Some? <==> x.Some? && x.value != 0.0
    ensures r.Some? ==> r == x
  {
    if x.Some? && x.value != 0.0 then x else None
  }

  /** Loading a nullable column into a form field and cleaning it again gives the
      column back exactly when the column did not hold the empty string. */
  lemma OrNullOrEmpty(o: Option<string>)
    ensures OrNull(OrEmpty(o)) == o <==> o != Some("")
  {
  }
}
